=== FILE: README.md ===
# Carla internal graph: a Dafny model

This project models the core of Carla's engine graph. It also models the
rack-mode parts of Carla's JUCE audio backend.

**Rack graph (`RackGraph`).** The engine's rack mode keeps:

- a connection table with consecutive ids;
- four audio routing lists: device inputs feeding the rack's two inputs, and
  the rack's two outputs feeding device outputs;
- a registry of external MIDI ports.

Its operations are `connect`, `disconnect`, `clearConnections`,
`getConnections` and `getGroupAndPortIdFromFullName`. The model also covers
the rack's name codec (`Carla:AudioIn1`, `AudioIn:<n>`, `MidiIn:<device>`)
and the block processing: the plugin chain of `process`, and the fan-in and
fan-out of `processHelper`.

**Patchbay graph (`PatchbayGraph`).** The patchbay mode wraps a node graph
of plugins and I/O nodes. Carla keeps its own connection table, the
`pluginId` node properties and the engine callbacks next to that graph. Port
ids come in bands:

- M = 255 is the patchbay plugin limit;
- audio input i of a node is port M+i;
- audio output i is port 2M+i;
- the MIDI input is 3M and the MIDI output is 3M+1.

Its operations are `addPlugin`, `replacePlugin`, `removePlugin`,
`removeAllPlugins`, `connect`, `disconnect`, `disconnectGroup`,
`clearConnections`, `refreshConnections`, `getConnections`, the port-id
adjustment, and the full-name helpers.

**Façade (`EngineInternalGraph`).** The engine's handle holds either a rack
or a patchbay, a mode flag and a ready flag, and forwards calls to the held
graph.

**JUCE backend (`CarlaEngineJuce`).** The model covers:

- the MIDI input queue (`RtMidiEvents`) and `handleIncomingMidiMessage`;
- the copy of queued MIDI into the engine's event-input array at the start
  of each block;
- `patchbayRefreshRack`;
- the four hooks that open and close rack MIDI ports.

**How the model is built.**

- Objects the source updates in place are classes: `RackGraph`,
  `PatchbayGraph`, `EngineInternalGraph`, `RtMidiEvents`, `CarlaEngineJuce`,
  and the engine's observable side `Engine`, which holds the last error and
  the callbacks emitted.
- Each loop of the source is a method with loop invariants. Each method is
  proved against a specification function, and lemmas state the properties
  of those functions.
- Samples are mathematical reals. Plugins are opaque: what a plugin computes
  is a function parameter.
- Whatever the engine or JUCE answers is a parameter:
  - whether a MIDI device opened or closed;
  - whether the node graph accepts a connection, apart from refusing an
    edge it already holds, which the model checks itself;
  - which edges the node graph considers legal;
  - device names and channel names;
  - whether the new plugin given to `replacePlugin` is the old plugin
    itself (`samePlugin`), since plugins are compared by pointer.

**Constants.** These values are not defined in the two source files. They
are Carla's enumeration order and limits:

- groups: Carla 0, AudioIn 1, AudioOut 2, MidiIn 3, MidiOut 4;
- Carla ports: AudioIn1/2 are 1 and 2, AudioOut1/2 are 3 and 4, MidiIn is 5,
  MidiOut is 6;
- 255 patchbay plugins;
- 512 internal engine events;
- 4 bytes of MIDI data per event;
- node-graph MIDI channel index 0x1000.

**Behaviour modelled as the code has it.** Where Carla's documentation
describes something else, the model follows the code:

- A rack with no processed plugin leaves its output silent. It does not pass
  its input through (`RackChain.NoActivePluginIsSilent`).
- The fan-in of `processHelper` skips a connected device input whose port
  equals the input count, although device inputs are numbered from 1
  (`RackRouting.FanInSkipsLastDeviceInput`).
- A rack `connect` that fails its endpoint checks returns false without
  setting the last error. Only a rejected connection of valid ports sets
  "Invalid rack connection".
- The setters of `EngineInternalGraph` leave it ready, even when no graph is
  held.
- Its plugin calls go to a held patchbay whatever the mode flag says.
- A second `create` in the other mode leaves the mode flag and the held
  graph disagreeing.
- `connectRackMidiOutPort` checks the input registry rather than the output
  one.
- `patchbayRefreshRack` appends to the MIDI registries without emptying
  them first.
- An open MIDI port missing from a non-empty registry is listed with port
  id 0 (`JuceBackend.UnregisteredPortListedAsZero`).
- The last device of a fresh registry is never listed as connected
  (`JuceBackend.LastMidiDeviceNotListed`).
- A queued MIDI event from a later block gets an absolute time rather than a
  block-relative one (`JuceMidi.FutureEventOutsideBlock`).

## Model

| member | source | states |
|---|---|---|
| Common.IndexOf | source/backend/engine/CarlaEngineJuce.cpp:712-724 | -1 exactly when the name is absent; otherwise the position of its first occurrence |
| Common.RemoveOne | source/backend/engine/CarlaEngineGraph.cpp:356-380 | `removeOne` drops the first occurrence when present, keeping the other elements in order (one fewer as a multiset), and leaves the list alone otherwise |
| Common.Clamp | source/backend/engine/CarlaEngineGraph.cpp:1131-1132 | the result lies in [lo, hi], equals the value inside the range and the nearer bound outside it |
| EngineCore.ZeroedEvents | source/backend/engine/CarlaEngineJuce.cpp:515-516 | a zeroed event array has the engine's fixed capacity and only empty slots |
| EngineCore.Engine.constructor | source/backend/engine/CarlaEngineGraph.cpp:154-164 | a fresh engine has no error and has emitted no callback |
| EngineCore.AdditionCallbacks | source/backend/engine/CarlaEngineJuce.cpp:386-399 | one CONNECTION_ADDED per table entry, in table order, carrying its id and both ends |
| EngineCore.IndexOfId | source/backend/engine/CarlaEngineGraph.cpp:322-330 | the table search skips id 0, gives -1 exactly when no entry has the id, and otherwise finds the first entry with it |
| EngineCore.RemoveAtKeepsIds | source/backend/engine/CarlaEngineGraph.cpp:399-402 | removing any one entry keeps ids nonzero, strictly increasing and within the counter |
| EngineCore.AppendNextKeepsIds | source/backend/engine/CarlaEngineGraph.cpp:304-314 | appending an entry with id lastId+1 keeps the id invariant with the bumped counter |
| Samples.Zeros | source/backend/engine/CarlaEngineGraph.cpp:740-741 | a cleared buffer has the block's length and only zero samples |
| Samples.Add | source/backend/engine/CarlaEngineGraph.cpp:687-738 | `FloatVectorOperations::add` sums the two buffers sample by sample |
| Samples.Accumulated | source/backend/engine/CarlaEngineGraph.cpp:746-771 | n accumulations of b onto a give a + n·b at every sample |
| Samples.AccumulateOnce | source/backend/engine/CarlaEngineGraph.cpp:746-771 | one more accumulation turns a + n·b into a + (n+1)·b |
| Samples.MinOf | source/backend/engine/CarlaEngineGraph.cpp:640-673 | the low end of `findMinAndMax` is a sample of the buffer and no sample lies below it (0 for an empty buffer) |
| Samples.MaxOf | source/backend/engine/CarlaEngineGraph.cpp:640-673 | the high end of `findMinAndMax` is a sample of the buffer and no sample lies above it (0 for an empty buffer) |
| Samples.MaxAbs | source/backend/engine/CarlaEngineGraph.cpp:640-673 | the largest magnitude is non-negative, bounds every sample's magnitude and is attained |
| Samples.Peak | source/backend/engine/CarlaEngineGraph.cpp:649-663 | a stored peak always lies in [0, 1] |
| Samples.PeakIsClampedMaxAbs | source/backend/engine/CarlaEngineGraph.cpp:649-663 | the peak of a channel is its largest magnitude, limited to 1 |
| RackNames.CarlaPortIdFromName | source/backend/engine/CarlaEngineGraph.cpp:39-57 | a short name yields either no port or one of the six Carla ports |
| RackNames.CarlaFullPortNameFromId | source/backend/engine/CarlaEngineGraph.cpp:59-83 | a name exists exactly for the six Carla ports, and it starts with `Carla:` followed by a port name |
| RackNames.NatToString | source/backend/engine/CarlaEngineGraph.cpp:467-490 | `%i` of a non-negative value is a non-empty string of digits |
| RackNames.AsInt32 | source/backend/engine/CarlaEngineGraph.cpp:467-490 | an unsigned port printed with `%i` is read as a signed 32-bit value congruent to it modulo 2^32 |
| RackNames.AtoiOfIntToString | source/backend/engine/CarlaEngineGraph.cpp:501-557 | `atoi` of a value printed with `%i` gives the value back |
| RackNames.FirstWithPort | source/backend/engine/CarlaEngineGraph.cpp:113-127 | the registry search by port skips invalid entries, fails exactly when no valid entry has the port, and otherwise finds the first one |
| RackNames.FirstWithName | source/backend/engine/CarlaEngineGraph.cpp:129-149 | the registry search by name skips invalid entries, fails exactly when no valid entry has the name, and otherwise finds the first one |
| RackNames.MidiPortName | source/backend/engine/CarlaEngineGraph.cpp:113-127 | `getName` succeeds exactly when a valid entry has that port id |
| RackNames.MidiPortId | source/backend/engine/CarlaEngineGraph.cpp:129-149 | `getPortId` succeeds exactly when a valid entry has that name |
| RackNames.RegistryRoundTrip | source/backend/engine/CarlaEngineGraph.cpp:113-149 | with distinct names, `getPortId(getName(p))` gives p back |
| RackNames.RackPortFromFullName | source/backend/engine/CarlaEngineGraph.cpp:501-557 | a parsed full name names a known group, and a Carla-group result is one of the six Carla ports |
| RackNames.CarlaFullNameRoundTrip | source/backend/engine/CarlaEngineGraph.cpp:39-83 | every Carla port's full name, and its kebab-case alias, parses back to that port |
| RackNames.AudioFullNameParse | source/backend/engine/CarlaEngineGraph.cpp:501-557 | `AudioIn:<s>` / `AudioOut:<s>` resolve exactly when `atoi(s)` is nonzero, to that hardware port |
| RackNames.AudioFullNameRoundTrip | source/backend/engine/CarlaEngineGraph.cpp:467-557 | a nonzero 32-bit hardware port formatted as `getConnections` does parses back to the same port |
| RackNames.MidiFullNameParse | source/backend/engine/CarlaEngineGraph.cpp:501-557 | `MidiIn:<name>` / `MidiOut:<name>` resolve exactly when the name is registered in that direction, to its id |
| RackRouting.FanInIsSum | source/backend/engine/CarlaEngineGraph.cpp:687-738 | every sample of an internal input is the sum of that sample over the qualifying connected device inputs |
| RackRouting.FanInWithoutConnections | source/backend/engine/CarlaEngineGraph.cpp:687-738 | with no qualifying connection the internal input is silent |
| RackRouting.FanInSkipsLastDeviceInput | source/backend/engine/CarlaEngineGraph.cpp:687-738 | a connection to the device input numbered like the input count contributes nothing |
| RackRouting.FanOutAccumulates | source/backend/engine/CarlaEngineGraph.cpp:746-771 | each device output receives the rack output once per connection to it and is otherwise unchanged |
| RackChain.FitChannel | source/backend/engine/CarlaEngineGraph.cpp:596-622 | a plugin's output occupies the buffer, padded with silence |
| RackChain.FitEvents | source/backend/engine/CarlaEngineGraph.cpp:596-622 | a plugin's event output occupies the fixed array, padded with empty events |
| RackChain.InitialChain | source/backend/engine/CarlaEngineGraph.cpp:572-581 | before the loop the input is the block's input, and the output and event output are cleared |
| RackChain.PeakPair | source/backend/engine/CarlaEngineGraph.cpp:640-673 | both peaks lie in [0, 1] and are zero for a plugin without such ports |
| RackChain.InactiveSlotsKeepState | source/backend/engine/CarlaEngineGraph.cpp:587-595 | slots that are absent, disabled or not locked change nothing |
| RackChain.NoActivePluginIsSilent | source/backend/engine/CarlaEngineGraph.cpp:572-676 | with no processed plugin the output stays silent, no event is output and the peaks are untouched |
| RackChain.PeaksOfInactiveSlotKept | source/backend/engine/CarlaEngineGraph.cpp:640-673 | a slot's peaks change only when that slot is processed |
| RackChain.FirstActivePlugin | source/backend/engine/CarlaEngineGraph.cpp:596-638 | the first processed plugin reads the block's input and events; a plugin without audio inputs has that input added to its output |
| RackChain.SilentGeneratorPassesThrough | source/backend/engine/CarlaEngineGraph.cpp:634-638 | a plugin without audio inputs that outputs silence passes its input through |
| Rack.CarlaEnd | source/backend/engine/CarlaEngineGraph.cpp:231-257 | an entry has a Carla end exactly when one end is Carla, its port is one of the six and the other group is external; the ends are oriented |
| Rack.GroupForCarlaPort | source/backend/engine/CarlaEngineGraph.cpp:255-296 | every Carla port pairs with one external group |
| Rack.RoutedPortsRemoveAt | source/backend/engine/CarlaEngineGraph.cpp:356-380 | removing an entry removes exactly its own port from its Carla port's routes and nothing else |
| Rack.WithRouteAppends | source/backend/engine/CarlaEngineGraph.cpp:255-283 | connecting appends the external port to its Carla port's list only |
| Rack.WithoutRouteRemoves | source/backend/engine/CarlaEngineGraph.cpp:356-380 | disconnecting removes one occurrence from its Carla port's list only |
| Rack.AppendKeepsRouting | source/backend/engine/CarlaEngineGraph.cpp:255-314 | the routing lists keep mirroring the table (as multisets) after a connect |
| Rack.RemoveKeepsRouting | source/backend/engine/CarlaEngineGraph.cpp:356-402 | the routing lists keep mirroring the table after a disconnect |
| Rack.AppendKeepsTable | source/backend/engine/CarlaEngineGraph.cpp:304-314 | a connect keeps the table invariant: increasing ids, well-formed entries, mirrored routes |
| Rack.RemoveKeepsTable | source/backend/engine/CarlaEngineGraph.cpp:356-402 | a disconnect keeps the table invariant |
| Rack.EntryNames | source/backend/engine/CarlaEngineGraph.cpp:424-499 | an entry lists two names exactly when its id is nonzero and its ends pass the checks, otherwise none |
| Rack.ConnectionNamesLength | source/backend/engine/CarlaEngineGraph.cpp:424-499 | a table of connect-made entries lists exactly two names per entry |
| Rack.ConnectionNamesAt | source/backend/engine/CarlaEngineGraph.cpp:424-499 | entry k's names sit at positions 2k and 2k+1 |
| Rack.AudioEntryNamesParseBack | source/backend/engine/CarlaEngineGraph.cpp:424-557 | the names listed for an audio connection parse back to its two ends |
| Rack.MidiEntryNamesParseBack | source/backend/engine/CarlaEngineGraph.cpp:424-557 | the names listed for a MIDI connection with a uniquely named port parse back to its two ends |
| Rack.RackInput | source/backend/engine/CarlaEngineGraph.cpp:687-738 | without device inputs the rack's input is silent |
| Rack.ConnectInputs | source/backend/engine/CarlaEngineGraph.cpp:687-738 | the fan-in loop computes exactly the summed connected inputs |
| Rack.AccumulateOutputs | source/backend/engine/CarlaEngineGraph.cpp:746-771 | the fan-out loop leaves exactly the accumulated device outputs |
| Rack.RackGraph.constructor | source/backend/engine/CarlaEngineGraph.cpp:154-164 | a new rack has an empty table, routes and registry, the given sizes, and is online |
| Rack.RackGraph.SetBufferSize | source/backend/engine/CarlaEngineGraph.cpp:171-220 | only the buffer size changes |
| Rack.RackGraph.SetOffline | source/backend/engine/CarlaEngineGraph.cpp:222-225 | only the offline flag changes |
| Rack.RackGraph.AppendRoute | source/backend/engine/CarlaEngineGraph.cpp:255-283 | only the routing list of the Carla port grows |
| Rack.RackGraph.RemoveRoute | source/backend/engine/CarlaEngineGraph.cpp:356-380 | only the routing list of the Carla port loses one occurrence |
| Rack.RackGraph.Connect | source/backend/engine/CarlaEngineGraph.cpp:227-315 | succeeds exactly for valid matching ends (and, for MIDI, a registered port that opened); then the route is added, the entry gets the next id and CONNECTION_ADDED is emitted; otherwise the table is unchanged and only a refused connection of valid ends records "Invalid rack connection" |
| Rack.RackGraph.AddConnection | source/backend/engine/CarlaEngineGraph.cpp:304-314 | the success path appends the route and the entry with the next id and announces it, keeping the invariant |
| Rack.RackGraph.Disconnect | source/backend/engine/CarlaEngineGraph.cpp:317-407 | an empty table fails silently; an unknown id records "Failed to find connection"; a found entry is removed with its route and CONNECTION_REMOVED exactly when the audio route exists or the MIDI port closed |
| Rack.RackGraph.RemoveConnection | source/backend/engine/CarlaEngineGraph.cpp:356-402 | the success path removes the entry and one occurrence of its route and announces it, keeping the invariant |
| Rack.RackGraph.ClearConnections | source/backend/engine/CarlaEngineGraph.cpp:409-422 | table, routing lists and registry end up empty; settings are kept |
| Rack.RackGraph.GetConnections | source/backend/engine/CarlaEngineGraph.cpp:424-499 | nothing for an empty table; otherwise the names of every entry in table order (source first, as `Rack.AudioEntryNamesParseBack` and `Rack.MidiEntryNamesParseBack` prove) |
| Rack.RackGraph.Process | source/backend/engine/CarlaEngineGraph.cpp:559-677 | the plugin loop leaves the outputs, events and peaks of the chain specification |
| Rack.RackGraph.ProcessHelper | source/backend/engine/CarlaEngineGraph.cpp:679-772 | without scratch buffers nothing changes; otherwise the chain runs on the fanned-in inputs and its output is fanned out onto the device outputs |
| PatchbayPorts.AdjustPortIdForJuce | source/backend/engine/CarlaEngineGraph.cpp:782-810 | ids outside the bands have no channel; each band maps to its channel index and both MIDI ports to the MIDI channel |
| PatchbayPorts.SourcePortRoundTrip | source/backend/engine/CarlaEngineGraph.cpp:1461-1469 | a channel translated back as a source is a source port that adjusts to the same channel |
| PatchbayPorts.DestPortRoundTrip | source/backend/engine/CarlaEngineGraph.cpp:1461-1469 | a channel translated back as a destination is a destination port that adjusts to the same channel |
| PatchbayPorts.SourceAdjustInverts | source/backend/engine/CarlaEngineGraph.cpp:782-810 | on source ports, translating back inverts the adjustment |
| PatchbayPorts.DestAdjustInverts | source/backend/engine/CarlaEngineGraph.cpp:782-810 | on destination ports, translating back inverts the adjustment |
| PatchbayPorts.AdjustForgetsDirection | source/backend/engine/CarlaEngineGraph.cpp:782-810 | an input and an output of the same index, and the two MIDI ports, share a channel |
| PatchbayPorts.ProcessorFullPortName | source/backend/engine/CarlaEngineGraph.cpp:812-845 | empty outside the bands or for a missing direction; otherwise `<processor>:` followed by the port |
| PatchbayPorts.GroupNameOf | source/backend/engine/CarlaEngineGraph.cpp:1528-1579 | the part before the first colon, or the whole name without one |
| PatchbayPorts.PortNameOf | source/backend/engine/CarlaEngineGraph.cpp:1528-1579 | empty for a name without a colon |
| PatchbayPorts.SplitFullName | source/backend/engine/CarlaEngineGraph.cpp:1528-1579 | a colon-free group name joined with a port name splits back into both |
| PatchbayPorts.PortIdInProcessor | source/backend/engine/CarlaEngineGraph.cpp:1528-1579 | the MIDI names select the MIDI ports and only they always resolve |
| PatchbayPorts.FindPort | source/backend/engine/CarlaEngineGraph.cpp:1528-1579 | a found port belongs to a node of that name; none is found exactly when no such node offers the port |
| PatchbayPorts.PortBand | source/backend/engine/CarlaEngineGraph.cpp:847-879 | a band lists its ids consecutively from its offset |
| PatchbayPorts.AnnouncedPortName | source/backend/engine/CarlaEngineGraph.cpp:812-845 | every announced port of a well-named processor has a short name that resolves back to it |
| PatchbayPorts.InputPortName | source/backend/engine/CarlaEngineGraph.cpp:812-845 | audio input j is named after channel j and resolves back to it |
| PatchbayPorts.OutputPortName | source/backend/engine/CarlaEngineGraph.cpp:812-845 | audio output j is named after channel j and resolves back to it |
| PatchbayPorts.FindPortOfUniqueName | source/backend/engine/CarlaEngineGraph.cpp:1528-1579 | the lookup finds a uniquely named node as soon as it offers the port |
| PatchbayPorts.FullPortNameRoundTrip | source/backend/engine/CarlaEngineGraph.cpp:812-845 | every announced port's full name resolves back to the same node and port |
| PatchbayPorts.PortAdditions | source/backend/engine/CarlaEngineGraph.cpp:847-879 | one PORT_ADDED per channel, in order, with consecutive ids and the channel's name |
| PatchbayPorts.RemovalMirrorsAddition | source/backend/engine/CarlaEngineGraph.cpp:847-912 | removal withdraws exactly the ports addition announced, in the same order, then the client |
| PatchbayPorts.AnnouncedPortsResolve | source/backend/engine/CarlaEngineGraph.cpp:847-879 | each announced port carries the name the full-name functions give and its band's direction |
| PatchbayPorts.AddNodeToPatchbay | source/backend/engine/CarlaEngineGraph.cpp:847-879 | emits the node's client and port announcements and records no error |
| PatchbayPorts.AddPortBand | source/backend/engine/CarlaEngineGraph.cpp:847-879 | one port loop emits that band's additions |
| PatchbayPorts.RemovePortBand | source/backend/engine/CarlaEngineGraph.cpp:881-912 | one port loop withdraws that band's ports in order |
| PatchbayPorts.RemoveNodeFromPatchbay | source/backend/engine/CarlaEngineGraph.cpp:881-912 | emits the node's port and client removals and records no error |
| Patchbay.GroupMembers | source/backend/engine/CarlaEngineGraph.cpp:1382-1413 | an entry is kept exactly when it does not touch the group and dropped exactly when it does |
| Patchbay.RemovalCallbacks | source/backend/engine/CarlaEngineGraph.cpp:1382-1413 | one CONNECTION_REMOVED per dropped entry, in order |
| Patchbay.GroupPartition | source/backend/engine/CarlaEngineGraph.cpp:1382-1413 | kept and dropped entries together are the table, with nothing lost or duplicated |
| Patchbay.RemoveGroupEntries | source/backend/engine/CarlaEngineGraph.cpp:1382-1413 | the in-place removal loop leaves exactly the kept entries and announces exactly the dropped ones |
| Patchbay.KeptKeepsIds | source/backend/engine/CarlaEngineGraph.cpp:1382-1413 | the kept entries still have increasing ids |
| Patchbay.RefreshedIds | source/backend/engine/CarlaEngineGraph.cpp:1449-1481 | the rebuilt table meets the id invariant with the counter after its last id |
| Patchbay.RefreshedEntriesMapBack | source/backend/engine/CarlaEngineGraph.cpp:1461-1469 | each rebuilt entry stands for exactly the edge it was made from |
| Patchbay.EdgesWithout | source/backend/engine/CarlaEngineGraph.cpp:1346-1380 | an edge remains exactly when it was there and is not the removed one; no edge is added |
| Patchbay.EdgesWithoutNode | source/backend/engine/CarlaEngineGraph.cpp:1259-1290 | an edge remains exactly when it was there and does not touch the removed node |
| Patchbay.LegalEdges | source/backend/engine/CarlaEngineGraph.cpp:1423-1482 | an edge remains exactly when it was there and is legal |
| Patchbay.DistinctSnoc | source/backend/engine/CarlaEngineGraph.cpp:1315-1344 | adding an edge that is not there keeps the node graph free of duplicate edges |
| Patchbay.EdgesWithoutDistinct | source/backend/engine/CarlaEngineGraph.cpp:1346-1380 | removing an edge keeps the remaining edges free of duplicates |
| Patchbay.EdgesWithoutNodeDistinct | source/backend/engine/CarlaEngineGraph.cpp:1259-1290 | removing a node's edges keeps the remaining edges free of duplicates |
| Patchbay.LegalEdgesDistinct | source/backend/engine/CarlaEngineGraph.cpp:1423-1482 | dropping the illegal edges keeps the remaining edges free of duplicates |
| Patchbay.AddThenRemoveEdge | source/backend/engine/CarlaEngineGraph.cpp:1315-1380 | removing an edge just added (not present before) restores the edges |
| Patchbay.NodeIndex | source/backend/engine/CarlaEngineGraph.cpp:1207-1290 | -1 exactly when no node has the id; otherwise the node with it |
| Patchbay.AnnounceNode | source/backend/engine/CarlaEngineGraph.cpp:1430-1445 | one node's announcements are emitted unless the patchbay is ignored |
| Patchbay.AnnounceNodes | source/backend/engine/CarlaEngineGraph.cpp:1430-1445 | every node is announced in order, or nothing when the patchbay is ignored |
| Patchbay.SetPluginIdOf | source/backend/engine/CarlaEngineGraph.cpp:1276-1287 | only the pluginId of the node with that id changes, and only if it has one |
| Patchbay.SetPluginIdAt | source/backend/engine/CarlaEngineGraph.cpp:1276-1287 | node k changes exactly when it is that node and carries a pluginId |
| Patchbay.RenumberFrom | source/backend/engine/CarlaEngineGraph.cpp:1276-1287 | renumbering changes only pluginIds: node ids and processors are kept |
| Patchbay.RunEnd | source/backend/engine/CarlaEngineGraph.cpp:1276-1287 | the loop stops at the first missing plugin or at the plugin count |
| Patchbay.RenumberKeepsNodeIds | source/backend/engine/CarlaEngineGraph.cpp:1276-1287 | renumbering keeps node ids increasing |
| Patchbay.RenumberShiftsDown | source/backend/engine/CarlaEngineGraph.cpp:1276-1287 | the node of engine plugin j in the walked part ends with pluginId j-1 |
| Patchbay.RenumberLeavesOthers | source/backend/engine/CarlaEngineGraph.cpp:1276-1287 | a node of no walked plugin keeps its pluginId |
| Patchbay.Detach | source/backend/engine/CarlaEngineGraph.cpp:1225-1257 | detaching removes exactly one node (what goes with it is stated by the lemmas below) |
| Patchbay.DetachKeepsNodeIds | source/backend/engine/CarlaEngineGraph.cpp:1225-1257 | the other nodes keep increasing ids |
| Patchbay.DetachRemovesNode | source/backend/engine/CarlaEngineGraph.cpp:1225-1257 | no node with the id and no edge touching it remains; every other node stays |
| Patchbay.DetachRenumbered | source/backend/engine/CarlaEngineGraph.cpp:1259-1290 | renumbering first does not change what detaching announces or drops |
| Patchbay.DetachDropsConnections | source/backend/engine/CarlaEngineGraph.cpp:1225-1257 | unless ignored, no entry touching the node remains and every other entry stays |
| Patchbay.RemoveAllOnlyRemoves | source/backend/engine/CarlaEngineGraph.cpp:1292-1313 | `removeAllPlugins` keeps node ids increasing and only removes nodes |
| Patchbay.RemoveAllRemovesListed | source/backend/engine/CarlaEngineGraph.cpp:1292-1313 | no node of a listed plugin is left |
| Patchbay.RemoveAllKeepsUnlisted | source/backend/engine/CarlaEngineGraph.cpp:1292-1313 | nodes of no listed plugin all remain |
| Patchbay.RemoveAllDropsConnections | source/backend/engine/CarlaEngineGraph.cpp:1292-1313 | unless ignored, no entry touching a removed plugin's node remains |
| Patchbay.ConnectionsOnlyShrink | source/backend/engine/CarlaEngineGraph.cpp:1292-1313 | the removal loop never adds an entry |
| Patchbay.EntryNames | source/backend/engine/CarlaEngineGraph.cpp:1484-1526 | an entry lists either no name or two names |
| Patchbay.EntryNamesResolve | source/backend/engine/CarlaEngineGraph.cpp:1484-1579 | the names listed for an entry resolve back to its two ends |
| Patchbay.DisconnectUndoesConnect | source/backend/engine/CarlaEngineGraph.cpp:1315-1380 | disconnecting the entry just connected restores the table and the edges |
| Patchbay.PatchbayGraph.constructor | source/backend/engine/CarlaEngineGraph.cpp:1126-1179 | channel counts are clamped to the plugin limit and the four I/O nodes get ids 1 to 4 |
| Patchbay.PatchbayGraph.SetBufferSize | source/backend/engine/CarlaEngineGraph.cpp:1189-1194 | only the buffer size changes |
| Patchbay.PatchbayGraph.SetSampleRate | source/backend/engine/CarlaEngineGraph.cpp:1196-1200 | only the sample rate changes |
| Patchbay.PatchbayGraph.SetOffline | source/backend/engine/CarlaEngineGraph.cpp:1202-1205 | only the offline flag changes |
| Patchbay.PatchbayGraph.SetIgnorePatchbay | source/backend/engine/CarlaEngineGraph.cpp:1795-1799 | only the ignore flag changes |
| Patchbay.PatchbayGraph.AddPlugin | source/backend/engine/CarlaEngineGraph.cpp:1207-1223 | a plugin node with the next node id and the plugin's id is appended and announced unless ignored |
| Patchbay.PatchbayGraph.RemoveNode | source/backend/engine/CarlaEngineGraph.cpp:1259-1290 | the node and its edges leave the node graph |
| Patchbay.PatchbayGraph.DisconnectGroup | source/backend/engine/CarlaEngineGraph.cpp:1382-1413 | the table keeps exactly the entries not touching the group, and the dropped ones are announced |
| Patchbay.PatchbayGraph.AnnounceNodeRemoval | source/backend/engine/CarlaEngineGraph.cpp:1225-1257 | unless ignored, the node's connections and then its ports and client are withdrawn |
| Patchbay.PatchbayGraph.DetachNode | source/backend/engine/CarlaEngineGraph.cpp:1225-1257 | leaves the state `Detach` describes |
| Patchbay.PatchbayGraph.ReplacePlugin | source/backend/engine/CarlaEngineGraph.cpp:1225-1257 | the old node is detached and a node for the new plugin added; nothing changes when the new plugin is the old one itself, for different ids or for a missing node |
| Patchbay.PatchbayGraph.RenumberPlugins | source/backend/engine/CarlaEngineGraph.cpp:1276-1287 | the loop leaves the pluginIds `RenumberFrom` describes |
| Patchbay.PatchbayGraph.RemovePlugin | source/backend/engine/CarlaEngineGraph.cpp:1259-1290 | the node is withdrawn, later plugins shift down by one, and the node goes; nothing for a plugin without a node |
| Patchbay.PatchbayGraph.RemovePluginNode | source/backend/engine/CarlaEngineGraph.cpp:1259-1290 | the found node's removal as `RemovePlugin` describes it |
| Patchbay.PatchbayGraph.RemoveAllPlugins | source/backend/engine/CarlaEngineGraph.cpp:1292-1313 | every listed plugin's node is detached in turn, skipping missing plugins and plugins without a node |
| Patchbay.PatchbayGraph.DetachPluginNode | source/backend/engine/CarlaEngineGraph.cpp:1292-1313 | one pass of the removal loop |
| Patchbay.PatchbayGraph.Connect | source/backend/engine/CarlaEngineGraph.cpp:1315-1344 | succeeds exactly when both ports lie in the bands, the edge is not already there and the node graph accepts; then the edge and an entry with the next id are added and announced; a refusal by the node graph records "Failed from juce"; an out-of-band port records nothing; a failure changes nothing else |
| Patchbay.PatchbayGraph.Disconnect | source/backend/engine/CarlaEngineGraph.cpp:1346-1380 | an unknown id records "Failed to find connection"; a found entry succeeds exactly when its ports are in the bands and its edge exists, and is then removed with its edge and announced; a failure changes nothing else |
| Patchbay.PatchbayGraph.RemoveEntry | source/backend/engine/CarlaEngineGraph.cpp:1346-1380 | the edge, then the entry go, and the removal is announced |
| Patchbay.PatchbayGraph.ClearConnections | source/backend/engine/CarlaEngineGraph.cpp:1415-1421 | the table and the node graph's edges end empty; nodes and settings are kept |
| Patchbay.PatchbayGraph.ListEdges | source/backend/engine/CarlaEngineGraph.cpp:1449-1481 | one announced entry per edge with the next ids |
| Patchbay.PatchbayGraph.RefreshConnections | source/backend/engine/CarlaEngineGraph.cpp:1423-1482 | the illegal edges go, the nodes are announced unless ignored, and the table is rebuilt from the remaining edges with ids ending at the counter |
| Patchbay.PatchbayGraph.GetConnections | source/backend/engine/CarlaEngineGraph.cpp:1484-1526 | nothing for an empty table or list; otherwise the names of every listed entry, source first |
| InternalGraph.EngineInternalGraph.constructor | source/backend/engine/CarlaEngineGraph.cpp:1625-1630 | a new façade is in rack mode, not ready, without a graph |
| InternalGraph.EngineInternalGraph.Create | source/backend/engine/CarlaEngineGraph.cpp:1638-1654 | the mode is set first; with no graph held a new graph of that kind is made and the façade is ready; with one held nothing else changes |
| InternalGraph.EngineInternalGraph.Destroy | source/backend/engine/CarlaEngineGraph.cpp:1656-1678 | the façade ends not ready and without a graph |
| InternalGraph.EngineInternalGraph.SetBufferSize | source/backend/engine/CarlaEngineGraph.cpp:1680-1694 | the held graph gets the new size and the façade is ready afterwards |
| InternalGraph.EngineInternalGraph.SetSampleRate | source/backend/engine/CarlaEngineGraph.cpp:1696-1709 | a patchbay gets the new rate, a rack is untouched, and the façade is ready afterwards |
| InternalGraph.EngineInternalGraph.SetOffline | source/backend/engine/CarlaEngineGraph.cpp:1711-1725 | the held graph gets the flag and the façade is ready afterwards |
| InternalGraph.EngineInternalGraph.GetRackGraph | source/backend/engine/CarlaEngineGraph.cpp:1732-1737 | a rack is returned exactly in rack mode with a rack held |
| InternalGraph.EngineInternalGraph.GetPatchbayGraph | source/backend/engine/CarlaEngineGraph.cpp:1739-1744 | a patchbay is returned exactly in patchbay mode with a patchbay held |
| InternalGraph.EngineInternalGraph.Process | source/backend/engine/CarlaEngineGraph.cpp:1746-1758 | in rack mode the rack's `processHelper` runs; without a graph nothing changes |
| InternalGraph.EngineInternalGraph.ProcessRack | source/backend/engine/CarlaEngineGraph.cpp:1760-1767 | the rack's `process` runs exactly in rack mode with a rack held |
| InternalGraph.EngineInternalGraph.AddPlugin | source/backend/engine/CarlaEngineGraph.cpp:1771-1775 | forwarded to a held patchbay; nothing changes otherwise |
| InternalGraph.EngineInternalGraph.ReplacePlugin | source/backend/engine/CarlaEngineGraph.cpp:1777-1781 | forwarded to a held patchbay; nothing changes otherwise |
| InternalGraph.EngineInternalGraph.RemovePlugin | source/backend/engine/CarlaEngineGraph.cpp:1783-1787 | forwarded to a held patchbay; nothing changes otherwise |
| InternalGraph.EngineInternalGraph.RemoveAllPlugins | source/backend/engine/CarlaEngineGraph.cpp:1789-1793 | forwarded to a held patchbay; nothing changes otherwise |
| InternalGraph.EngineInternalGraph.SetIgnorePatchbay | source/backend/engine/CarlaEngineGraph.cpp:1795-1799 | sets the flag of a held patchbay; nothing changes otherwise |
| JuceMidi.RtMidiEvents.constructor | source/backend/engine/CarlaEngineJuce.cpp:787-791 | both lists start empty |
| JuceMidi.RtMidiEvents.Append | source/backend/engine/CarlaEngineJuce.cpp:798-803 | the event joins the end of the queue, in the pending list only |
| JuceMidi.RtMidiEvents.Clear | source/backend/engine/CarlaEngineJuce.cpp:805-811 | the queue ends empty |
| JuceMidi.RtMidiEvents.Splice | source/backend/engine/CarlaEngineJuce.cpp:813-817 | pending events move behind the live ones; the queue as a whole is unchanged |
| JuceMidi.BlockTime | source/backend/engine/CarlaEngineJuce.cpp:528-538 | past events go to 0, events in the block to their offset; the result is a 32-bit value |
| JuceMidi.FutureEventOutsideBlock | source/backend/engine/CarlaEngineJuce.cpp:532-536 | a later block's event lands outside the current block whenever the block does not start at frame 0 |
| JuceMidi.StagedCount | source/backend/engine/CarlaEngineJuce.cpp:518-547 | a block stages min(queued, 512) events: nothing lost below capacity, the rest dropped |
| JuceMidi.StagedEventInBlock | source/backend/engine/CarlaEngineJuce.cpp:518-547 | a staged event keeps size and bytes and, when not in the future, lands in the block |
| JuceMidi.StageMidiIn | source/backend/engine/CarlaEngineJuce.cpp:514-547 | when the try-lock succeeds the queue is staged in order and emptied; otherwise the array is zeroed and the queue untouched |
| JuceMidi.PaddedBytes | source/backend/engine/CarlaEngineJuce.cpp:636-639 | the message bytes first, then zeros up to the event's data size |
| JuceMidi.HandleIncomingMidiMessage | source/backend/engine/CarlaEngineJuce.cpp:626-642 | messages of 1 to 4 bytes are queued with time 0, their size and padded bytes; others are ignored |
| JuceBackend.DeviceShortName | source/backend/engine/CarlaEngineJuce.cpp:306-309 | the device name cut before its first `", "`, or whole without one |
| JuceBackend.PortAnnouncements | source/backend/engine/CarlaEngineJuce.cpp:322-323 | one PORT_ADDED per channel name with 1-based ids |
| JuceBackend.MidiRegistry | source/backend/engine/CarlaEngineJuce.cpp:347-359 | one registry entry per device with 1-based ids and prefixed full names |
| JuceBackend.AnnounceClient | source/backend/engine/CarlaEngineJuce.cpp:311-339 | emits the client, then one port per name |
| JuceBackend.RegisterMidiPorts | source/backend/engine/CarlaEngineJuce.cpp:341-381 | the registry grows at its end by the devices' entries, and client and ports are announced |
| JuceBackend.AnnounceAudio | source/backend/engine/CarlaEngineJuce.cpp:294-339 | emits the Carla client and ports, then the capture and playback clients |
| JuceBackend.AnnounceRack | source/backend/engine/CarlaEngineJuce.cpp:294-381 | every announcement before the connections; the MIDI devices are appended to the registries |
| JuceBackend.OpenPortIds | source/backend/engine/CarlaEngineJuce.cpp:448-482 | only ids below the registry's size are listed, at most one per open port |
| JuceBackend.AudioTableRoutes | source/backend/engine/CarlaEngineJuce.cpp:384-446 | the audio part routes to each Carla port exactly its routing list, in order |
| JuceBackend.RefreshedRoutes | source/backend/engine/CarlaEngineJuce.cpp:384-484 | the rebuilt table routes each audio Carla port exactly its list |
| JuceBackend.RefreshedShape | source/backend/engine/CarlaEngineJuce.cpp:384-484 | the rebuilt table has consecutive ids and well-formed entries |
| JuceBackend.RefreshKeepsTableInvariant | source/backend/engine/CarlaEngineJuce.cpp:284-484 | after a refresh the rack's table invariant holds, whatever was there before |
| JuceBackend.LastMidiDeviceNotListed | source/backend/engine/CarlaEngineJuce.cpp:452-453 | the last device of a fresh registry is never listed |
| JuceBackend.UnregisteredPortListedAsZero | source/backend/engine/CarlaEngineJuce.cpp:452-456 | an unregistered open port is listed with id 0 |
| JuceBackend.ListRoutes | source/backend/engine/CarlaEngineJuce.cpp:386-444 | one announced entry per routed port, ids following the counter |
| JuceBackend.ListMidiRoutes | source/backend/engine/CarlaEngineJuce.cpp:448-482 | one announced entry per open port with a registered id |
| JuceBackend.CarlaEngineJuce.constructor | source/backend/engine/CarlaEngineJuce.cpp:80 | no MIDI port is open |
| JuceBackend.CarlaEngineJuce.ConnectRackMidiInPort | source/backend/engine/CarlaEngineJuce.cpp:647-672 | succeeds exactly when the checks pass and the name is a readable device; then the port is appended |
| JuceBackend.CarlaEngineJuce.ConnectRackMidiOutPort | source/backend/engine/CarlaEngineJuce.cpp:674-701 | the same for writable devices, checking the input registry |
| JuceBackend.CarlaEngineJuce.DisconnectRackMidiInPort | source/backend/engine/CarlaEngineJuce.cpp:703-728 | succeeds exactly when the checks pass and the port is open; then one such port is removed |
| JuceBackend.CarlaEngineJuce.DisconnectRackMidiOutPort | source/backend/engine/CarlaEngineJuce.cpp:730-757 | the same on the output ports, checking the output registry |
| JuceBackend.CarlaEngineJuce.PatchbayRefreshRack | source/backend/engine/CarlaEngineJuce.cpp:284-485 | without a rack nothing happens; otherwise the rack is refreshed and no error is recorded |
| JuceBackend.RefreshRack | source/backend/engine/CarlaEngineJuce.cpp:289-484 | the registries grow, the routes and settings are kept, and the table is rebuilt and announced after the announcements |
| JuceBackend.RebuildRackTable | source/backend/engine/CarlaEngineJuce.cpp:384-484 | the table is the refreshed table ending at the counter, each entry announced |
| JuceBackend.RebuildTable | source/backend/engine/CarlaEngineJuce.cpp:384-484 | the connection loops build the refreshed table and announce it |
| JuceBackend.ListAudioRoutes | source/backend/engine/CarlaEngineJuce.cpp:384-446 | the four audio loops build the audio table and announce it |
| JuceBackend.FindPort | source/backend/engine/CarlaEngineJuce.cpp:712-724 | the search finds the first open port with that name, or -1 |
| JuceBackend.ConnectThenDisconnect | source/backend/engine/CarlaEngineJuce.cpp:647-728 | connecting a port not yet open and disconnecting it again restores the list of open ports |

## Left out

- `PatchbayGraph::process` and the patchbay branch of `EngineInternalGraph::process` are left out. They move audio through the JUCE node graph, which this model keeps abstract.
- A façade call whose mode and held graph disagree is undefined behaviour in C++, because the two pointers share storage. The model keeps the held graph's kind and does nothing, or forwards to that graph.
- The façade's patchbay-only proxies `addPlugin`, `replacePlugin`, `removePlugin`, `removeAllPlugins` and `setIgnorePatchbay` test only that the patchbay pointer is non-null. A held rack passes that test even in rack mode, where mode and graph agree, and the call then treats the rack as a patchbay, which is undefined behaviour. The model does nothing when a rack is held.
- `EngineEvent::fillFromMidiData` is not decoded. A staged event keeps the raw size and bytes.
- The real-time pool of `RtLinkedList` (512 entries) is unbounded here.
- Mutexes are not modelled. The audio thread's try-lock is the `locked` parameter of `StageMidiIn`.
- Opening and closing MIDI devices, and what the node graph decides, are not modelled. They are parameters: `midiPortOpened`, `midiPortClosed`, `accepted`, `legal`, the device lists and the channel names.
- Names are not truncated to `STR_MAX` characters.
- The 64-bit frame counter does not overflow here.
- The `int` casts of the buffer size and channel counts are not modelled.
- RackNames.Atoi: values beyond the C `int` range are kept unbounded; `atoi` is undefined there.
- Patchbay.PatchbayGraph.RefreshConnections: entries are numbered in the order the edges were added, while `getConnection(i)` yields the node graph's own order, which this model does not know.
- Null-pointer guards on graphs, plugins and buffers are not modelled, except where a missing graph changes behaviour.
- Only the MIDI-input part of `audioDeviceIOCallback` is modelled. The MIDI-output send loop and the rest of the callback are left out.
- Callbacks are recorded as tuples, not as formatted strings.
- Rack.RackGraph.ClearConnections: what `clear` does to the id counter is unspecified, so the new counter is left arbitrary.
- Patchbay.PatchbayGraph.ClearConnections: same as the rack; the new counter is left arbitrary.
- JuceBackend.RefreshRack: it starts after an arbitrary counter, because that value comes from the clearing above.
- Audio and MIDI device enumeration, the driver list and device setup are outside this model.
- The engine-level `CarlaEngine::patchbay*` functions that call these graphs are outside this model.
- Samples are exact reals: floating-point rounding is not modelled.

=== FILE: common.dfy ===
/** Small value helpers shared by every module of the model. */
module Common {

  datatype Option<+T> = None | Some(value: T)

  /** Index of the first occurrence of `x` in `s`, or -1 when there is none
      (the search that `LinkedList::removeOne` and the name lookups perform). */
  function IndexOf<T(==)>(s: seq<T>, x: T): (k: int)
    ensures -1 <= k < |s|
    ensures k == -1 <==> x !in s
    ensures 0 <= k ==> s[k] == x && x !in s[..k]
  {
    if |s| == 0 then -1
    else if s[0] == x then 0
    else
      var k := IndexOf(s[1..], x);
      if k == -1 then -1 else k + 1
  }

  /** `s` without the element at position `k`, the others kept in order. */
  function RemoveAt<T>(s: seq<T>, k: nat): (r: seq<T>)
    requires k < |s|
    ensures |r| == |s| - 1
    ensures forall i :: 0 <= i < k ==> r[i] == s[i]
    ensures forall i :: k <= i < |r| ==> r[i] == s[i + 1]
  {
    s[..k] + s[k + 1..]
  }

  /** `IndexOf` finds an element at a position where it does not occur
      earlier. */
  lemma IndexOfFirst<T>(s: seq<T>, i: nat)
    requires i < |s| && s[i] !in s[..i]
    ensures IndexOf(s, s[i]) == i
  {
  }

  /** `LinkedList::removeOne`: drop the first occurrence of `x`, if any;
      the other elements keep their order. */
  function RemoveOne<T(==)>(s: seq<T>, x: T): (r: seq<T>)
    ensures x in s ==> |r| == |s| - 1 && multiset(r) == multiset(s) - multiset{x}
    ensures x in s ==> exists k :: 0 <= k < |s| && s[k] == x && x !in s[..k] && r == s[..k] + s[k + 1..]
    ensures x !in s ==> r == s
  {
    var k := IndexOf(s, x);
    if k < 0 then s
    else
      assert s == s[..k] + [x] + s[k + 1..];
      RemoveAt(s, k)
  }

  /** `carla_fixValue(min, max, value)`: `value` clamped into `[lo, hi]`. */
  function Clamp(lo: int, hi: int, v: int): (r: int)
    requires lo <= hi
    ensures lo <= r <= hi
    ensures lo <= v <= hi ==> r == v
    ensures v < lo ==> r == lo
    ensures v > hi ==> r == hi
  {
    if v < lo then lo else if v > hi then hi else v
  }
}

=== FILE: constants.dfy ===
/** The engine's enumerations and limits. Their definitions live in headers
    that are not part of this model; the values below keep the orderings the
    graph code relies on:
    - PortNull < the six Carla ports < PortMax,
    - GroupCarla < the four external groups < GroupMax,
    - MidiChannelIndex differs from every audio channel index (all below
      MaxPatchbayPlugins). */
module Constants {

  // Rack graph groups.
  const GroupCarla: nat := 0
  const GroupAudioIn: nat := 1
  const GroupAudioOut: nat := 2
  const GroupMidiIn: nat := 3
  const GroupMidiOut: nat := 4
  const GroupMax: nat := 5

  // Ports of the Carla group in rack mode.
  const PortNull: nat := 0
  const PortAudioIn1: nat := 1
  const PortAudioIn2: nat := 2
  const PortAudioOut1: nat := 3
  const PortAudioOut2: nat := 4
  const PortMidiIn: nat := 5
  const PortMidiOut: nat := 6
  const PortMax: nat := 7

  /** Maximum number of patchbay plugins, also the width of a port-id band. */
  const MaxPatchbayPlugins: nat := 255

  /** Capacity of the engine's `events.in` / `events.out` arrays. */
  const MaxEngineEventInternalCount: nat := 512

  /** Bytes stored inline in one MIDI event. */
  const MidiDataSize: nat := 4

  /** The channel index the node graph uses for a node's MIDI bus. */
  const MidiChannelIndex: nat := 0x1000

  /** 2^32, for the places where the source truncates to 32 bits. */
  const Uint32Modulus: nat := 0x1_0000_0000
}

=== FILE: engine.dfy ===
/** What the graphs share with the surrounding engine: the connection records
    of the connection table, the engine events of the realtime path, and the
    engine's observable side (its last error and the callbacks it emits). */
module EngineCore {
  import opened Common
  import opened Constants

  /** One row of a graph's connection table. */
  datatype ConnectionToId = ConnectionToId(id: nat, groupA: nat, portA: nat, groupB: nat, portB: nat)

  datatype PortType = AudioPort | MidiPort

  datatype Icon = IconCarla | IconHardware | IconPlugin

  /** Engine callbacks, recorded as tuples instead of formatted strings.
      `ConnectionAdded` stands for the `"<ga>:<pa>:<gb>:<pb>"` payload. */
  datatype Callback =
    | ClientAdded(group: nat, icon: Icon, clientId: int, name: string)
    | ClientRemoved(group: nat)
    | PortAdded(group: nat, port: nat, portType: PortType, isInput: bool, name: string)
    | PortRemoved(group: nat, port: nat)
    | ConnectionAdded(id: nat, groupA: nat, portA: nat, groupB: nat, portB: nat)
    | ConnectionRemoved(id: nat)

  /** One slot of the engine's `events.in` / `events.out` arrays. A zeroed
      slot is `NullEvent`; the MIDI-in copy produces `MidiEvent`s; anything a
      plugin writes is carried as it is. */
  datatype EngineEvent =
    | NullEvent
    | MidiEvent(time: nat, size: nat, data: seq<nat>)

  /** A zeroed event array of the engine's fixed capacity. */
  function ZeroedEvents(): (r: seq<EngineEvent>)
    ensures |r| == MaxEngineEventInternalCount
    ensures forall k :: 0 <= k < |r| ==> r[k] == NullEvent
  {
    seq(MaxEngineEventInternalCount, _ => NullEvent)
  }

  /** The parts of the engine the graph code writes to: `setLastError` and
      `callback`. */
  class Engine {
    var lastError: string
    var callbacks: seq<Callback>

    constructor ()
      ensures lastError == [] && callbacks == []
    {
      lastError := [];
      callbacks := [];
    }
  }

  /** One `CONNECTION_ADDED` per entry, in order. */
  function AdditionCallbacks(list: seq<ConnectionToId>): (r: seq<Callback>)
    ensures |r| == |list|
    ensures forall i :: 0 <= i < |list| ==>
      r[i] == ConnectionAdded(list[i].id, list[i].groupA, list[i].portA, list[i].groupB, list[i].portB)
  {
    seq(|list|, i requires 0 <= i < |list| =>
          ConnectionAdded(list[i].id, list[i].groupA, list[i].portA, list[i].groupB, list[i].portB))
  }

  lemma AdditionCallbacksSnoc(list: seq<ConnectionToId>, c: ConnectionToId)
    ensures AdditionCallbacks(list + [c]) == AdditionCallbacks(list) + [ConnectionAdded(c.id, c.groupA, c.portA, c.groupB, c.portB)]
  {
  }

  /** The table invariant: ids are nonzero, strictly increasing in list order
      (hence unique) and no larger than the table's `lastId`. */
  ghost predicate IdsIncreasing(list: seq<ConnectionToId>, lastId: nat)
  {
    && (forall k :: 0 <= k < |list| ==> 0 < list[k].id <= lastId)
    && (forall i, j :: 0 <= i < j < |list| ==> list[i].id < list[j].id)
  }

  /** Position of the entry carrying the nonzero id `id` (entries with id 0
      are skipped, as the iterators do), or -1. */
  function IndexOfId(list: seq<ConnectionToId>, id: nat): (k: int)
    ensures -1 <= k < |list|
    ensures k == -1 <==> (id == 0 || forall i :: 0 <= i < |list| ==> list[i].id != id)
    ensures 0 <= k ==> list[k].id == id && forall i :: 0 <= i < k ==> list[i].id != id
  {
    if id == 0 || |list| == 0 then -1
    else if list[0].id == id then 0
    else
      var k := IndexOfId(list[1..], id);
      if k == -1 then -1 else k + 1
  }

  /** Removing one entry keeps the table invariant. */
  lemma {:induction false} RemoveAtKeepsIds(list: seq<ConnectionToId>, lastId: nat, k: nat)
    requires IdsIncreasing(list, lastId) && k < |list|
    ensures IdsIncreasing(RemoveAt(list, k), lastId)
  {
    var r := RemoveAt(list, k);
    forall i, j | 0 <= i < j < |r|
      ensures r[i].id < r[j].id
    {
      var i', j' := if i < k then i else i + 1, if j < k then j else j + 1;
      assert r[i] == list[i'] && r[j] == list[j'] && i' < j';
    }
  }

  /** Appending the entry `lastId + 1` and bumping the counter keeps the table
      invariant. */
  lemma AppendNextKeepsIds(list: seq<ConnectionToId>, lastId: nat, c: ConnectionToId)
    requires IdsIncreasing(list, lastId) && c.id == lastId + 1
    ensures IdsIncreasing(list + [c], lastId + 1)
  {
  }
}

=== FILE: internal_graph.dfy ===
/** `EngineInternalGraph`: the engine's handle on its internal graph, a
    rack or a patchbay depending on the process mode. It keeps the mode
    flag, a ready flag, and the one graph it holds (`fRack` and `fPatchbay`
    share storage, so at most one graph exists at a time). */
module InternalGraph {
  import opened Common
  import opened Constants
  import opened Samples
  import opened EngineCore
  import opened RackChain
  import opened RackRouting
  import opened PatchbayPorts
  import Rack
  import Patchbay

  /** The graph behind the shared `fRack`/`fPatchbay` pointer. */
  datatype Held = NoGraph | HeldRack(rack: Rack.RackGraph) | HeldPatchbay(patchbay: Patchbay.PatchbayGraph)

  /** A rack as `new RackGraph(bufferSize, inputs, outputs)` leaves it. */
  ghost predicate NewRack(r: Rack.RackGraph, bufferSize: nat, inputs: nat, outputs: nat)
    reads r
  {
    && r.Valid() && r.connections == [] && r.Routes() == Rack.Routing([], [], [], [])
    && r.midiIns == [] && r.midiOuts == []
    && r.Settings() == (inputs, outputs, bufferSize, false)
  }

  /** A patchbay as `new PatchbayGraph(bufferSize, sampleRate, inputs,
      outputs)` leaves it, given the processors of its four I/O nodes. */
  ghost predicate NewPatchbay(p: Patchbay.PatchbayGraph, bufferSize: nat, sampleRate: real, inputs: nat, outputs: nat,
                              audioIn: Processor, audioOut: Processor, midiIn: Processor, midiOut: Processor)
    reads p
  {
    && p.Valid()
    && p.inputs == Clamp(0, MaxPatchbayPlugins - 2, inputs) && p.outputs == Clamp(0, MaxPatchbayPlugins - 2, outputs)
    && p.Settings() == (p.inputs, p.outputs, bufferSize, sampleRate, false, false)
    && p.nodes == [Node(1, audioIn, false, -1), Node(2, audioOut, false, -1),
                   Node(3, midiIn, false, -1), Node(4, midiOut, false, -1)]
    && p.lastNodeId == 4 && p.edges == [] && p.connections == [] && p.lastId == 0
  }

  /** A rack's connection table, routing lists and MIDI port lists are as
      they were. */
  twostate predicate RackTableKept(r: Rack.RackGraph)
    reads r
  {
    && r.connections == old(r.connections) && r.lastId == old(r.lastId) && r.Routes() == old(r.Routes())
    && r.midiIns == old(r.midiIns) && r.midiOuts == old(r.midiOuts)
  }

  /** A patchbay's nodes, edges and connection table are as they were. */
  twostate predicate PatchbayTableKept(p: Patchbay.PatchbayGraph)
    reads p
  {
    && p.nodes == old(p.nodes) && p.lastNodeId == old(p.lastNodeId) && p.edges == old(p.edges)
    && p.connections == old(p.connections) && p.lastId == old(p.lastId)
  }

  class EngineInternalGraph {
    var isRack: bool
    var isReady: bool
    var held: Held

    ghost function Repr(): set<object>
      reads this
    {
      match held
      case NoGraph => {}
      case HeldRack(r) => {r}
      case HeldPatchbay(p) => {p}
    }

    /** A graph is only ever held while the façade is ready (the converse
        fails: the setters mark it ready even with no graph), and the held
        graph keeps its own invariant. */
    ghost predicate Valid()
      reads this, Repr()
    {
      && (held.NoGraph? || isReady)
      && (held.HeldRack? ==> held.rack.Valid())
      && (held.HeldPatchbay? ==> held.patchbay.Valid())
    }

    /** The held graph is of the kind the mode flag says. */
    predicate ModeMatches()
      reads this
    {
      match held
      case NoGraph => true
      case HeldRack(_) => isRack
      case HeldPatchbay(_) => !isRack
    }

    /** A new façade is in rack mode, not ready, without a graph. */
    constructor ()
      ensures Valid() && ModeMatches()
      ensures isRack && !isReady && held == NoGraph
    {
      isRack := true;
      isReady := false;
      held := NoGraph;
    }

    /** `create`: the mode flag is set first; then, unless a graph is
        already held (whatever its kind), a new graph of the requested kind
        is made and the façade becomes ready. When a graph is held nothing
        else changes, so a second `create` in the other mode leaves the
        mode and the held graph disagreeing. */
    method Create(rack: bool, sampleRate: real, bufferSize: nat, inputs: nat, outputs: nat,
                  audioIn: Processor, audioOut: Processor, midiIn: Processor, midiOut: Processor)
      requires Valid()
      modifies this
      ensures Valid() && isRack == rack
      ensures old(held) != NoGraph ==> held == old(held) && isReady == old(isReady)
      ensures old(held) != NoGraph ==> (ModeMatches() <==> held.HeldRack? == rack)
      ensures old(held) == NoGraph ==> isReady && ModeMatches() && fresh(Repr())
      ensures old(held) == NoGraph && rack ==> held.HeldRack? && NewRack(held.rack, bufferSize, inputs, outputs)
      ensures old(held) == NoGraph && !rack ==>
        held.HeldPatchbay? && NewPatchbay(held.patchbay, bufferSize, sampleRate, inputs, outputs,
                                          audioIn, audioOut, midiIn, midiOut)
    {
      isRack := rack;
      if held != NoGraph {
        return;
      }
      if rack {
        var r := new Rack.RackGraph(bufferSize, inputs, outputs);
        held := HeldRack(r);
      } else {
        var p := new Patchbay.PatchbayGraph(bufferSize, sampleRate, inputs, outputs,
                                            audioIn, audioOut, midiIn, midiOut);
        held := HeldPatchbay(p);
      }
      isReady := true;
    }

    /** `destroy`: nothing when not ready; otherwise the façade is no longer
        ready and the held graph is released. */
    method Destroy()
      requires Valid()
      modifies this
      ensures Valid() && ModeMatches()
      ensures !isReady && held == NoGraph && isRack == old(isRack)
    {
      if !isReady {
        return;
      }
      isReady := false;
      held := NoGraph;
    }

    /** `setBufferSize`: forwarded to the graph the mode names; the façade
        is ready afterwards whether or not a graph is held. */
    method SetBufferSize(size: nat)
      requires Valid()
      modifies this, Repr()
      ensures Valid()
      ensures isReady && isRack == old(isRack) && held == old(held)
      ensures held.HeldRack? ==>
        if isRack then held.rack.Settings() == old(held.rack.Settings()).(2 := size) && RackTableKept(held.rack)
        else unchanged(held.rack)
      ensures held.HeldPatchbay? ==>
        if !isRack then held.patchbay.Settings() == old(held.patchbay.Settings()).(2 := size) && PatchbayTableKept(held.patchbay)
        else unchanged(held.patchbay)
    {
      isReady := true;
      match held
      case NoGraph =>
      case HeldRack(r) =>
        if isRack {
          r.SetBufferSize(size);
        }
      case HeldPatchbay(p) =>
        if !isRack {
          p.SetBufferSize(size);
        }
    }

    /** `setSampleRate`: only a patchbay keeps a sample rate; the façade is
        ready afterwards. */
    method SetSampleRate(rate: real)
      requires Valid()
      modifies this, Repr()
      ensures Valid()
      ensures isReady && isRack == old(isRack) && held == old(held)
      ensures held.HeldRack? ==> unchanged(held.rack)
      ensures held.HeldPatchbay? ==>
        if !isRack then held.patchbay.Settings() == old(held.patchbay.Settings()).(3 := rate) && PatchbayTableKept(held.patchbay)
        else unchanged(held.patchbay)
    {
      isReady := true;
      match held
      case NoGraph =>
      case HeldRack(_) =>
      case HeldPatchbay(p) =>
        if !isRack {
          p.SetSampleRate(rate);
        }
    }

    /** `setOffline`: forwarded to the graph the mode names; the façade is
        ready afterwards. */
    method SetOffline(offline: bool)
      requires Valid()
      modifies this, Repr()
      ensures Valid()
      ensures isReady && isRack == old(isRack) && held == old(held)
      ensures held.HeldRack? ==>
        if isRack then held.rack.Settings() == old(held.rack.Settings()).(3 := offline) && RackTableKept(held.rack)
        else unchanged(held.rack)
      ensures held.HeldPatchbay? ==>
        if !isRack then held.patchbay.Settings() == old(held.patchbay.Settings()).(4 := offline) && PatchbayTableKept(held.patchbay)
        else unchanged(held.patchbay)
    {
      isReady := true;
      match held
      case NoGraph =>
      case HeldRack(r) =>
        if isRack {
          r.SetOffline(offline);
        }
      case HeldPatchbay(p) =>
        if !isRack {
          p.SetOffline(offline);
        }
    }

    /** `getRackGraph`: the rack, and only in rack mode. */
    function GetRackGraph(): (r: Option<Rack.RackGraph>)
      reads this
      ensures r.Some? <==> isRack && held.HeldRack?
      ensures r.Some? ==> held == HeldRack(r.value)
      ensures !isRack ==> r == None
    {
      if isRack && held.HeldRack? then Some(held.rack) else None
    }

    /** `getPatchbayGraph`: the patchbay, and only in patchbay mode. */
    function GetPatchbayGraph(): (r: Option<Patchbay.PatchbayGraph>)
      reads this
      ensures r.Some? <==> !isRack && held.HeldPatchbay?
      ensures r.Some? ==> held == HeldPatchbay(r.value)
      ensures isRack ==> r == None
    {
      if !isRack && held.HeldPatchbay? then Some(held.patchbay) else None
    }

    /** `process` in rack mode: the rack's `processHelper` on the device
        buffers. Without a graph nothing is done. */
    method Process(data: EngineData, slots: seq<PluginSlot>, run: PluginRun,
                   devIn: Option<seq<Channel>>, devOut: array<Channel>, frames: nat)
      returns (result: EngineData)
      requires Valid()
      requires |data.eventsIn| == MaxEngineEventInternalCount && |data.peaks| == |slots|
      requires held.HeldRack? ==> devIn.Some? ==> held.rack.inputs <= |devIn.value| && ChannelsOfLength(devIn.value, frames)
      requires held.HeldRack? ==> held.rack.outputs <= devOut.Length && ChannelsOfLength(devOut[..], frames)
      modifies devOut
      ensures held == NoGraph ==> result == data && devOut[..] == old(devOut[..])
      ensures isRack && held.HeldRack? ==>
        var g := held.rack;
        if !g.HasBuffers() then result == data && devOut[..] == old(devOut[..])
        else
          var st := ChainUpTo(slots, run, frames,
                              InitialChain(Rack.RackInput(devIn, g.connectedIn1, g.connectedIn2, g.inputs, frames),
                                           frames, data.eventsIn, data.peaks), |slots|);
          && result == EngineData(st.eventsIn, st.eventsOut, st.peaks)
          && devOut[..] == FanOut(FanOut(old(devOut[..]), g.connectedOut1, st.outBuf.left, g.outputs),
                                  g.connectedOut2, st.outBuf.right, g.outputs)
    {
      result := data;
      if isRack && held.HeldRack? {
        result := held.rack.ProcessHelper(data, slots, run, devIn, devOut, frames);
      }
    }

    /** `processRack`: the rack's `process` on a stereo pair, in rack mode
        with a rack held; `None` when those checks fail. */
    method ProcessRack(data: EngineData, slots: seq<PluginSlot>, run: PluginRun, audioIn: Stereo, frames: nat)
      returns (r: Option<(Stereo, EngineData)>)
      requires StereoOfLength(audioIn, frames)
      requires |data.eventsIn| == MaxEngineEventInternalCount && |data.peaks| == |slots|
      ensures r.Some? <==> isRack && held.HeldRack?
      ensures r.Some? ==>
        var st := ChainUpTo(slots, run, frames, InitialChain(audioIn, frames, data.eventsIn, data.peaks), |slots|);
        r.value == (st.outBuf, EngineData(st.eventsIn, st.eventsOut, st.peaks))
    {
      if !isRack || !held.HeldRack? {
        return None;
      }
      var out, result := held.rack.Process(data, slots, run, audioIn, frames);
      r := Some((out, result));
    }

    /** `addPlugin`: forwarded to a held patchbay, whatever the mode. */
    method AddPlugin(engine: Engine, pluginId: nat, proc: Processor) returns (nodeId: Option<nat>)
      requires Valid()
      modifies Repr(), engine
      ensures Valid() && nodeId.Some? == held.HeldPatchbay?
      ensures held.HeldPatchbay? ==>
        var p := held.patchbay;
        && nodeId == Some(old(p.lastNodeId) + 1) && p.lastNodeId == nodeId.value
        && p.nodes == old(p.nodes) + [Node(nodeId.value, proc, true, pluginId)]
        && engine.callbacks == old(engine.callbacks)
             + (if p.ignorePatchbay then [] else NodeAddedCallbacks(nodeId.value, pluginId, proc))
        && p.edges == old(p.edges) && p.connections == old(p.connections) && p.lastId == old(p.lastId)
        && p.Settings() == old(p.Settings())
      ensures !held.HeldPatchbay? ==> unchanged(Repr()) && unchanged(engine)
    {
      nodeId := None;
      if held.HeldPatchbay? {
        var id := held.patchbay.AddPlugin(engine, pluginId, proc);
        nodeId := Some(id);
      }
    }

    /** `replacePlugin`: forwarded to a held patchbay. */
    method ReplacePlugin(engine: Engine, oldPlugin: Patchbay.PluginRef, samePlugin: bool, newPluginId: nat, newProc: Processor)
      returns (newNodeId: Option<nat>)
      requires Valid()
      modifies Repr(), engine
      ensures Valid()
      ensures held.HeldPatchbay? ==>
        var p := held.patchbay;
        var k := Patchbay.NodeIndex(old(p.nodes), oldPlugin.patchbayNodeId);
        if samePlugin || oldPlugin.id != newPluginId || k < 0 then
          newNodeId == None && p.State(engine) == old(p.State(engine)) && p.lastNodeId == old(p.lastNodeId)
        else
          var s := Patchbay.Detach(old(p.State(engine)), k, p.ignorePatchbay);
          && newNodeId == Some(old(p.lastNodeId) + 1) && p.lastNodeId == old(p.lastNodeId) + 1
          && p.nodes == s.nodes + [Node(p.lastNodeId, newProc, true, newPluginId)]
          && p.edges == s.edges && p.connections == s.connections
          && engine.callbacks == s.callbacks
               + (if p.ignorePatchbay then [] else NodeAddedCallbacks(p.lastNodeId, newPluginId, newProc))
      ensures !held.HeldPatchbay? ==> newNodeId == None && unchanged(Repr()) && unchanged(engine)
    {
      newNodeId := None;
      if held.HeldPatchbay? {
        newNodeId := held.patchbay.ReplacePlugin(engine, oldPlugin, samePlugin, newPluginId, newProc);
      }
    }

    /** `removePlugin`: forwarded to a held patchbay. */
    method RemovePlugin(engine: Engine, plugin: Patchbay.PluginRef, pluginNodes: seq<Option<nat>>)
      requires Valid()
      modifies Repr(), engine
      ensures Valid()
      ensures held.HeldPatchbay? ==>
        var p := held.patchbay;
        var k := Patchbay.NodeIndex(old(p.nodes), plugin.patchbayNodeId);
        p.State(engine) == if k < 0 then old(p.State(engine))
                           else Patchbay.Detach(old(p.State(engine)).(nodes := Patchbay.RenumberFrom(old(p.nodes), pluginNodes, plugin.id + 1)),
                                                k, p.ignorePatchbay)
      ensures !held.HeldPatchbay? ==> unchanged(Repr()) && unchanged(engine)
    {
      if held.HeldPatchbay? {
        held.patchbay.RemovePlugin(engine, plugin, pluginNodes);
      }
    }

    /** `removeAllPlugins`: forwarded to a held patchbay. */
    method RemoveAllPlugins(engine: Engine, pluginNodes: seq<Option<nat>>)
      requires Valid()
      modifies Repr(), engine
      ensures Valid()
      ensures held.HeldPatchbay? ==>
        var p := held.patchbay;
        p.State(engine) == Patchbay.RemoveAllFrom(old(p.State(engine)), pluginNodes, 0, p.ignorePatchbay)
      ensures !held.HeldPatchbay? ==> unchanged(Repr()) && unchanged(engine)
    {
      if held.HeldPatchbay? {
        held.patchbay.RemoveAllPlugins(engine, pluginNodes);
      }
    }

    /** `setIgnorePatchbay`: sets the flag of a held patchbay. */
    method SetIgnorePatchbay(ignore: bool)
      requires Valid()
      modifies Repr()
      ensures Valid()
      ensures held.HeldPatchbay? ==>
        held.patchbay.Settings() == old(held.patchbay.Settings()).(5 := ignore) && PatchbayTableKept(held.patchbay)
      ensures !held.HeldPatchbay? ==> unchanged(Repr())
    {
      if held.HeldPatchbay? {
        held.patchbay.SetIgnorePatchbay(ignore);
      }
    }
  }
}

=== FILE: juce_midi.dfy ===
/** The MIDI-input path of the JUCE backend: incoming device messages are
    queued in `RtMidiEvents`, and at the start of each audio block the
    queue is copied into the engine's `events.in` array with the event times
    made relative to the block. */
module JuceMidi {
  import opened Constants
  import opened EngineCore

  /** A queued MIDI message: its absolute time, its size and its bytes,
      zero-padded to `MidiDataSize`. */
  datatype RtMidiEvent = RtMidiEvent(time: nat, size: nat, data: seq<nat>)

  /** `RtMidiEvents`: a live list the audio thread consumes and a pending
      list device callbacks append to. The mutex is not modelled. */
  class RtMidiEvents {
    var data: seq<RtMidiEvent>
    var pending: seq<RtMidiEvent>

    /** Everything queued, oldest first. */
    function Contents(): seq<RtMidiEvent>
      reads this
    {
      data + pending
    }

    constructor ()
      ensures data == [] && pending == []
    {
      data := [];
      pending := [];
    }

    /** `append`: the event joins the pending list only. */
    method Append(event: RtMidiEvent)
      modifies this
      ensures pending == old(pending) + [event] && data == old(data)
      ensures Contents() == old(Contents()) + [event]
    {
      pending := pending + [event];
    }

    /** `clear`: both lists are emptied. */
    method Clear()
      modifies this
      ensures data == [] && pending == [] && Contents() == []
    {
      data := [];
      pending := [];
    }

    /** `splice`: the pending events move to the end of the live list, so
        the queue as a whole keeps its order. */
    method Splice()
      modifies this
      ensures data == old(data) + old(pending) && pending == []
      ensures Contents() == old(Contents())
    {
      if |pending| > 0 {
        data := data + pending;
        pending := [];
      }
    }
  }

  /** The block-relative time of an event at absolute time `time` in the
      block starting at `frame` with `nframes` frames: past events go to 0,
      events in the block to their offset, and future events to
      `frame + nframes - 1` computed in 32 bits, an absolute time. */
  function BlockTime(time: nat, frame: nat, nframes: nat): (t: nat)
    ensures t < Uint32Modulus || (frame <= time < frame + nframes && t == time - frame)
    ensures time < frame + nframes && nframes > 0 ==> t < nframes
    ensures frame <= time < frame + nframes ==> frame + t == time
    ensures time >= frame + nframes && frame + nframes <= Uint32Modulus && nframes > 0 ==> t == frame + nframes - 1
  {
    if time < frame then 0
    else if time >= frame + nframes then (frame % Uint32Modulus + nframes - 1) % Uint32Modulus
    else time - frame
  }

  /** As written, an event from a later block is placed outside the current
      block whenever the block does not start at frame 0. */
  lemma FutureEventOutsideBlock(time: nat, frame: nat, nframes: nat)
    requires 0 < frame && 0 < nframes && frame + nframes <= Uint32Modulus
    requires time >= frame + nframes
    ensures BlockTime(time, frame, nframes) >= nframes
  {
  }

  /** The engine event an `RtMidiEvent` becomes in `events.in`. */
  function StagedEvent(e: RtMidiEvent, frame: nat, nframes: nat): EngineEvent
  {
    MidiEvent(BlockTime(e.time, frame, nframes), e.size, e.data)
  }

  /** The `events.in` array after a block whose try-lock succeeded with
      `queue` queued: the first `MaxEngineEventInternalCount` events in queue
      order, the rest of the array zeroed. */
  function StagedEvents(queue: seq<RtMidiEvent>, frame: nat, nframes: nat): (r: seq<EngineEvent>)
    ensures |r| == MaxEngineEventInternalCount
  {
    seq(MaxEngineEventInternalCount, k requires 0 <= k < MaxEngineEventInternalCount =>
          if k < |queue| then StagedEvent(queue[k], frame, nframes) else NullEvent)
  }

  /** Number of slots holding an event. */
  function Filled(events: seq<EngineEvent>): nat
  {
    if |events| == 0 then 0
    else Filled(events[..|events| - 1]) + (if events[|events| - 1] == NullEvent then 0 else 1)
  }

  lemma {:induction false} FilledPrefix(queue: seq<RtMidiEvent>, frame: nat, nframes: nat, n: nat)
    requires n <= MaxEngineEventInternalCount
    ensures Filled(StagedEvents(queue, frame, nframes)[..n]) == if n < |queue| then n else |queue|
  {
    var s := StagedEvents(queue, frame, nframes);
    if n > 0 {
      FilledPrefix(queue, frame, nframes, n - 1);
      assert s[..n][..n - 1] == s[..n - 1];
    }
  }

  /** One block stages exactly `min(|queue|, MaxEngineEventInternalCount)`
      events: nothing is lost below the capacity, and everything past it is
      dropped. */
  lemma StagedCount(queue: seq<RtMidiEvent>, frame: nat, nframes: nat)
    ensures Filled(StagedEvents(queue, frame, nframes))
         == if |queue| < MaxEngineEventInternalCount then |queue| else MaxEngineEventInternalCount
  {
    var s := StagedEvents(queue, frame, nframes);
    FilledPrefix(queue, frame, nframes, MaxEngineEventInternalCount);
    assert s[..MaxEngineEventInternalCount] == s;
  }

  /** A staged event keeps the queued event's size and bytes, and lands in
      the block when its time is not in the future. */
  lemma StagedEventInBlock(queue: seq<RtMidiEvent>, frame: nat, nframes: nat, k: nat)
    requires k < |queue| && k < MaxEngineEventInternalCount
    requires queue[k].time < frame + nframes && nframes > 0
    ensures var e := StagedEvents(queue, frame, nframes)[k];
      e.MidiEvent? && e.size == queue[k].size && e.data == queue[k].data && e.time < nframes
  {
  }

  /** The MIDI-in part of `audioDeviceIOCallback`: `events.in` is zeroed;
      when the try-lock succeeds (`locked`) the queue is spliced, its events
      are copied in order up to the array's capacity, and the live list is
      emptied, dropping any overflow; otherwise the queue is untouched. */
  method StageMidiIn(queue: RtMidiEvents, eventsIn: array<EngineEvent>, frame: nat, nframes: nat, locked: bool)
    requires eventsIn.Length == MaxEngineEventInternalCount
    modifies queue, eventsIn
    ensures locked ==> eventsIn[..] == StagedEvents(old(queue.Contents()), frame, nframes)
    ensures locked ==> queue.data == [] && queue.pending == []
    ensures !locked ==> eventsIn[..] == ZeroedEvents()
    ensures !locked ==> queue.data == old(queue.data) && queue.pending == old(queue.pending)
  {
    forall k | 0 <= k < eventsIn.Length {
      eventsIn[k] := NullEvent;
    }
    assert eventsIn[..] == ZeroedEvents();
    if !locked {
      return;
    }
    queue.Splice();
    var list := queue.data;
    var i := 0;
    assert eventsIn[..] == StagedEvents(list[..0], frame, nframes);
    while i < |list|
      invariant 0 <= i <= |list| && i < MaxEngineEventInternalCount
      invariant eventsIn[..] == StagedEvents(list[..i], frame, nframes)
      modifies eventsIn
    {
      eventsIn[i] := StagedEvent(list[i], frame, nframes);
      i := i + 1;
      assert eventsIn[..] == StagedEvents(list[..i], frame, nframes);
      if i >= MaxEngineEventInternalCount {
        break;
      }
    }
    assert StagedEvents(list[..i], frame, nframes) == StagedEvents(list, frame, nframes);
    queue.data := [];
  }

  /** The message bytes zero-padded to `MidiDataSize`. */
  function PaddedBytes(message: seq<nat>): (r: seq<nat>)
    requires |message| <= MidiDataSize
    ensures |r| == MidiDataSize && r[..|message|] == message
    ensures forall i :: |message| <= i < MidiDataSize ==> r[i] == 0
  {
    message + seq(MidiDataSize - |message|, _ => 0)
  }

  /** `handleIncomingMidiMessage`: a message of 1 to `MidiDataSize` bytes is
      queued with time 0, its size and its padded bytes; any other size is
      ignored. */
  method HandleIncomingMidiMessage(queue: RtMidiEvents, message: seq<nat>)
    modifies queue
    ensures |message| == 0 || |message| > MidiDataSize ==>
      queue.data == old(queue.data) && queue.pending == old(queue.pending)
    ensures 0 < |message| <= MidiDataSize ==>
      queue.pending == old(queue.pending) + [RtMidiEvent(0, |message|, PaddedBytes(message))]
      && queue.data == old(queue.data)
  {
    if |message| == 0 || |message| > MidiDataSize {
      return;
    }
    var bytes := new nat[MidiDataSize];
    var i := 0;
    while i < |message|
      invariant 0 <= i <= |message|
      invariant bytes[..i] == message[..i]
      modifies bytes
    {
      bytes[i] := message[i];
      i := i + 1;
    }
    while i < MidiDataSize
      invariant |message| <= i <= MidiDataSize
      invariant bytes[..|message|] == message
      invariant forall j :: |message| <= j < i ==> bytes[j] == 0
      modifies bytes
    {
      bytes[i] := 0;
      i := i + 1;
    }
    assert bytes[..] == PaddedBytes(message);
    queue.Append(RtMidiEvent(0, |message|, bytes[..]));
  }
}

=== FILE: juce_rack.dfy ===
/** The rack-mode patchbay side of the JUCE backend: `patchbayRefreshRack`,
    which announces every client and port again and rebuilds the rack's
    connection table from its routing lists and the open MIDI ports, and
    the hooks that keep the lists of open MIDI ports. */
module JuceBackend {
  import opened Common
  import opened Constants
  import opened EngineCore
  import opened RackNames
  import opened Rack
  import opened InternalGraph

  // ---------------------------------------------------------------------
  // Announcements

  /** Whether `", "` starts at position `i` of `s`. */
  predicate SeparatorAt(s: string, i: nat)
  {
    i + 2 <= |s| && s[i] == ',' && s[i + 1] == ' '
  }

  /** The device name up to its first `", "`, what
      `dropLastCharacters(fromFirstOccurrenceOf(", ", true, false).length())`
      leaves of it; the whole name when it has no `", "`. */
  function DeviceShortName(name: string): (r: string)
    ensures r <= name
    ensures forall i :: 0 <= i < |r| ==> !SeparatorAt(name, i)
    ensures r != name ==> SeparatorAt(name, |r|)
    decreases |name|
  {
    if |name| < 2 then name
    else if SeparatorAt(name, 0) then ""
    else
      var rest := DeviceShortName(name[1..]);
      assert forall i :: 1 <= i <= |rest| ==> SeparatorAt(name, i) == SeparatorAt(name[1..], i - 1);
      [name[0]] + rest
  }

  /** `"Capture (<device>)"` / `"Playback (<device>)"`, or the bare word
      when the shortened device name is empty. */
  function HardwareClientName(kind: string, deviceName: string): string
  {
    var s := DeviceShortName(deviceName);
    if s == "" then kind else kind + " (" + s + ")"
  }

  /** The Carla client and its six ports. */
  function CarlaAnnouncements(engineName: string): seq<Callback>
  {
    [ ClientAdded(GroupCarla, IconCarla, -1, engineName),
      PortAdded(GroupCarla, PortAudioIn1, AudioPort, true, "audio-in1"),
      PortAdded(GroupCarla, PortAudioIn2, AudioPort, true, "audio-in2"),
      PortAdded(GroupCarla, PortAudioOut1, AudioPort, false, "audio-out1"),
      PortAdded(GroupCarla, PortAudioOut2, AudioPort, false, "audio-out2"),
      PortAdded(GroupCarla, PortMidiIn, MidiPort, true, "midi-in"),
      PortAdded(GroupCarla, PortMidiOut, MidiPort, false, "midi-out") ]
  }

  /** One `PORT_ADDED` per name, with 1-based port ids. */
  function PortAnnouncements(group: nat, names: seq<string>, portType: PortType, isInput: bool): (r: seq<Callback>)
    ensures |r| == |names|
    ensures forall i :: 0 <= i < |names| ==> r[i] == PortAdded(group, i + 1, portType, isInput, names[i])
  {
    seq(|names|, i requires 0 <= i < |names| => PortAdded(group, i + 1, portType, isInput, names[i]))
  }

  /** A hardware client and its ports. */
  function HardwareClient(group: nat, clientName: string, names: seq<string>, portType: PortType, isInput: bool): seq<Callback>
  {
    [ClientAdded(group, IconHardware, -1, clientName)] + PortAnnouncements(group, names, portType, isInput)
  }

  /** The Carla client, then the capture and playback clients with the
      device's channels. */
  function AudioAnnouncements(engineName: string, deviceName: string, inputNames: seq<string>, outputNames: seq<string>)
    : seq<Callback>
  {
    CarlaAnnouncements(engineName)
    + HardwareClient(GroupAudioIn, HardwareClientName("Capture", deviceName), inputNames, AudioPort, false)
    + HardwareClient(GroupAudioOut, HardwareClientName("Playback", deviceName), outputNames, AudioPort, true)
  }

  /** Everything `patchbayRefreshRack` announces before the connections:
      the Carla client, the capture and playback clients with the device's
      channels, and the readable and writable MIDI port clients with the
      MIDI devices. Hardware sources are announced as outputs and hardware
      sinks as inputs. */
  function RackAnnouncements(engineName: string, deviceName: string, inputNames: seq<string>, outputNames: seq<string>,
                             midiInDevices: seq<string>, midiOutDevices: seq<string>): seq<Callback>
  {
    AudioAnnouncements(engineName, deviceName, inputNames, outputNames)
    + HardwareClient(GroupMidiIn, "Readable MIDI ports", midiInDevices, MidiPort, false)
    + HardwareClient(GroupMidiOut, "Writable MIDI ports", midiOutDevices, MidiPort, true)
  }

  /** The registry entries for the MIDI devices: port ids from 1, full
      names under `prefix`. */
  function MidiRegistry(group: nat, devices: seq<string>, prefix: string): (r: seq<PortNameToId>)
    ensures |r| == |devices|
    ensures forall i :: 0 <= i < |devices| ==> r[i] == PortNameToId(group, i + 1, devices[i], prefix + devices[i])
  {
    seq(|devices|, i requires 0 <= i < |devices| => PortNameToId(group, i + 1, devices[i], prefix + devices[i]))
  }

  lemma PortAnnouncementsSnoc(group: nat, names: seq<string>, portType: PortType, isInput: bool, i: nat)
    requires i < |names|
    ensures PortAnnouncements(group, names[..i + 1], portType, isInput)
         == PortAnnouncements(group, names[..i], portType, isInput) + [PortAdded(group, i + 1, portType, isInput, names[i])]
  {
  }

  lemma MidiRegistrySnoc(group: nat, devices: seq<string>, prefix: string, i: nat)
    requires i < |devices|
    ensures MidiRegistry(group, devices[..i + 1], prefix)
         == MidiRegistry(group, devices[..i], prefix) + [PortNameToId(group, i + 1, devices[i], prefix + devices[i])]
  {
  }

  /** Announces a hardware client, then one port per name. */
  method AnnounceClient(engine: Engine, group: nat, clientName: string, names: seq<string>, portType: PortType, isInput: bool)
    modifies engine`callbacks
    ensures engine.callbacks == old(engine.callbacks) + HardwareClient(group, clientName, names, portType, isInput)
  {
    engine.callbacks := engine.callbacks + [ClientAdded(group, IconHardware, -1, clientName)];
    ghost var start := engine.callbacks;
    var i := 0;
    while i < |names|
      invariant 0 <= i <= |names|
      invariant engine.callbacks == start + PortAnnouncements(group, names[..i], portType, isInput)
    {
      PortAnnouncementsSnoc(group, names, portType, isInput, i);
      engine.callbacks := engine.callbacks + [PortAdded(group, i + 1, portType, isInput, names[i])];
      i := i + 1;
    }
    assert names[..i] == names;
  }

  /** Announces a MIDI client and registers and announces one port per
      device; the registry grows at its end (it is not emptied first). */
  method RegisterMidiPorts(engine: Engine, registry: seq<PortNameToId>, group: nat, clientName: string, prefix: string,
                           devices: seq<string>, isInput: bool)
    returns (list: seq<PortNameToId>)
    modifies engine`callbacks
    ensures list == registry + MidiRegistry(group, devices, prefix)
    ensures engine.callbacks == old(engine.callbacks) + HardwareClient(group, clientName, devices, MidiPort, isInput)
  {
    engine.callbacks := engine.callbacks + [ClientAdded(group, IconHardware, -1, clientName)];
    ghost var start := engine.callbacks;
    list := registry;
    var i := 0;
    while i < |devices|
      invariant 0 <= i <= |devices|
      invariant list == registry + MidiRegistry(group, devices[..i], prefix)
      invariant engine.callbacks == start + PortAnnouncements(group, devices[..i], MidiPort, isInput)
    {
      var entry := PortNameToId(group, i + 1, devices[i], prefix + devices[i]);
      MidiRegistrySnoc(group, devices, prefix, i);
      PortAnnouncementsSnoc(group, devices, MidiPort, isInput, i);
      engine.callbacks := engine.callbacks + [PortAdded(group, i + 1, MidiPort, isInput, devices[i])];
      list := list + [entry];
      i := i + 1;
    }
    assert devices[..i] == devices;
  }

  lemma Associative<T>(a: seq<T>, b: seq<T>, c: seq<T>)
    ensures a + (b + c) == a + b + c
  {
  }

  /** Announces the Carla client and the audio device's clients. */
  method AnnounceAudio(engine: Engine, engineName: string, deviceName: string, inputNames: seq<string>, outputNames: seq<string>)
    modifies engine`callbacks
    ensures engine.callbacks == old(engine.callbacks) + AudioAnnouncements(engineName, deviceName, inputNames, outputNames)
  {
    engine.callbacks := engine.callbacks + CarlaAnnouncements(engineName);
    AnnounceClient(engine, GroupAudioIn, HardwareClientName("Capture", deviceName), inputNames, AudioPort, false);
    AnnounceClient(engine, GroupAudioOut, HardwareClientName("Playback", deviceName), outputNames, AudioPort, true);
  }

  /** Every announcement `patchbayRefreshRack` makes before the
      connections, registering the MIDI devices on the way. */
  method AnnounceRack(engine: Engine, rack: RackGraph, engineName: string, deviceName: string, inputNames: seq<string>,
                      outputNames: seq<string>, midiInDevices: seq<string>, midiOutDevices: seq<string>)
    modifies rack`midiIns, rack`midiOuts, engine`callbacks
    ensures rack.midiIns == old(rack.midiIns) + MidiRegistry(GroupMidiIn, midiInDevices, "Readable MIDI ports:")
    ensures rack.midiOuts == old(rack.midiOuts) + MidiRegistry(GroupMidiOut, midiOutDevices, "Writable MIDI ports:")
    ensures engine.callbacks == old(engine.callbacks)
      + RackAnnouncements(engineName, deviceName, inputNames, outputNames, midiInDevices, midiOutDevices)
  {
    AnnounceAudio(engine, engineName, deviceName, inputNames, outputNames);
    rack.midiIns := RegisterMidiPorts(engine, rack.midiIns, GroupMidiIn, "Readable MIDI ports", "Readable MIDI ports:", midiInDevices, false);
    rack.midiOuts := RegisterMidiPorts(engine, rack.midiOuts, GroupMidiOut, "Writable MIDI ports", "Writable MIDI ports:", midiOutDevices, true);
    ghost var audio := AudioAnnouncements(engineName, deviceName, inputNames, outputNames);
    ghost var ins := HardwareClient(GroupMidiIn, "Readable MIDI ports", midiInDevices, MidiPort, false);
    ghost var outs := HardwareClient(GroupMidiOut, "Writable MIDI ports", midiOutDevices, MidiPort, true);
    Associative(old(engine.callbacks), audio + ins, outs);
    Associative(old(engine.callbacks), audio, ins);
  }

  // ---------------------------------------------------------------------
  // The rebuilt connection table

  /** The entry a refresh makes for a route between Carla port `carlaPort`
      and external port `otherPort`: external end first for the Carla
      inputs, Carla end first for the outputs. */
  function RouteEntry(carlaPort: nat, otherPort: nat, id: nat): ConnectionToId
    requires PortNull < carlaPort < PortMax
  {
    if IsCarlaInput(carlaPort) then ConnectionToId(id, GroupForCarlaPort(carlaPort), otherPort, GroupCarla, carlaPort)
    else ConnectionToId(id, GroupCarla, carlaPort, GroupForCarlaPort(carlaPort), otherPort)
  }

  /** One entry per port, in order, with the ids following `base`. */
  function RouteEntries(ports: seq<nat>, carlaPort: nat, base: nat): (r: seq<ConnectionToId>)
    requires PortNull < carlaPort < PortMax
    ensures |r| == |ports|
  {
    seq(|ports|, i requires 0 <= i < |ports| => RouteEntry(carlaPort, ports[i], base + i + 1))
  }

  /** The external ids of the open MIDI ports, looked up by name in the
      registry (an unregistered name gives 0), keeping only those below the
      registry's size. */
  function OpenPortIds(registry: seq<PortNameToId>, names: seq<string>): (r: seq<nat>)
    ensures |r| <= |names|
    ensures forall i :: 0 <= i < |r| ==> r[i] < |registry|
  {
    if |names| == 0 then []
    else
      var id := MidiPortIdOrZero(registry, names[|names| - 1]);
      OpenPortIds(registry, names[..|names| - 1]) + (if id < |registry| then [id] else [])
  }

  lemma RouteEntriesSnoc(ports: seq<nat>, carlaPort: nat, base: nat, p: nat)
    requires PortNull < carlaPort < PortMax
    ensures RouteEntries(ports + [p], carlaPort, base)
         == RouteEntries(ports, carlaPort, base) + [RouteEntry(carlaPort, p, base + |ports| + 1)]
  {
  }

  lemma OpenPortIdsSnoc(registry: seq<PortNameToId>, names: seq<string>, i: nat)
    requires i < |names|
    ensures var id := MidiPortIdOrZero(registry, names[i]);
      OpenPortIds(registry, names[..i + 1]) == OpenPortIds(registry, names[..i]) + (if id < |registry| then [id] else [])
  {
    assert names[..i + 1][..i] == names[..i];
  }

  /** The audio part of a rebuilt table: the routes of AUDIO_IN1,
      AUDIO_IN2, AUDIO_OUT1 and AUDIO_OUT2 in routing-list order, with
      consecutive ids after `base`. */
  function AudioRouteTable(r: Routing, base: nat): (t: seq<ConnectionToId>)
    ensures |t| == |r.in1| + |r.in2| + |r.out1| + |r.out2|
  {
    RouteEntries(r.in1, PortAudioIn1, base)
    + RouteEntries(r.in2, PortAudioIn2, base + |r.in1|)
    + RouteEntries(r.out1, PortAudioOut1, base + |r.in1| + |r.in2|)
    + RouteEntries(r.out2, PortAudioOut2, base + |r.in1| + |r.in2| + |r.out1|)
  }

  /** The table `patchbayRefreshRack` builds: the audio routes, then the
      open MIDI inputs and outputs, with consecutive ids after `base`. */
  function RefreshedRackTable(r: Routing, midiInIds: seq<nat>, midiOutIds: seq<nat>, base: nat): seq<ConnectionToId>
  {
    var audio := AudioRouteTable(r, base);
    audio + RouteEntries(midiInIds, PortMidiIn, base + |audio|)
          + RouteEntries(midiOutIds, PortMidiOut, base + |audio| + |midiInIds|)
  }

  /** Ids follow `base` one by one and every entry is one `connect` could
      have made. */
  ghost predicate Shaped(list: seq<ConnectionToId>, base: nat)
  {
    && (forall k :: 0 <= k < |list| ==> list[k].id == base + k + 1)
    && (forall k :: 0 <= k < |list| ==> WellFormed(list[k]))
  }

  lemma ShapedAppend(a: seq<ConnectionToId>, b: seq<ConnectionToId>, base: nat)
    requires Shaped(a, base) && Shaped(b, base + |a|)
    ensures Shaped(a + b, base)
  {
    forall k | |a| <= k < |a + b|
      ensures (a + b)[k].id == base + k + 1 && WellFormed((a + b)[k])
    {
      assert (a + b)[k] == b[k - |a|];
    }
  }

  lemma RouteEntriesShaped(ports: seq<nat>, carlaPort: nat, base: nat)
    requires PortNull < carlaPort < PortMax
    ensures Shaped(RouteEntries(ports, carlaPort, base), base)
  {
  }

  /** The routes a group of entries contributes to each Carla port: its
      own ports, in order, and nothing to the others. */
  lemma {:induction false} RoutedPortsOfEntries(ports: seq<nat>, carlaPort: nat, base: nat, q: nat)
    requires PortNull < carlaPort < PortMax
    ensures RoutedPorts(RouteEntries(ports, carlaPort, base), q) == if carlaPort == q then ports else []
    decreases |ports|
  {
    var entries := RouteEntries(ports, carlaPort, base);
    if |ports| > 0 {
      assert entries[1..] == RouteEntries(ports[1..], carlaPort, base + 1);
      RoutedPortsOfEntries(ports[1..], carlaPort, base + 1, q);
      assert EndOf(entries[0]) == Some(RackEnd(carlaPort, GroupForCarlaPort(carlaPort), ports[0]));
      if carlaPort == q {
        assert ports == [ports[0]] + ports[1..];
      }
    }
  }

  /** Appending a group of entries appends its own ports to those routed to
      its Carla port, and nothing to the others. */
  lemma RoutedPortsAppendEntries(list: seq<ConnectionToId>, ports: seq<nat>, carlaPort: nat, base: nat, q: nat)
    requires PortNull < carlaPort < PortMax
    ensures RoutedPorts(list + RouteEntries(ports, carlaPort, base), q)
         == RoutedPorts(list, q) + (if carlaPort == q then ports else [])
  {
    RoutedPortsConcat(list, RouteEntries(ports, carlaPort, base), q);
    RoutedPortsOfEntries(ports, carlaPort, base, q);
  }

  /** The audio part of a rebuilt table routes to each Carla port exactly
      its routing list, in order. */
  lemma AudioTableRoutes(r: Routing, base: nat, q: nat)
    ensures RoutedPorts(AudioRouteTable(r, base), q) == RouteList(r, q)
  {
    var s1 := RouteEntries(r.in1, PortAudioIn1, base);
    var s2 := s1 + RouteEntries(r.in2, PortAudioIn2, base + |r.in1|);
    var s3 := s2 + RouteEntries(r.out1, PortAudioOut1, base + |r.in1| + |r.in2|);
    RoutedPortsOfEntries(r.in1, PortAudioIn1, base, q);
    RoutedPortsAppendEntries(s1, r.in2, PortAudioIn2, base + |r.in1|, q);
    RoutedPortsAppendEntries(s2, r.out1, PortAudioOut1, base + |r.in1| + |r.in2|, q);
    RoutedPortsAppendEntries(s3, r.out2, PortAudioOut2, base + |r.in1| + |r.in2| + |r.out1|, q);
    RouteListOfParts(r, q);
  }

  lemma RouteListOfParts(r: Routing, q: nat)
    ensures RouteList(r, q)
         == (if PortAudioIn1 == q then r.in1 else []) + (if PortAudioIn2 == q then r.in2 else [])
               + (if PortAudioOut1 == q then r.out1 else []) + (if PortAudioOut2 == q then r.out2 else [])
  {
    var none: seq<nat> := [];
    if q == PortAudioIn1 {
      assert r.in1 + none + none + none == r.in1;
    } else if q == PortAudioIn2 {
      assert none + r.in2 + none + none == r.in2;
    } else if q == PortAudioOut1 {
      assert none + none + r.out1 + none == r.out1;
    } else if q == PortAudioOut2 {
      assert none + none + none + r.out2 == r.out2;
    }
  }

  /** The rebuilt table lists, for each audio Carla port, exactly that
      port's routing list in order. */
  lemma RefreshedRoutes(r: Routing, midiInIds: seq<nat>, midiOutIds: seq<nat>, base: nat, q: nat)
    requires IsAudioCarlaPort(q)
    ensures RoutedPorts(RefreshedRackTable(r, midiInIds, midiOutIds, base), q) == RouteList(r, q)
  {
    var audio := AudioRouteTable(r, base);
    AudioTableRoutes(r, base, q);
    RoutedPortsAppendEntries(audio, midiInIds, PortMidiIn, base + |audio|, q);
    RoutedPortsAppendEntries(audio + RouteEntries(midiInIds, PortMidiIn, base + |audio|), midiOutIds, PortMidiOut,
                             base + |audio| + |midiInIds|, q);
  }

  lemma AudioTableShaped(r: Routing, base: nat)
    ensures Shaped(AudioRouteTable(r, base), base)
  {
    var s1 := RouteEntries(r.in1, PortAudioIn1, base);
    var s2 := s1 + RouteEntries(r.in2, PortAudioIn2, base + |r.in1|);
    var s3 := s2 + RouteEntries(r.out1, PortAudioOut1, base + |r.in1| + |r.in2|);
    RouteEntriesShaped(r.in1, PortAudioIn1, base);
    RouteEntriesShaped(r.in2, PortAudioIn2, base + |r.in1|);
    ShapedAppend(s1, RouteEntries(r.in2, PortAudioIn2, base + |r.in1|), base);
    RouteEntriesShaped(r.out1, PortAudioOut1, base + |r.in1| + |r.in2|);
    ShapedAppend(s2, RouteEntries(r.out1, PortAudioOut1, base + |r.in1| + |r.in2|), base);
    RouteEntriesShaped(r.out2, PortAudioOut2, base + |r.in1| + |r.in2| + |r.out1|);
    ShapedAppend(s3, RouteEntries(r.out2, PortAudioOut2, base + |r.in1| + |r.in2| + |r.out1|), base);
  }

  /** The rebuilt table has consecutive ids after `base` and well-formed
      entries. */
  lemma RefreshedShape(r: Routing, midiInIds: seq<nat>, midiOutIds: seq<nat>, base: nat)
    ensures Shaped(RefreshedRackTable(r, midiInIds, midiOutIds, base), base)
  {
    var audio := AudioRouteTable(r, base);
    var s5 := audio + RouteEntries(midiInIds, PortMidiIn, base + |audio|);
    AudioTableShaped(r, base);
    RouteEntriesShaped(midiInIds, PortMidiIn, base + |audio|);
    ShapedAppend(audio, RouteEntries(midiInIds, PortMidiIn, base + |audio|), base);
    RouteEntriesShaped(midiOutIds, PortMidiOut, base + |audio| + |midiInIds|);
    ShapedAppend(s5, RouteEntries(midiOutIds, PortMidiOut, base + |audio| + |midiInIds|), base);
  }

  /** A refresh leaves the rack's table invariant holding, whatever the
      table held before: ids increase up to the new counter, every entry is
      well formed, and the routing lists are mirrored. */
  lemma RefreshKeepsTableInvariant(r: Routing, midiInIds: seq<nat>, midiOutIds: seq<nat>, base: nat)
    ensures var t := RefreshedRackTable(r, midiInIds, midiOutIds, base);
      TableInvariant(t, base + |t|, r)
  {
    var t := RefreshedRackTable(r, midiInIds, midiOutIds, base);
    RefreshedShape(r, midiInIds, midiOutIds, base);
    forall q | IsAudioCarlaPort(q)
      ensures multiset(RouteList(r, q)) == multiset(RoutedPorts(t, q))
    {
      RefreshedRoutes(r, midiInIds, midiOutIds, base, q);
    }
  }

  /** As written, the last MIDI device of a fresh registry is never listed
      as connected: its port id equals the registry's size. */
  lemma LastMidiDeviceNotListed(group: nat, devices: seq<string>, prefix: string)
    requires group != 0 && |devices| > 0
    requires devices[|devices| - 1] !in devices[..|devices| - 1]
    ensures OpenPortIds(MidiRegistry(group, devices, prefix), [devices[|devices| - 1]]) == []
  {
    var registry := MidiRegistry(group, devices, prefix);
    var n := |devices| - 1;
    assert registry[n].name == devices[n];
    assert [devices[n]][..0] == [];
  }

  /** As written, an open MIDI port missing from a non-empty registry is
      listed with port id 0. */
  lemma UnregisteredPortListedAsZero(registry: seq<PortNameToId>, name: string)
    requires |registry| > 0 && MidiPortId(registry, name) == None
    ensures OpenPortIds(registry, [name]) == [0]
  {
    assert [name][..0] == [];
  }

  /** Lists the route entries for `ports`, announcing each one. The
      callbacks so far are `start` followed by the announcements of the
      table's entries, and stay so. */
  method ListRoutes(engine: Engine, ghost start: seq<Callback>, list: seq<ConnectionToId>, lastId: nat,
                    carlaPort: nat, ports: seq<nat>)
    returns (list': seq<ConnectionToId>, lastId': nat)
    requires PortNull < carlaPort < PortMax
    requires engine.callbacks == start + AdditionCallbacks(list)
    modifies engine`callbacks
    ensures list' == list + RouteEntries(ports, carlaPort, lastId) && lastId' == lastId + |ports|
    ensures engine.callbacks == start + AdditionCallbacks(list')
  {
    list', lastId' := list, lastId;
    var i := 0;
    while i < |ports|
      invariant 0 <= i <= |ports| && lastId' == lastId + i
      invariant list' == list + RouteEntries(ports[..i], carlaPort, lastId)
      invariant engine.callbacks == start + AdditionCallbacks(list')
      {
      lastId' := lastId' + 1;
      var c := RouteEntry(carlaPort, ports[i], lastId');
      assert ports[..i + 1] == ports[..i] + [ports[i]];
      RouteEntriesSnoc(ports[..i], carlaPort, lastId, ports[i]);
      AdditionCallbacksSnoc(list', c);
      engine.callbacks := engine.callbacks + [ConnectionAdded(c.id, c.groupA, c.portA, c.groupB, c.portB)];
      list' := list' + [c];
      i := i + 1;
    }
    assert ports[..i] == ports;
  }

  /** Lists the route entries for the open MIDI ports `names`, skipping
      those whose looked-up id is not below the registry's size. */
  method ListMidiRoutes(engine: Engine, ghost start: seq<Callback>, list: seq<ConnectionToId>, lastId: nat,
                        carlaPort: nat, registry: seq<PortNameToId>, names: seq<string>)
    returns (list': seq<ConnectionToId>, lastId': nat)
    requires PortNull < carlaPort < PortMax
    requires engine.callbacks == start + AdditionCallbacks(list)
    modifies engine`callbacks
    ensures var ids := OpenPortIds(registry, names);
      list' == list + RouteEntries(ids, carlaPort, lastId) && lastId' == lastId + |ids|
    ensures engine.callbacks == start + AdditionCallbacks(list')
  {
    list', lastId' := list, lastId;
    ghost var ids: seq<nat> := [];
    var i := 0;
    while i < |names|
      invariant 0 <= i <= |names| && ids == OpenPortIds(registry, names[..i])
      invariant list' == list + RouteEntries(ids, carlaPort, lastId) && lastId' == lastId + |ids|
      invariant engine.callbacks == start + AdditionCallbacks(list')
    {
      OpenPortIdsSnoc(registry, names, i);
      var portId := MidiPortIdOrZero(registry, names[i]);
      if portId < |registry| {
        lastId' := lastId' + 1;
        var c := RouteEntry(carlaPort, portId, lastId');
        RouteEntriesSnoc(ids, carlaPort, lastId, portId);
        AdditionCallbacksSnoc(list', c);
        engine.callbacks := engine.callbacks + [ConnectionAdded(c.id, c.groupA, c.portA, c.groupB, c.portB)];
        list' := list' + [c];
        ids := ids + [portId];
      }
      i := i + 1;
    }
    assert names[..i] == names;
  }

  // ---------------------------------------------------------------------
  // The backend

  /** The rack-mode MIDI state of `CarlaEngineJuce`: the names of the open
      MIDI input and output ports (`fMidiIns`, `fMidiOuts`), with the
      engine's internal graph and its observable side. */
  class CarlaEngineJuce {
    var midiIns: seq<string>
    var midiOuts: seq<string>
    const graph: EngineInternalGraph
    const engine: Engine

    constructor (graph: EngineInternalGraph, engine: Engine)
      ensures midiIns == [] && midiOuts == [] && this.graph == graph && this.engine == engine
    {
      midiIns := [];
      midiOuts := [];
      this.graph := graph;
      this.engine := engine;
    }

    /** The registry `getRackGraph()->midi.ins` (or `.outs`) holds, or
        `None` when no rack is available. */
    function RackRegistry(isInput: bool): Option<seq<PortNameToId>>
      reads graph, graph.Repr()
    {
      match graph.GetRackGraph()
      case None => None
      case Some(r) => Some(if isInput then r.midiIns else r.midiOuts)
    }

    /** The checks every hook makes first: a non-empty name, a rack, and a
        non-empty registry (the input one, or the output one when
        `outputRegistry`). */
    predicate HookAllowed(portName: string, outputRegistry: bool)
      reads graph, graph.Repr()
    {
      && portName != ""
      && RackRegistry(!outputRegistry).Some?
      && |RackRegistry(!outputRegistry).value| > 0
    }

    /** `connectRackMidiInPort`: once the checks pass, a port named like one
        of the readable devices is opened and appended. */
    method ConnectRackMidiInPort(portName: string, devices: seq<string>) returns (ok: bool)
      modifies this
      ensures ok <==> HookAllowed(portName, false) && portName in devices
      ensures midiIns == if ok then old(midiIns) + [portName] else old(midiIns)
      ensures midiOuts == old(midiOuts)
    {
      if portName == "" {
        return false;
      }
      var rack := graph.GetRackGraph();
      if rack.None? || |rack.value.midiIns| == 0 {
        return false;
      }
      if portName !in devices {
        return false;
      }
      midiIns := midiIns + [portName];
      ok := true;
    }

    /** `connectRackMidiOutPort`: as for inputs, against the writable
        devices; the registry checked is the input one, as written. */
    method ConnectRackMidiOutPort(portName: string, devices: seq<string>) returns (ok: bool)
      modifies this
      ensures ok <==> HookAllowed(portName, false) && portName in devices
      ensures midiOuts == if ok then old(midiOuts) + [portName] else old(midiOuts)
      ensures midiIns == old(midiIns)
    {
      if portName == "" {
        return false;
      }
      var rack := graph.GetRackGraph();
      if rack.None? || |rack.value.midiIns| == 0 {
        return false;
      }
      if portName !in devices {
        return false;
      }
      midiOuts := midiOuts + [portName];
      ok := true;
    }

    /** `disconnectRackMidiInPort`: once the checks pass, the first open
        port with that name is closed and removed; false when none has it. */
    method DisconnectRackMidiInPort(portName: string) returns (ok: bool)
      modifies this
      ensures ok <==> HookAllowed(portName, false) && portName in old(midiIns)
      ensures midiIns == if ok then RemoveOne(old(midiIns), portName) else old(midiIns)
      ensures midiOuts == old(midiOuts)
    {
      if portName == "" {
        return false;
      }
      var rack := graph.GetRackGraph();
      if rack.None? || |rack.value.midiIns| == 0 {
        return false;
      }
      var k := FindPort(midiIns, portName);
      if k < 0 {
        return false;
      }
      midiIns := RemoveAt(midiIns, k);
      ok := true;
    }

    /** `disconnectRackMidiOutPort`: the same on the output ports, checking
        the output registry. */
    method DisconnectRackMidiOutPort(portName: string) returns (ok: bool)
      modifies this
      ensures ok <==> HookAllowed(portName, true) && portName in old(midiOuts)
      ensures midiOuts == if ok then RemoveOne(old(midiOuts), portName) else old(midiOuts)
      ensures midiIns == old(midiIns)
    {
      if portName == "" {
        return false;
      }
      var rack := graph.GetRackGraph();
      if rack.None? || |rack.value.midiOuts| == 0 {
        return false;
      }
      var k := FindPort(midiOuts, portName);
      if k < 0 {
        return false;
      }
      midiOuts := RemoveAt(midiOuts, k);
      ok := true;
    }

    /** `patchbayRefreshRack`: without a rack nothing happens; otherwise
        the rack is refreshed as `RefreshRack` says. */
    method PatchbayRefreshRack(engineName: string, deviceName: string, inputNames: seq<string>, outputNames: seq<string>,
                               midiInDevices: seq<string>, midiOutDevices: seq<string>)
      requires graph.Valid()
      modifies graph.Repr(), engine
      ensures graph.Valid()
      ensures graph.GetRackGraph().None? ==> unchanged(graph.Repr()) && unchanged(engine)
      ensures graph.GetRackGraph().Some? ==>
        Refreshed(engine, graph.GetRackGraph().value, midiIns, midiOuts, engineName, deviceName, inputNames, outputNames,
                  midiInDevices, midiOutDevices)
      ensures engine.lastError == old(engine.lastError)
    {
      var found := graph.GetRackGraph();
      if found.None? {
        return;
      }
      RefreshRack(engine, found.value, midiIns, midiOuts, engineName, deviceName, inputNames, outputNames,
                  midiInDevices, midiOutDevices);
    }

  }

  /** What a refresh of `rack` leaves behind, with `openIns` and
      `openOuts` the names of the open MIDI ports: the MIDI devices appended
      to the registries, the routing lists and settings untouched, the table
      rebuilt from the routing lists and the open MIDI ports with
      consecutive ids ending at the counter, and the callbacks announcing
      every client and port and then every entry. */
  twostate predicate Refreshed(engine: Engine, rack: RackGraph, openIns: seq<string>, openOuts: seq<string>,
                               engineName: string, deviceName: string, inputNames: seq<string>,
                               outputNames: seq<string>, midiInDevices: seq<string>, midiOutDevices: seq<string>)
    reads rack, engine
  {
    && rack.midiIns == old(rack.midiIns) + MidiRegistry(GroupMidiIn, midiInDevices, "Readable MIDI ports:")
    && rack.midiOuts == old(rack.midiOuts) + MidiRegistry(GroupMidiOut, midiOutDevices, "Writable MIDI ports:")
    && rack.Routes() == old(rack.Routes()) && rack.Settings() == old(rack.Settings())
    && rack.lastId >= |rack.connections|
    && rack.connections == RefreshedRackTable(rack.Routes(), OpenPortIds(rack.midiIns, openIns),
                                              OpenPortIds(rack.midiOuts, openOuts), rack.lastId - |rack.connections|)
    && engine.callbacks == old(engine.callbacks)
         + RackAnnouncements(engineName, deviceName, inputNames, outputNames, midiInDevices, midiOutDevices)
         + AdditionCallbacks(rack.connections)
  }

  /** The body of `patchbayRefreshRack` once the rack is found. The table
      is emptied first; what `clear` does to its id counter is not part of
      this model, so the new ids start after an arbitrary counter value. */
  method RefreshRack(engine: Engine, rack: RackGraph, openIns: seq<string>, openOuts: seq<string>,
                     engineName: string, deviceName: string, inputNames: seq<string>,
                     outputNames: seq<string>, midiInDevices: seq<string>, midiOutDevices: seq<string>)
    modifies rack, engine`callbacks
    ensures rack.Valid()
    ensures Refreshed(engine, rack, openIns, openOuts, engineName, deviceName, inputNames, outputNames, midiInDevices, midiOutDevices)
  {
    rack.connections := [];
    rack.lastId := *;
    AnnounceRack(engine, rack, engineName, deviceName, inputNames, outputNames, midiInDevices, midiOutDevices);
    RebuildRackTable(engine, rack, openIns, openOuts);
  }

  /** Rebuilds the emptied table of `rack` after its current counter,
      announcing each entry. */
  method RebuildRackTable(engine: Engine, rack: RackGraph, openIns: seq<string>, openOuts: seq<string>)
    modifies rack`connections, rack`lastId, engine`callbacks
    ensures rack.Valid()
    ensures rack.lastId == old(rack.lastId) + |rack.connections|
    ensures rack.connections == RefreshedRackTable(rack.Routes(), OpenPortIds(rack.midiIns, openIns),
                                                   OpenPortIds(rack.midiOuts, openOuts), rack.lastId - |rack.connections|)
    ensures engine.callbacks == old(engine.callbacks) + AdditionCallbacks(rack.connections)
  {
    var base := rack.lastId;
    var inIds, outIds := OpenPortIds(rack.midiIns, openIns), OpenPortIds(rack.midiOuts, openOuts);
    var table := RebuildTable(engine, rack.Routes(), inIds, outIds, rack.midiIns, rack.midiOuts, openIns, openOuts, base);
    rack.connections := table;
    rack.lastId := base + |table|;
    RefreshKeepsTableInvariant(rack.Routes(), inIds, outIds, base);
  }

  /** The connection loops of `patchbayRefreshRack`: the four routing
      lists, then the open MIDI inputs and outputs. */
  method RebuildTable(engine: Engine, routes: Routing, ghost inIds: seq<nat>, ghost outIds: seq<nat>,
                      ins: seq<PortNameToId>, outs: seq<PortNameToId>, openIns: seq<string>, openOuts: seq<string>, base: nat)
    returns (table: seq<ConnectionToId>)
    requires inIds == OpenPortIds(ins, openIns) && outIds == OpenPortIds(outs, openOuts)
    modifies engine`callbacks
    ensures table == RefreshedRackTable(routes, inIds, outIds, base)
    ensures engine.callbacks == old(engine.callbacks) + AdditionCallbacks(table)
  {
    ghost var start := engine.callbacks;
    var id;
    table, id := ListAudioRoutes(engine, routes, base);
    table, id := ListMidiRoutes(engine, start, table, id, PortMidiIn, ins, openIns);
    table, id := ListMidiRoutes(engine, start, table, id, PortMidiOut, outs, openOuts);
  }

  /** The four audio loops of `patchbayRefreshRack`. */
  method ListAudioRoutes(engine: Engine, routes: Routing, base: nat) returns (table: seq<ConnectionToId>, id: nat)
    modifies engine`callbacks
    ensures table == AudioRouteTable(routes, base)
    ensures id == base + |table|
    ensures engine.callbacks == old(engine.callbacks) + AdditionCallbacks(table)
  {
    ghost var start := engine.callbacks;
    assert engine.callbacks == start + AdditionCallbacks([]);
    table, id := ListRoutes(engine, start, [], base, PortAudioIn1, routes.in1);
    table, id := ListRoutes(engine, start, table, id, PortAudioIn2, routes.in2);
    table, id := ListRoutes(engine, start, table, id, PortAudioOut1, routes.out1);
    table, id := ListRoutes(engine, start, table, id, PortAudioOut2, routes.out2);
    assert [] + RouteEntries(routes.in1, PortAudioIn1, base) == RouteEntries(routes.in1, PortAudioIn1, base);
  }

  /** The position of the first port named `portName`, or -1: the search
      the disconnect hooks make. */
  method FindPort(ports: seq<string>, portName: string) returns (k: int)
    ensures k == IndexOf(ports, portName)
  {
    var i := 0;
    while i < |ports|
      invariant 0 <= i <= |ports|
      invariant portName !in ports[..i]
    {
      if ports[i] == portName {
        IndexOfFirst(ports, i);
        return i;
      }
      assert ports[..i + 1] == ports[..i] + [ports[i]];
      i := i + 1;
    }
    assert ports[..i] == ports;
    return -1;
  }

  /** Connecting a port that is not open and disconnecting it again gives
      back the list of open ports. */
  lemma ConnectThenDisconnect(ports: seq<string>, portName: string)
    requires portName !in ports
    ensures RemoveOne(ports + [portName], portName) == ports
  {
    assert (ports + [portName])[|ports|] == portName;
    assert (ports + [portName])[..|ports|] == ports;
    IndexOfFirst(ports + [portName], |ports|);
  }
}

=== FILE: patchbay_graph.dfy ===
/** `PatchbayGraph`: the patchbay-mode graph. The inner node graph is kept
    abstract as a list of nodes and a list of edges in channel indices;
    whether the node graph accepts a new edge, and which edges it considers
    legal, are parameters. Carla's own connection table, its id counter,
    the `pluginId` properties and the callbacks are modelled exactly. */
module Patchbay {
  import opened Common
  import opened Constants
  import opened EngineCore
  import opened PatchbayPorts

  // ---------------------------------------------------------------------
  // Connection table

  /** An entry `disconnectGroup` removes: a valid entry with either end on
      the group. */
  predicate Touches(c: ConnectionToId, groupId: nat)
  {
    c.id != 0 && (c.groupA == groupId || c.groupB == groupId)
  }

  /** The entries `disconnectGroup` keeps, in order. */
  function Kept(list: seq<ConnectionToId>, groupId: nat): (r: seq<ConnectionToId>)
    ensures |r| <= |list|
  {
    if |list| == 0 then []
    else
      var last := list[|list| - 1];
      Kept(list[..|list| - 1], groupId) + (if Touches(last, groupId) then [] else [last])
  }

  /** The entries `disconnectGroup` removes, in order. */
  function Dropped(list: seq<ConnectionToId>, groupId: nat): (r: seq<ConnectionToId>)
    ensures |r| <= |list|
  {
    if |list| == 0 then []
    else
      var last := list[|list| - 1];
      Dropped(list[..|list| - 1], groupId) + (if Touches(last, groupId) then [last] else [])
  }

  /** `disconnectGroup` keeps exactly the entries that do not touch the
      group and removes exactly those that do. */
  lemma {:induction false} GroupMembers(list: seq<ConnectionToId>, groupId: nat, c: ConnectionToId)
    ensures c in Kept(list, groupId) <==> c in list && !Touches(c, groupId)
    ensures c in Dropped(list, groupId) <==> c in list && Touches(c, groupId)
  {
    if |list| > 0 {
      var init, last := list[..|list| - 1], list[|list| - 1];
      GroupMembers(init, groupId, c);
      assert list == init + [last];
    }
  }

  /** One `CONNECTION_REMOVED` per entry, in order. */
  function RemovalCallbacks(list: seq<ConnectionToId>): (r: seq<Callback>)
    ensures |r| == |list|
    ensures forall i :: 0 <= i < |list| ==> r[i] == ConnectionRemoved(list[i].id)
  {
    seq(|list|, i requires 0 <= i < |list| => ConnectionRemoved(list[i].id))
  }

  /** `disconnectGroup` splits the table: every entry is either kept or
      removed, and none is lost or duplicated. */
  lemma {:induction false} GroupPartition(list: seq<ConnectionToId>, groupId: nat)
    ensures multiset(Kept(list, groupId)) + multiset(Dropped(list, groupId)) == multiset(list)
  {
    if |list| > 0 {
      var init, last := list[..|list| - 1], list[|list| - 1];
      GroupPartition(init, groupId);
      assert multiset(list) == multiset(init) + multiset{last} by {
        assert list == init + [last];
      }
    }
  }

  /** One more entry walked by `disconnectGroup`: it is either kept or
      removed and announced. */
  lemma GroupStep(list: seq<ConnectionToId>, j: nat, groupId: nat)
    requires j < |list|
    ensures Kept(list[..j + 1], groupId) == Kept(list[..j], groupId) + (if Touches(list[j], groupId) then [] else [list[j]])
    ensures RemovalCallbacks(Dropped(list[..j + 1], groupId))
         == RemovalCallbacks(Dropped(list[..j], groupId)) + (if Touches(list[j], groupId) then [ConnectionRemoved(list[j].id)] else [])
  {
    assert list[..j + 1][..j] == list[..j];
    var d := Dropped(list[..j], groupId);
    if Touches(list[j], groupId) {
      assert RemovalCallbacks(d + [list[j]]) == RemovalCallbacks(d) + [ConnectionRemoved(list[j].id)];
    }
  }

  /** The loop state of `disconnectGroup` after walking `original[..j]`:
      the kept prefix, followed by the entries not yet walked, and the
      removals announced so far. */
  ghost predicate GroupWalk(original: seq<ConnectionToId>, j: nat, groupId: nat, list: seq<ConnectionToId>, i: nat,
                            emitted: seq<Callback>)
  {
    && j <= |original| && i == |Kept(original[..j], groupId)|
    && list == Kept(original[..j], groupId) + original[j..]
    && emitted == RemovalCallbacks(Dropped(original[..j], groupId))
  }

  lemma GroupWalkStart(original: seq<ConnectionToId>, groupId: nat)
    ensures GroupWalk(original, 0, groupId, original, 0, [])
  {
    assert original[..0] == [];
  }

  lemma GroupWalkStep(original: seq<ConnectionToId>, j: nat, groupId: nat, list: seq<ConnectionToId>, i: nat,
                      emitted: seq<Callback>)
    requires GroupWalk(original, j, groupId, list, i, emitted) && i < |list|
    ensures Touches(list[i], groupId)
        ==> GroupWalk(original, j + 1, groupId, RemoveAt(list, i), i, emitted + [ConnectionRemoved(list[i].id)])
    ensures !Touches(list[i], groupId) ==> GroupWalk(original, j + 1, groupId, list, i + 1, emitted)
  {
    var kept := Kept(original[..j], groupId);
    assert |original[j..]| > 0;
    var c := original[j];
    assert original[j..] == [c] + original[j + 1..];
    assert list[i] == c;
    GroupStep(original, j, groupId);
    if Touches(c, groupId) {
      assert RemoveAt(list, i) == kept + original[j + 1..];
    } else {
      assert list == (kept + [c]) + original[j + 1..];
    }
  }

  lemma GroupWalkDone(original: seq<ConnectionToId>, j: nat, groupId: nat, list: seq<ConnectionToId>, i: nat,
                      emitted: seq<Callback>)
    requires GroupWalk(original, j, groupId, list, i, emitted) && i >= |list|
    ensures list == Kept(original, groupId) && emitted == RemovalCallbacks(Dropped(original, groupId))
  {
    assert original[..j] == original;
  }

  /** The loop of `disconnectGroup`: walks `original`, removing in place
      every entry touching the group and announcing its removal. */
  method RemoveGroupEntries(engine: Engine, original: seq<ConnectionToId>, groupId: nat) returns (list: seq<ConnectionToId>)
    modifies engine
    ensures list == Kept(original, groupId)
    ensures engine.callbacks == old(engine.callbacks) + RemovalCallbacks(Dropped(original, groupId))
    ensures engine.lastError == old(engine.lastError)
  {
    list := original;
    var i := 0;
    ghost var j := 0;
    ghost var emitted := [];
    GroupWalkStart(original, groupId);
    while i < |list|
      invariant GroupWalk(original, j, groupId, list, i, emitted)
      invariant engine.callbacks == old(engine.callbacks) + emitted
      invariant engine.lastError == old(engine.lastError)
      decreases |list| - i
    {
      GroupWalkStep(original, j, groupId, list, i, emitted);
      var c := list[i];
      if Touches(c, groupId) {
        engine.callbacks := engine.callbacks + [ConnectionRemoved(c.id)];
        emitted := emitted + [ConnectionRemoved(c.id)];
        list := RemoveAt(list, i);
      } else {
        i := i + 1;
      }
      j := j + 1;
    }
    GroupWalkDone(original, j, groupId, list, i, emitted);
  }

  /** Keeping a subset of the entries, in order, keeps the ids increasing. */
  lemma {:induction false} KeptKeepsIds(list: seq<ConnectionToId>, lastId: nat, groupId: nat)
    requires IdsIncreasing(list, lastId)
    ensures IdsIncreasing(Kept(list, groupId), lastId)
  {
    if |list| > 0 {
      var init, last := list[..|list| - 1], list[|list| - 1];
      assert IdsIncreasing(init, lastId);
      KeptKeepsIds(init, lastId, groupId);
      var r := Kept(init, groupId);
      forall c | c in r
        ensures c.id < last.id
      {
        GroupMembers(init, groupId, c);
        var i :| 0 <= i < |init| && init[i] == c;
        assert list[i] == c;
      }
    }
  }

  /** The entry a refresh makes for an inner edge. */
  function EntryForEdge(e: Edge, id: nat): ConnectionToId
  {
    ConnectionToId(id, e.srcNode, SourcePortFromJuce(e.srcChannel), e.dstNode, DestPortFromJuce(e.dstChannel))
  }

  /** The table a refresh builds: one entry per edge, in edge order, with the
      ids following `base`. */
  function RefreshedEntries(edges: seq<Edge>, base: nat): (r: seq<ConnectionToId>)
    ensures |r| == |edges|
  {
    seq(|edges|, k requires 0 <= k < |edges| => EntryForEdge(edges[k], base + k + 1))
  }

  lemma RefreshStep(edges: seq<Edge>, i: nat, base: nat)
    requires i < |edges|
    ensures RefreshedEntries(edges[..i + 1], base) == RefreshedEntries(edges[..i], base) + [EntryForEdge(edges[i], base + i + 1)]
  {
  }

  /** A refreshed table satisfies the table invariant with the counter
      after its last id. */
  lemma RefreshedIds(edges: seq<Edge>, base: nat)
    ensures IdsIncreasing(RefreshedEntries(edges, base), base + |edges|)
  {
  }

  /** The inner edge a table entry stands for, when both port ids are in
      the bands. */
  function EdgeOfEntry(c: ConnectionToId): Option<Edge>
  {
    var a := AdjustPortIdForJuce(c.portA);
    var b := AdjustPortIdForJuce(c.portB);
    if a.None? || b.None? then None else Some(Edge(c.groupA, a.value, c.groupB, b.value))
  }

  /** A refreshed table's entries stand exactly for the edges they were
      made from. */
  lemma RefreshedEntriesMapBack(edges: seq<Edge>, base: nat)
    requires forall k :: 0 <= k < |edges| ==> IsChannelIndex(edges[k].srcChannel) && IsChannelIndex(edges[k].dstChannel)
    ensures forall k :: 0 <= k < |edges| ==> EdgeOfEntry(RefreshedEntries(edges, base)[k]) == Some(edges[k])
  {
    var r := RefreshedEntries(edges, base);
    forall k | 0 <= k < |edges|
      ensures EdgeOfEntry(r[k]) == Some(edges[k])
    {
      SourcePortRoundTrip(edges[k].srcChannel);
      DestPortRoundTrip(edges[k].dstChannel);
    }
  }

  // ---------------------------------------------------------------------
  // Inner graph

  /** The edges the node graph's `removeConnection` leaves: every copy of
      `e` goes. */
  function EdgesWithout(edges: seq<Edge>, e: Edge): (r: seq<Edge>)
    ensures |r| <= |edges|
    ensures forall x :: x in r <==> x in edges && x != e
  {
    if |edges| == 0 then []
    else (if edges[0] == e then [] else [edges[0]]) + EdgesWithout(edges[1..], e)
  }

  /** The edges left when a node is removed: those not touching it. */
  function EdgesWithoutNode(edges: seq<Edge>, nodeId: nat): (r: seq<Edge>)
    ensures |r| <= |edges|
    ensures forall x :: x in r <==> x in edges && x.srcNode != nodeId && x.dstNode != nodeId
  {
    if |edges| == 0 then []
    else
      (if edges[0].srcNode == nodeId || edges[0].dstNode == nodeId then [] else [edges[0]])
        + EdgesWithoutNode(edges[1..], nodeId)
  }

  /** `removeIllegalConnections`, with the node graph's legality test as a
      parameter. */
  function LegalEdges(edges: seq<Edge>, legal: Edge -> bool): (r: seq<Edge>)
    ensures |r| <= |edges|
    ensures forall x :: x in r <==> x in edges && legal(x)
  {
    if |edges| == 0 then []
    else (if legal(edges[0]) then [edges[0]] else []) + LegalEdges(edges[1..], legal)
  }

  /** The node graph holds no edge twice: its `addConnection` refuses an
      edge it already has. */
  ghost predicate EdgesDistinct(edges: seq<Edge>)
  {
    forall i, j :: 0 <= i < j < |edges| ==> edges[i] != edges[j]
  }

  /** A list with a head is distinct exactly when its tail is and does not
      hold the head. */
  lemma DistinctCons(x: Edge, tail: seq<Edge>)
    ensures EdgesDistinct([x] + tail) <==> x !in tail && EdgesDistinct(tail)
  {
    var s := [x] + tail;
    if x !in tail && EdgesDistinct(tail) {
      forall i, j | 0 <= i < j < |s|
        ensures s[i] != s[j]
      {
        assert s[j] == tail[j - 1];
        if i > 0 {
          assert s[i] == tail[i - 1];
        }
      }
    }
    if EdgesDistinct(s) {
      forall j | 0 <= j < |tail|
        ensures tail[j] != x
      {
        assert s[0] == x && s[j + 1] == tail[j];
      }
      forall i, j | 0 <= i < j < |tail|
        ensures tail[i] != tail[j]
      {
        assert tail[i] == s[i + 1] && tail[j] == s[j + 1];
      }
    }
  }

  /** Appending an edge not yet there keeps a list distinct. */
  lemma DistinctSnoc(edges: seq<Edge>, e: Edge)
    requires EdgesDistinct(edges) && e !in edges
    ensures EdgesDistinct(edges + [e])
  {
    var s := edges + [e];
    forall i, j | 0 <= i < j < |s|
      ensures s[i] != s[j]
    {
      assert s[i] == edges[i];
      if j < |edges| {
        assert s[j] == edges[j];
      }
    }
  }

  /** Removing an edge keeps the others distinct. */
  lemma {:induction false} EdgesWithoutDistinct(edges: seq<Edge>, e: Edge)
    requires EdgesDistinct(edges)
    ensures EdgesDistinct(EdgesWithout(edges, e))
  {
    if |edges| > 0 {
      assert edges == [edges[0]] + edges[1..];
      DistinctCons(edges[0], edges[1..]);
      EdgesWithoutDistinct(edges[1..], e);
      DistinctCons(edges[0], EdgesWithout(edges[1..], e));
    }
  }

  /** Removing a node's edges keeps the others distinct. */
  lemma {:induction false} EdgesWithoutNodeDistinct(edges: seq<Edge>, nodeId: nat)
    requires EdgesDistinct(edges)
    ensures EdgesDistinct(EdgesWithoutNode(edges, nodeId))
  {
    if |edges| > 0 {
      assert edges == [edges[0]] + edges[1..];
      DistinctCons(edges[0], edges[1..]);
      EdgesWithoutNodeDistinct(edges[1..], nodeId);
      DistinctCons(edges[0], EdgesWithoutNode(edges[1..], nodeId));
    }
  }

  /** Dropping the illegal edges keeps the others distinct. */
  lemma {:induction false} LegalEdgesDistinct(edges: seq<Edge>, legal: Edge -> bool)
    requires EdgesDistinct(edges)
    ensures EdgesDistinct(LegalEdges(edges, legal))
  {
    if |edges| > 0 {
      assert edges == [edges[0]] + edges[1..];
      DistinctCons(edges[0], edges[1..]);
      LegalEdgesDistinct(edges[1..], legal);
      DistinctCons(edges[0], LegalEdges(edges[1..], legal));
    }
  }

  /** Removing an edge just added, which was not there before, restores the
      edges: `connect` followed by `disconnect` of the new entry leaves the
      inner graph as it was. */
  lemma {:induction false} AddThenRemoveEdge(edges: seq<Edge>, e: Edge)
    requires e !in edges
    ensures EdgesWithout(edges + [e], e) == edges
  {
    if |edges| == 0 {
      assert EdgesWithout([e], e) == [] + EdgesWithout([], e);
    } else {
      assert (edges + [e])[1..] == edges[1..] + [e];
      AddThenRemoveEdge(edges[1..], e);
      assert edges == [edges[0]] + edges[1..];
    }
  }

  /** Node ids are positive, strictly increasing in list order (hence
      unique) and no larger than the last id handed out. */
  ghost predicate NodeIdsIncreasing(nodes: seq<Node>, lastNodeId: nat)
  {
    && (forall k :: 0 <= k < |nodes| ==> 0 < nodes[k].nodeId <= lastNodeId)
    && (forall i, j :: 0 <= i < j < |nodes| ==> nodes[i].nodeId < nodes[j].nodeId)
  }

  /** `getNodeForId`: the position of the node with that id, or -1. */
  function NodeIndex(nodes: seq<Node>, nodeId: nat): (k: int)
    ensures -1 <= k < |nodes|
    ensures k == -1 <==> forall i :: 0 <= i < |nodes| ==> nodes[i].nodeId != nodeId
    ensures 0 <= k ==> nodes[k].nodeId == nodeId && forall i :: 0 <= i < k ==> nodes[i].nodeId != nodeId
  {
    if |nodes| == 0 then -1
    else if nodes[0].nodeId == nodeId then 0
    else
      var k := NodeIndex(nodes[1..], nodeId);
      if k == -1 then -1 else k + 1
  }

  /** The client id `refreshConnections` announces a node with: its
      `pluginId` for a plugin node, -1 otherwise. */
  function ClientIdOf(n: Node): int
  {
    if n.isPlugin then n.pluginId else -1
  }

  /** The callbacks announcing every node, in node order. */
  function NodesAddedCallbacks(nodes: seq<Node>): seq<Callback>
  {
    if |nodes| == 0 then []
    else
      var last := nodes[|nodes| - 1];
      NodesAddedCallbacks(nodes[..|nodes| - 1]) + NodeAddedCallbacks(last.nodeId, ClientIdOf(last), last.proc)
  }

  /** What the node loop of `refreshConnections` emits: nothing when the
      patchbay is ignored. */
  function NodesAnnounced(nodes: seq<Node>, ignore: bool): seq<Callback>
  {
    if ignore then [] else NodesAddedCallbacks(nodes)
  }

  lemma NodesAnnouncedSnoc(nodes: seq<Node>, n: Node, ignore: bool)
    ensures NodesAnnounced(nodes + [n], ignore) == NodesAnnounced(nodes, ignore) + NodesAnnounced([n], ignore)
  {
    assert (nodes + [n])[..|nodes|] == nodes;
    assert NodesAddedCallbacks([n]) == [] + NodeAddedCallbacks(n.nodeId, ClientIdOf(n), n.proc);
  }

  lemma NodesAnnouncedSingle(n: Node, ignore: bool)
    ensures NodesAnnounced([n], ignore) == if ignore then [] else NodeAddedCallbacks(n.nodeId, ClientIdOf(n), n.proc)
  {
    assert [n][..0] == [];
    assert NodesAddedCallbacks([n]) == NodesAddedCallbacks([]) + NodeAddedCallbacks(n.nodeId, ClientIdOf(n), n.proc);
  }

  lemma NodesAnnouncedPrefix(nodes: seq<Node>, i: nat, ignore: bool)
    requires i < |nodes|
    ensures NodesAnnounced(nodes[..i + 1], ignore) == NodesAnnounced(nodes[..i], ignore) + NodesAnnounced([nodes[i]], ignore)
  {
    assert nodes[..i + 1] == nodes[..i] + [nodes[i]];
    NodesAnnouncedSnoc(nodes[..i], nodes[i], ignore);
  }

  /** One pass of the node loop of `refreshConnections`. */
  method AnnounceNode(engine: Engine, n: Node, ignore: bool)
    modifies engine
    ensures engine.callbacks == old(engine.callbacks) + NodesAnnounced([n], ignore)
    ensures engine.lastError == old(engine.lastError)
  {
    NodesAnnouncedSingle(n, ignore);
    if !ignore {
      AddNodeToPatchbay(engine, n.nodeId, ClientIdOf(n), n.proc);
    }
  }

  /** The node loop of `refreshConnections`: every node is announced, in
      order, unless the patchbay is ignored. */
  method AnnounceNodes(engine: Engine, nodes: seq<Node>, ignore: bool)
    modifies engine
    ensures engine.callbacks == old(engine.callbacks) + NodesAnnounced(nodes, ignore)
    ensures engine.lastError == old(engine.lastError)
  {
    var i := 0;
    while i < |nodes|
      invariant 0 <= i <= |nodes|
      invariant engine.callbacks == old(engine.callbacks) + NodesAnnounced(nodes[..i], ignore)
      invariant engine.lastError == old(engine.lastError)
    {
      var n := nodes[i];
      NodesAnnouncedPrefix(nodes, i, ignore);
      ghost var announced := NodesAnnounced(nodes[..i], ignore);
      AnnounceNode(engine, n, ignore);
      assert engine.callbacks == old(engine.callbacks) + (announced + NodesAnnounced([n], ignore));
      i := i + 1;
    }
    assert nodes[..i] == nodes;
  }

  // ---------------------------------------------------------------------
  // pluginId renumbering

  /** One step of the renumbering loop: the node of the engine plugin gets
      `pluginId := newId`, unless it has no `pluginId` property. */
  function SetPluginIdOf(nodes: seq<Node>, nodeId: nat, newId: int): (r: seq<Node>)
    ensures |r| == |nodes|
    ensures forall k :: 0 <= k < |r| ==> r[k] == nodes[k].(pluginId := r[k].pluginId)
  {
    var k := NodeIndex(nodes, nodeId);
    if k < 0 || nodes[k].pluginId == -1 then nodes
    else nodes[k := nodes[k].(pluginId := newId)]
  }

  lemma SetPluginIdKeepsNodeIds(nodes: seq<Node>, nodeId: nat, newId: int, lastNodeId: nat)
    requires NodeIdsIncreasing(nodes, lastNodeId)
    ensures NodeIdsIncreasing(SetPluginIdOf(nodes, nodeId, newId), lastNodeId)
  {
    var r := SetPluginIdOf(nodes, nodeId, newId);
    assert forall k :: 0 <= k < |r| ==> r[k].nodeId == nodes[k].nodeId;
  }

  /** The one step changes node `k` exactly when it is the node with that
      id and carries a `pluginId`. */
  lemma SetPluginIdAt(nodes: seq<Node>, nodeId: nat, newId: int, k: nat, lastNodeId: nat)
    requires NodeIdsIncreasing(nodes, lastNodeId) && k < |nodes|
    ensures SetPluginIdOf(nodes, nodeId, newId)[k]
         == if nodes[k].nodeId == nodeId && nodes[k].pluginId != -1 then nodes[k].(pluginId := newId) else nodes[k]
  {
    var m := NodeIndex(nodes, nodeId);
    if nodes[k].nodeId == nodeId {
      assert m == k;
    } else if m >= 0 {
      assert m != k;
    }
  }

  /** The renumbering loop of `removePlugin` from engine plugin `i` on:
      `pluginNodes[i]` is the node id of engine plugin `i`, or nothing for a
      missing plugin, which ends the loop. Plugin `i` becomes plugin
      `i - 1`. */
  function RenumberFrom(nodes: seq<Node>, pluginNodes: seq<Option<nat>>, i: nat): (r: seq<Node>)
    ensures |r| == |nodes|
    ensures forall k :: 0 <= k < |r| ==> r[k] == nodes[k].(pluginId := r[k].pluginId)
    decreases |pluginNodes| - i
  {
    if i >= |pluginNodes| || pluginNodes[i].None? then nodes
    else RenumberFrom(SetPluginIdOf(nodes, pluginNodes[i].value, i as int - 1), pluginNodes, i + 1)
  }

  /** Where the renumbering loop stops: the first missing plugin from `i`
      on, or the plugin count. */
  function RunEnd(pluginNodes: seq<Option<nat>>, i: nat): (e: nat)
    ensures i <= e
    ensures i <= |pluginNodes| ==> e <= |pluginNodes|
    ensures forall j :: i <= j < e ==> j < |pluginNodes| && pluginNodes[j].Some?
    ensures e < |pluginNodes| ==> pluginNodes[e].None?
    decreases |pluginNodes| - i
  {
    if i >= |pluginNodes| || pluginNodes[i].None? then i else RunEnd(pluginNodes, i + 1)
  }

  /** Renumbering changes only `pluginId`s and keeps the node ids
      increasing. */
  lemma RenumberKeepsNodeIds(nodes: seq<Node>, pluginNodes: seq<Option<nat>>, i: nat, lastNodeId: nat)
    requires NodeIdsIncreasing(nodes, lastNodeId)
    ensures NodeIdsIncreasing(RenumberFrom(nodes, pluginNodes, i), lastNodeId)
  {
    var r := RenumberFrom(nodes, pluginNodes, i);
    assert forall k :: 0 <= k < |r| ==> r[k].nodeId == nodes[k].nodeId;
  }

  /** A node that carries a `pluginId` and belongs to engine plugin `j`, in
      the part of the list the loop walks, ends up with `pluginId == j - 1`. */
  lemma {:induction false} RenumberShiftsDown(nodes: seq<Node>, pluginNodes: seq<Option<nat>>, i: nat, k: nat, j: nat, lastNodeId: nat)
    requires NodeIdsIncreasing(nodes, lastNodeId) && k < |nodes| && nodes[k].pluginId != -1
    requires i <= j < RunEnd(pluginNodes, i) && pluginNodes[j] == Some(nodes[k].nodeId)
    requires forall m :: i <= m < RunEnd(pluginNodes, i) && m != j ==> pluginNodes[m] != Some(nodes[k].nodeId)
    ensures RenumberFrom(nodes, pluginNodes, i)[k].pluginId == j as int - 1
    decreases |pluginNodes| - i
  {
    var next := SetPluginIdOf(nodes, pluginNodes[i].value, i as int - 1);
    SetPluginIdKeepsNodeIds(nodes, pluginNodes[i].value, i as int - 1, lastNodeId);
    SetPluginIdAt(nodes, pluginNodes[i].value, i as int - 1, k, lastNodeId);
    assert RunEnd(pluginNodes, i + 1) == RunEnd(pluginNodes, i);
    assert RenumberFrom(nodes, pluginNodes, i) == RenumberFrom(next, pluginNodes, i + 1);
    if i == j {
      RenumberLeavesOthers(next, pluginNodes, i + 1, k, lastNodeId);
    } else {
      RenumberShiftsDown(next, pluginNodes, i + 1, k, j, lastNodeId);
    }
  }

  /** A node no engine plugin of the walked part belongs to keeps its
      `pluginId`. */
  lemma {:induction false} RenumberLeavesOthers(nodes: seq<Node>, pluginNodes: seq<Option<nat>>, i: nat, k: nat, lastNodeId: nat)
    requires NodeIdsIncreasing(nodes, lastNodeId) && k < |nodes|
    requires forall m :: i <= m < RunEnd(pluginNodes, i) ==> pluginNodes[m] != Some(nodes[k].nodeId)
    ensures RenumberFrom(nodes, pluginNodes, i)[k] == nodes[k]
    decreases |pluginNodes| - i
  {
    if i < |pluginNodes| && pluginNodes[i].Some? {
      var next := SetPluginIdOf(nodes, pluginNodes[i].value, i as int - 1);
      SetPluginIdKeepsNodeIds(nodes, pluginNodes[i].value, i as int - 1, lastNodeId);
      SetPluginIdAt(nodes, pluginNodes[i].value, i as int - 1, k, lastNodeId);
      RenumberLeavesOthers(next, pluginNodes, i + 1, k, lastNodeId);
    }
  }

  // ---------------------------------------------------------------------
  // Removing nodes

  /** Everything a node removal touches: the inner graph, the connection
      table and the engine's callbacks. */
  datatype PatchbayState = PatchbayState(
    nodes: seq<Node>, edges: seq<Edge>, connections: seq<ConnectionToId>, callbacks: seq<Callback>)

  /** Taking node `k` out: unless the patchbay is ignored, its connections
      are dropped and announced, its ports and client are withdrawn; then
      the node and its edges leave the inner graph. */
  function Detach(s: PatchbayState, k: nat, ignore: bool): (r: PatchbayState)
    requires k < |s.nodes|
    ensures |r.nodes| == |s.nodes| - 1
  {
    var n := s.nodes[k];
    PatchbayState(
      RemoveAt(s.nodes, k),
      EdgesWithoutNode(s.edges, n.nodeId),
      if ignore then s.connections else Kept(s.connections, n.nodeId),
      if ignore then s.callbacks
      else s.callbacks + RemovalCallbacks(Dropped(s.connections, n.nodeId)) + NodeRemovedCallbacks(n.nodeId, n.proc))
  }

  /** One pass of the loop of `removeAllPlugins`: the node of the engine
      plugin is detached, unless the plugin is missing or has no node. */
  function RemoveStep(s: PatchbayState, pluginNode: Option<nat>, ignore: bool): PatchbayState
  {
    var k := if pluginNode.None? then -1 else NodeIndex(s.nodes, pluginNode.value);
    if k < 0 then s else Detach(s, k, ignore)
  }

  /** The loop of `removeAllPlugins` from engine plugin `i` on: missing
      plugins and plugins without a node are skipped. */
  function RemoveAllFrom(s: PatchbayState, pluginNodes: seq<Option<nat>>, i: nat, ignore: bool): PatchbayState
    decreases |pluginNodes| - i
  {
    if i >= |pluginNodes| then s
    else
      RemoveAllFrom(RemoveStep(s, pluginNodes[i], ignore), pluginNodes, i + 1, ignore)
  }

  /** Detaching a node keeps the other nodes in order, so their ids stay
      increasing. */
  lemma DetachKeepsNodeIds(s: PatchbayState, k: nat, ignore: bool, lastNodeId: nat)
    requires k < |s.nodes| && NodeIdsIncreasing(s.nodes, lastNodeId)
    ensures NodeIdsIncreasing(Detach(s, k, ignore).nodes, lastNodeId)
  {
    var r := RemoveAt(s.nodes, k);
    forall i, j | 0 <= i < j < |r|
      ensures r[i].nodeId < r[j].nodeId
    {
      var i', j' := if i < k then i else i + 1, if j < k then j else j + 1;
      assert r[i] == s.nodes[i'] && r[j] == s.nodes[j'];
    }
  }

  /** Detaching a node removes it and its edges: no node with its id and no
      edge touching it remains; every other node stays. */
  lemma DetachRemovesNode(s: PatchbayState, k: nat, ignore: bool, lastNodeId: nat, n: Node)
    requires k < |s.nodes| && NodeIdsIncreasing(s.nodes, lastNodeId)
    ensures var r := Detach(s, k, ignore);
      var g := s.nodes[k].nodeId;
      && (n in r.nodes <==> n in s.nodes && n.nodeId != g)
      && (forall e :: e in r.edges ==> e.srcNode != g && e.dstNode != g)
  {
    var r := RemoveAt(s.nodes, k);
    if n in s.nodes && n.nodeId != s.nodes[k].nodeId {
      var i :| 0 <= i < |s.nodes| && s.nodes[i] == n;
      assert r[if i < k then i else i - 1] == n;
    }
  }

  /** Detaching a node from a list whose `pluginId`s were changed first
      announces and drops the same things. */
  lemma DetachRenumbered(s: PatchbayState, renumbered: seq<Node>, k: nat, ignore: bool)
    requires k < |s.nodes| == |renumbered|
    requires renumbered[k] == s.nodes[k].(pluginId := renumbered[k].pluginId)
    ensures Detach(s.(nodes := renumbered), k, ignore) == Detach(s, k, ignore).(nodes := RemoveAt(renumbered, k))
  {
  }

  /** Unless the patchbay is ignored, detaching a node leaves no entry
      touching it, and keeps every other entry. */
  lemma DetachDropsConnections(s: PatchbayState, k: nat)
    requires k < |s.nodes|
    ensures var r := Detach(s, k, false);
      var g := s.nodes[k].nodeId;
      forall c :: c in r.connections <==> c in s.connections && !Touches(c, g)
  {
    var g := s.nodes[k].nodeId;
    forall c
      ensures c in Kept(s.connections, g) <==> c in s.connections && !Touches(c, g)
    {
      GroupMembers(s.connections, g, c);
    }
  }

  /** `removeAllPlugins` keeps the node ids increasing and only ever
      removes nodes. */
  lemma {:induction false} RemoveAllOnlyRemoves(s: PatchbayState, pluginNodes: seq<Option<nat>>, i: nat, ignore: bool, lastNodeId: nat, n: Node)
    requires NodeIdsIncreasing(s.nodes, lastNodeId)
    ensures var r := RemoveAllFrom(s, pluginNodes, i, ignore);
      NodeIdsIncreasing(r.nodes, lastNodeId) && (n in r.nodes ==> n in s.nodes)
    decreases |pluginNodes| - i
  {
    if i < |pluginNodes| {
      var k := if pluginNodes[i].None? then -1 else NodeIndex(s.nodes, pluginNodes[i].value);
      var s' := if k < 0 then s else Detach(s, k, ignore);
      if k >= 0 {
        DetachKeepsNodeIds(s, k, ignore, lastNodeId);
        DetachRemovesNode(s, k, ignore, lastNodeId, n);
      }
      RemoveAllOnlyRemoves(s', pluginNodes, i + 1, ignore, lastNodeId, n);
    }
  }

  /** After `removeAllPlugins` no node of a listed engine plugin is left. */
  lemma {:induction false} RemoveAllRemovesListed(s: PatchbayState, pluginNodes: seq<Option<nat>>, i: nat, ignore: bool, lastNodeId: nat, j: nat, n: Node)
    requires NodeIdsIncreasing(s.nodes, lastNodeId)
    requires i <= j < |pluginNodes| && pluginNodes[j] == Some(n.nodeId)
    ensures n !in RemoveAllFrom(s, pluginNodes, i, ignore).nodes
    decreases |pluginNodes| - i
  {
    var k := if pluginNodes[i].None? then -1 else NodeIndex(s.nodes, pluginNodes[i].value);
    var s' := if k < 0 then s else Detach(s, k, ignore);
    if k >= 0 {
      DetachKeepsNodeIds(s, k, ignore, lastNodeId);
      DetachRemovesNode(s, k, ignore, lastNodeId, n);
    }
    if j == i {
      RemoveAllOnlyRemoves(s', pluginNodes, i + 1, ignore, lastNodeId, n);
    } else {
      RemoveAllRemovesListed(s', pluginNodes, i + 1, ignore, lastNodeId, j, n);
    }
  }

  /** Nodes of no listed plugin all remain after `removeAllPlugins`. */
  lemma {:induction false} RemoveAllKeepsUnlisted(s: PatchbayState, pluginNodes: seq<Option<nat>>, i: nat, ignore: bool, lastNodeId: nat, n: Node)
    requires NodeIdsIncreasing(s.nodes, lastNodeId) && n in s.nodes
    requires forall j :: i <= j < |pluginNodes| ==> pluginNodes[j] != Some(n.nodeId)
    ensures n in RemoveAllFrom(s, pluginNodes, i, ignore).nodes
    decreases |pluginNodes| - i
  {
    if i < |pluginNodes| {
      var k := if pluginNodes[i].None? then -1 else NodeIndex(s.nodes, pluginNodes[i].value);
      var s' := if k < 0 then s else Detach(s, k, ignore);
      if k >= 0 {
        DetachKeepsNodeIds(s, k, ignore, lastNodeId);
        DetachRemovesNode(s, k, ignore, lastNodeId, n);
      }
      RemoveAllKeepsUnlisted(s', pluginNodes, i + 1, ignore, lastNodeId, n);
    }
  }

  /** Unless the patchbay is ignored, `removeAllPlugins` leaves no entry
      touching the node of a listed engine plugin that had a node. */
  lemma {:induction false} RemoveAllDropsConnections(s: PatchbayState, pluginNodes: seq<Option<nat>>, i: nat, lastNodeId: nat,
                                                     j: nat, c: ConnectionToId)
    requires NodeIdsIncreasing(s.nodes, lastNodeId)
    requires i <= j < |pluginNodes| && pluginNodes[j].Some? && NodeIndex(s.nodes, pluginNodes[j].value) >= 0
    requires c in RemoveAllFrom(s, pluginNodes, i, false).connections
    ensures !Touches(c, pluginNodes[j].value)
    decreases |pluginNodes| - i
  {
    var g := pluginNodes[j].value;
    var k := if pluginNodes[i].None? then -1 else NodeIndex(s.nodes, pluginNodes[i].value);
    var s' := RemoveStep(s, pluginNodes[i], false);
    if k >= 0 {
      DetachKeepsNodeIds(s, k, false, lastNodeId);
    }
    if j != i && NodeIndex(s'.nodes, g) >= 0 {
      RemoveAllDropsConnections(s', pluginNodes, i + 1, lastNodeId, j, c);
    } else {
      var m := NodeIndex(s.nodes, g);
      if j != i {
        DetachRemovesNode(s, k, false, lastNodeId, s.nodes[m]);
      }
      assert s.nodes[k].nodeId == g;
      ConnectionsOnlyShrink(s', pluginNodes, i + 1, false, c);
      DetachDropsConnections(s, k);
    }
  }

  /** The removal loop only ever drops entries. */
  lemma {:induction false} ConnectionsOnlyShrink(s: PatchbayState, pluginNodes: seq<Option<nat>>, i: nat, ignore: bool, c: ConnectionToId)
    requires c in RemoveAllFrom(s, pluginNodes, i, ignore).connections
    ensures c in s.connections
    decreases |pluginNodes| - i
  {
    if i < |pluginNodes| {
      var k := if pluginNodes[i].None? then -1 else NodeIndex(s.nodes, pluginNodes[i].value);
      ConnectionsOnlyShrink(if k < 0 then s else Detach(s, k, ignore), pluginNodes, i + 1, ignore, c);
      if k >= 0 && !ignore {
        DetachDropsConnections(s, k);
      }
    }
  }

  // ---------------------------------------------------------------------
  // The graph

  /** What the graph code reads from a `CarlaPlugin` it already holds: its
      engine-side id and the node id recorded by `setPatchbayNodeId`. */
  datatype PluginRef = PluginRef(id: nat, patchbayNodeId: nat)

  /** The names `getConnections` lists for one entry: source then target,
      or nothing when the entry is invalid, a node is missing or a name
      comes out empty. */
  function EntryNames(c: ConnectionToId, nodes: seq<Node>): (r: seq<string>)
    ensures r == [] || |r| == 2
  {
    var kA := NodeIndex(nodes, c.groupA);
    var kB := NodeIndex(nodes, c.groupB);
    if c.id == 0 || kA < 0 || kB < 0 then []
    else
      var a := ProcessorFullPortName(nodes[kA].proc, c.portA);
      var b := ProcessorFullPortName(nodes[kB].proc, c.portB);
      if a == "" || b == "" then [] else [a, b]
  }

  function ConnectionNames(list: seq<ConnectionToId>, nodes: seq<Node>): seq<string>
  {
    if |list| == 0 then []
    else ConnectionNames(list[..|list| - 1], nodes) + EntryNames(list[|list| - 1], nodes)
  }

  /** Node names no two nodes share, and processors whose names can be
      looked up again. */
  ghost predicate NamesResolvable(nodes: seq<Node>)
  {
    && (forall i, j :: 0 <= i < j < |nodes| ==> nodes[i].proc.name != nodes[j].proc.name)
    && (forall i :: 0 <= i < |nodes| ==> WellNamed(nodes[i].proc))
  }

  /** The two names listed for an entry between announced ports resolve,
      through the name lookup, back to the entry's two ends. */
  lemma EntryNamesResolve(c: ConnectionToId, nodes: seq<Node>)
    requires NamesResolvable(nodes)
    requires c.id != 0 && NodeIndex(nodes, c.groupA) >= 0 && NodeIndex(nodes, c.groupB) >= 0
    requires c.portA in AnnouncedPorts(nodes[NodeIndex(nodes, c.groupA)].proc)
    requires c.portB in AnnouncedPorts(nodes[NodeIndex(nodes, c.groupB)].proc)
    ensures |EntryNames(c, nodes)| == 2
    ensures GroupAndPortIdFromFullName(nodes, EntryNames(c, nodes)[0]) == Some((c.groupA, c.portA))
    ensures GroupAndPortIdFromFullName(nodes, EntryNames(c, nodes)[1]) == Some((c.groupB, c.portB))
  {
    FullPortNameRoundTrip(nodes, NodeIndex(nodes, c.groupA), c.portA);
    FullPortNameRoundTrip(nodes, NodeIndex(nodes, c.groupB), c.portB);
  }

  /** `disconnect` of the entry `connect` just made finds it at the end of
      the table and restores both the table and the inner edges. */
  lemma DisconnectUndoesConnect(list: seq<ConnectionToId>, lastId: nat, edges: seq<Edge>, c: ConnectionToId)
    requires IdsIncreasing(list, lastId) && c.id == lastId + 1
    requires EdgeOfEntry(c).Some? && EdgeOfEntry(c).value !in edges
    ensures IndexOfId(list + [c], c.id) == |list|
    ensures RemoveAt(list + [c], |list|) == list
    ensures EdgesWithout(edges + [EdgeOfEntry(c).value], EdgeOfEntry(c).value) == edges
  {
    AddThenRemoveEdge(edges, EdgeOfEntry(c).value);
    var l := list + [c];
    assert l[|list|] == c;
    assert forall i :: 0 <= i < |list| ==> l[i].id < c.id;
    assert l[..|list|] == list && l[|list| + 1..] == [];
  }

  class PatchbayGraph {
    var nodes: seq<Node>
    var lastNodeId: nat
    var edges: seq<Edge>
    var connections: seq<ConnectionToId>
    var lastId: nat
    var inputs: nat
    var outputs: nat
    var bufferSize: nat
    var sampleRate: real
    var isOffline: bool
    var ignorePatchbay: bool

    /** The fields only the constructor and the setters change. */
    function Settings(): (nat, nat, nat, real, bool, bool)
      reads this
    {
      (inputs, outputs, bufferSize, sampleRate, isOffline, ignorePatchbay)
    }

    /** What node removal changes, with the engine's callbacks. */
    function State(engine: Engine): PatchbayState
      reads this, engine
    {
      PatchbayState(nodes, edges, connections, engine.callbacks)
    }

    ghost predicate Valid()
      reads this
    {
      && IdsIncreasing(connections, lastId)
      && NodeIdsIncreasing(nodes, lastNodeId)
      && EdgesDistinct(edges)
      && inputs <= MaxPatchbayPlugins - 2 && outputs <= MaxPatchbayPlugins - 2
    }

    /** The constructor: the channel counts clamped to the patchbay's
        limit, and the four I/O nodes (whose processors are the node
        graph's, given here) with ids 1 to 4. */
    constructor (bufferSize: nat, sampleRate: real, ins: nat, outs: nat,
                 audioIn: Processor, audioOut: Processor, midiIn: Processor, midiOut: Processor)
      ensures Valid()
      ensures inputs == Clamp(0, MaxPatchbayPlugins - 2, ins) && outputs == Clamp(0, MaxPatchbayPlugins - 2, outs)
      ensures Settings() == (inputs, outputs, bufferSize, sampleRate, false, false)
      ensures nodes == [Node(1, audioIn, false, -1), Node(2, audioOut, false, -1),
                        Node(3, midiIn, false, -1), Node(4, midiOut, false, -1)]
      ensures lastNodeId == 4 && edges == [] && connections == [] && lastId == 0
    {
      nodes := [Node(1, audioIn, false, -1), Node(2, audioOut, false, -1),
                Node(3, midiIn, false, -1), Node(4, midiOut, false, -1)];
      lastNodeId := 4;
      edges := [];
      connections := [];
      lastId := 0;
      inputs := Clamp(0, MaxPatchbayPlugins - 2, ins);
      outputs := Clamp(0, MaxPatchbayPlugins - 2, outs);
      this.bufferSize := bufferSize;
      this.sampleRate := sampleRate;
      isOffline := false;
      ignorePatchbay := false;
    }

    method SetBufferSize(size: nat)
      modifies this
      ensures Settings() == old(Settings()).(2 := size)
      ensures nodes == old(nodes) && lastNodeId == old(lastNodeId) && edges == old(edges)
      ensures connections == old(connections) && lastId == old(lastId)
    {
      bufferSize := size;
    }

    method SetSampleRate(rate: real)
      modifies this
      ensures Settings() == old(Settings()).(3 := rate)
      ensures nodes == old(nodes) && lastNodeId == old(lastNodeId) && edges == old(edges)
      ensures connections == old(connections) && lastId == old(lastId)
    {
      sampleRate := rate;
    }

    method SetOffline(offline: bool)
      modifies this
      ensures Settings() == old(Settings()).(4 := offline)
      ensures nodes == old(nodes) && lastNodeId == old(lastNodeId) && edges == old(edges)
      ensures connections == old(connections) && lastId == old(lastId)
    {
      isOffline := offline;
    }

    /** The `ignorePathbay` flag that `EngineInternalGraph::setIgnorePatchbay`
        writes. */
    method SetIgnorePatchbay(ignore: bool)
      modifies this
      ensures Settings() == old(Settings()).(5 := ignore)
      ensures nodes == old(nodes) && lastNodeId == old(lastNodeId) && edges == old(edges)
      ensures connections == old(connections) && lastId == old(lastId)
    {
      ignorePatchbay := ignore;
    }

    /** `addPlugin`: a plugin node with the next node id, announced unless
        the patchbay is ignored. Returns the id recorded on the plugin. */
    method AddPlugin(engine: Engine, pluginId: nat, proc: Processor) returns (nodeId: nat)
      requires Valid()
      modifies this, engine
      ensures Valid()
      ensures nodeId == old(lastNodeId) + 1 && lastNodeId == nodeId
      ensures nodes == old(nodes) + [Node(nodeId, proc, true, pluginId)]
      ensures engine.callbacks == old(engine.callbacks)
                + (if ignorePatchbay then [] else NodeAddedCallbacks(nodeId, pluginId, proc))
      ensures edges == old(edges) && connections == old(connections) && lastId == old(lastId)
      ensures Settings() == old(Settings()) && engine.lastError == old(engine.lastError)
    {
      lastNodeId := lastNodeId + 1;
      nodeId := lastNodeId;
      nodes := nodes + [Node(nodeId, proc, true, pluginId)];
      if !ignorePatchbay {
        AddNodeToPatchbay(engine, nodeId, pluginId, proc);
      }
    }

    /** The node graph's `removeNode`: the node goes, with its edges. */
    method RemoveNode(k: nat)
      requires Valid() && k < |nodes|
      modifies this
      ensures Valid()
      ensures nodes == RemoveAt(old(nodes), k) && edges == EdgesWithoutNode(old(edges), old(nodes)[k].nodeId)
      ensures connections == old(connections) && lastId == old(lastId) && lastNodeId == old(lastNodeId)
      ensures Settings() == old(Settings())
    {
      DetachKeepsNodeIds(PatchbayState(nodes, edges, connections, []), k, true, lastNodeId);
      EdgesWithoutNodeDistinct(edges, nodes[k].nodeId);
      edges := EdgesWithoutNode(edges, nodes[k].nodeId);
      nodes := RemoveAt(nodes, k);
    }

    /** `disconnectGroup`: walks the table, removing in place every entry
        touching the group and announcing its removal. The inner edges are
        left alone. */
    method DisconnectGroup(engine: Engine, groupId: nat)
      requires Valid()
      modifies this, engine
      ensures Valid()
      ensures connections == Kept(old(connections), groupId)
      ensures engine.callbacks == old(engine.callbacks) + RemovalCallbacks(Dropped(old(connections), groupId))
      ensures nodes == old(nodes) && edges == old(edges) && lastId == old(lastId) && lastNodeId == old(lastNodeId)
      ensures Settings() == old(Settings()) && engine.lastError == old(engine.lastError)
    {
      var kept := RemoveGroupEntries(engine, connections, groupId);
      KeptKeepsIds(connections, lastId, groupId);
      connections := kept;
    }

    /** The announcements that precede removing node `k`, unless the
        patchbay is ignored: its connections, then its ports and client. */
    method AnnounceNodeRemoval(engine: Engine, k: nat)
      requires Valid() && k < |nodes|
      modifies this, engine
      ensures Valid()
      ensures var s := Detach(old(State(engine)), k, ignorePatchbay);
        connections == s.connections && engine.callbacks == s.callbacks
      ensures nodes == old(nodes) && edges == old(edges) && lastId == old(lastId) && lastNodeId == old(lastNodeId)
      ensures Settings() == old(Settings()) && engine.lastError == old(engine.lastError)
    {
      if !ignorePatchbay {
        var n := nodes[k];
        DisconnectGroup(engine, n.nodeId);
        RemoveNodeFromPatchbay(engine, n.nodeId, n.proc);
      }
    }

    /** Removal of node `k` as `replacePlugin` and `removeAllPlugins` do it. */
    method DetachNode(engine: Engine, k: nat)
      requires Valid() && k < |nodes|
      modifies this, engine
      ensures Valid()
      ensures State(engine) == Detach(old(State(engine)), k, ignorePatchbay)
      ensures lastId == old(lastId) && lastNodeId == old(lastNodeId)
      ensures Settings() == old(Settings()) && engine.lastError == old(engine.lastError)
    {
      AnnounceNodeRemoval(engine, k);
      RemoveNode(k);
    }

    /** `replacePlugin`: the old plugin's node is detached and a node for
        the new plugin is added. Nothing happens when the new plugin is the
        old one itself (`samePlugin`), when the two have different ids or
        when the old plugin has no node. */
    method ReplacePlugin(engine: Engine, oldPlugin: PluginRef, samePlugin: bool, newPluginId: nat, newProc: Processor)
      returns (newNodeId: Option<nat>)
      requires Valid()
      modifies this, engine
      ensures Valid()
      ensures var k := NodeIndex(old(nodes), oldPlugin.patchbayNodeId);
        if samePlugin || oldPlugin.id != newPluginId || k < 0 then
          newNodeId == None && State(engine) == old(State(engine)) && lastNodeId == old(lastNodeId)
        else
          var s := Detach(old(State(engine)), k, ignorePatchbay);
          && newNodeId == Some(old(lastNodeId) + 1) && lastNodeId == old(lastNodeId) + 1
          && nodes == s.nodes + [Node(lastNodeId, newProc, true, newPluginId)]
          && edges == s.edges && connections == s.connections
          && engine.callbacks == s.callbacks
               + (if ignorePatchbay then [] else NodeAddedCallbacks(lastNodeId, newPluginId, newProc))
      ensures lastId == old(lastId) && Settings() == old(Settings()) && engine.lastError == old(engine.lastError)
    {
      if samePlugin || oldPlugin.id != newPluginId {
        return None;
      }
      var k := NodeIndex(nodes, oldPlugin.patchbayNodeId);
      if k < 0 {
        return None;
      }
      DetachNode(engine, k);
      var nodeId := AddPlugin(engine, newPluginId, newProc);
      newNodeId := Some(nodeId);
    }

    /** The renumbering loop of `removePlugin`, from engine plugin `from`
        on. */
    method RenumberPlugins(pluginNodes: seq<Option<nat>>, from: nat)
      requires Valid()
      modifies this
      ensures Valid()
      ensures nodes == RenumberFrom(old(nodes), pluginNodes, from)
      ensures edges == old(edges) && connections == old(connections) && lastId == old(lastId)
      ensures lastNodeId == old(lastNodeId) && Settings() == old(Settings())
    {
      var i := from;
      while i < |pluginNodes|
        invariant RenumberFrom(nodes, pluginNodes, i) == RenumberFrom(old(nodes), pluginNodes, from)
        invariant NodeIdsIncreasing(nodes, lastNodeId)
        modifies `nodes
        decreases |pluginNodes| - i
      {
        if pluginNodes[i].None? {
          break;
        }
        SetPluginIdKeepsNodeIds(nodes, pluginNodes[i].value, i as int - 1, lastNodeId);
        nodes := SetPluginIdOf(nodes, pluginNodes[i].value, i as int - 1);
        i := i + 1;
      }
    }

    /** `removePlugin`: the plugin's node is announced as removed (unless
        the patchbay is ignored), the later plugins' `pluginId`s move down
        by one, and the node is removed. Nothing happens when the plugin
        has no node. */
    method RemovePlugin(engine: Engine, plugin: PluginRef, pluginNodes: seq<Option<nat>>)
      requires Valid()
      modifies this, engine
      ensures Valid()
      ensures var k := NodeIndex(old(nodes), plugin.patchbayNodeId);
        k < 0 ==> State(engine) == old(State(engine))
      ensures var k := NodeIndex(old(nodes), plugin.patchbayNodeId);
        k >= 0 ==> State(engine) == Detach(old(State(engine)).(nodes := RenumberFrom(old(nodes), pluginNodes, plugin.id + 1)),
                                           k, ignorePatchbay)
      ensures lastId == old(lastId) && lastNodeId == old(lastNodeId)
      ensures Settings() == old(Settings()) && engine.lastError == old(engine.lastError)
    {
      var k := NodeIndex(nodes, plugin.patchbayNodeId);
      if k < 0 {
        return;
      }
      RemovePluginNode(engine, k, pluginNodes, plugin.id + 1);
    }

    /** `removePlugin` once the node is found. */
    method RemovePluginNode(engine: Engine, k: nat, pluginNodes: seq<Option<nat>>, from: nat)
      requires Valid() && k < |nodes|
      modifies this, engine
      ensures Valid()
      ensures State(engine) == Detach(old(State(engine)).(nodes := RenumberFrom(old(nodes), pluginNodes, from)), k, ignorePatchbay)
      ensures lastId == old(lastId) && lastNodeId == old(lastNodeId)
      ensures Settings() == old(Settings()) && engine.lastError == old(engine.lastError)
    {
      ghost var s0 := State(engine);
      AnnounceNodeRemoval(engine, k);
      RenumberPlugins(pluginNodes, from);
      RemoveNode(k);
      DetachRenumbered(s0, RenumberFrom(s0.nodes, pluginNodes, from), k, ignorePatchbay);
    }

    /** `removeAllPlugins`: every engine plugin's node is detached in turn;
        missing plugins and plugins without a node are skipped. */
    method RemoveAllPlugins(engine: Engine, pluginNodes: seq<Option<nat>>)
      requires Valid()
      modifies this, engine
      ensures Valid()
      ensures State(engine) == RemoveAllFrom(old(State(engine)), pluginNodes, 0, ignorePatchbay)
      ensures lastId == old(lastId) && lastNodeId == old(lastNodeId)
      ensures Settings() == old(Settings()) && engine.lastError == old(engine.lastError)
    {
      var i := 0;
      while i < |pluginNodes|
        invariant 0 <= i <= |pluginNodes|
        invariant Valid()
        invariant RemoveAllFrom(State(engine), pluginNodes, i, ignorePatchbay)
               == RemoveAllFrom(old(State(engine)), pluginNodes, 0, ignorePatchbay)
        invariant lastId == old(lastId) && lastNodeId == old(lastNodeId)
        invariant Settings() == old(Settings()) && engine.lastError == old(engine.lastError)
      {
        DetachPluginNode(engine, pluginNodes[i]);
        i := i + 1;
      }
    }

    /** One pass of the loop of `removeAllPlugins`. */
    method DetachPluginNode(engine: Engine, pluginNode: Option<nat>)
      requires Valid()
      modifies this, engine
      ensures Valid()
      ensures State(engine) == RemoveStep(old(State(engine)), pluginNode, ignorePatchbay)
      ensures lastId == old(lastId) && lastNodeId == old(lastNodeId)
      ensures Settings() == old(Settings()) && engine.lastError == old(engine.lastError)
    {
      if pluginNode.None? {
        return;
      }
      var k := NodeIndex(nodes, pluginNode.value);
      if k < 0 {
        return;
      }
      DetachNode(engine, k);
    }

    /** `connect`: both port ids must lie in the bands and the node graph
        must accept the edge: it refuses one it already holds, and
        `accepted` stands for its other checks. Then the edge is added and
        the entry gets the next id. */
    method Connect(engine: Engine, groupA: nat, portA: nat, groupB: nat, portB: nat, accepted: bool) returns (ok: bool)
      requires Valid()
      modifies this, engine
      ensures Valid()
      ensures ok <==> AdjustPortIdForJuce(portA).Some? && AdjustPortIdForJuce(portB).Some? && accepted
                      && Edge(groupA, AdjustPortIdForJuce(portA).value, groupB, AdjustPortIdForJuce(portB).value) !in old(edges)
      ensures ok ==>
        var c := ConnectionToId(lastId, groupA, portA, groupB, portB);
        && lastId == old(lastId) + 1
        && connections == old(connections) + [c]
        && edges == old(edges) + [EdgeOfEntry(c).value]
        && engine.callbacks == old(engine.callbacks) + [ConnectionAdded(lastId, groupA, portA, groupB, portB)]
        && engine.lastError == old(engine.lastError)
      ensures !ok ==>
        && lastId == old(lastId) && connections == old(connections) && edges == old(edges)
        && engine.callbacks == old(engine.callbacks)
        && engine.lastError == (if AdjustPortIdForJuce(portA).Some? && AdjustPortIdForJuce(portB).Some?
                                then "Failed from juce" else old(engine.lastError))
      ensures nodes == old(nodes) && lastNodeId == old(lastNodeId) && Settings() == old(Settings())
    {
      var adjustedA := AdjustPortIdForJuce(portA);
      if adjustedA.None? {
        return false;
      }
      var adjustedB := AdjustPortIdForJuce(portB);
      if adjustedB.None? {
        return false;
      }
      var edge := Edge(groupA, adjustedA.value, groupB, adjustedB.value);
      if !accepted || edge in edges {
        engine.lastError := "Failed from juce";
        return false;
      }
      DistinctSnoc(edges, edge);
      edges := edges + [edge];
      lastId := lastId + 1;
      engine.callbacks := engine.callbacks + [ConnectionAdded(lastId, groupA, portA, groupB, portB)];
      connections := connections + [ConnectionToId(lastId, groupA, portA, groupB, portB)];
      ok := true;
    }

    /** `disconnect`: finds the entry, removes its edge from the node graph
        (failing when the ids are outside the bands or the edge is not
        there) and then the entry. */
    method Disconnect(engine: Engine, connectionId: nat) returns (ok: bool)
      requires Valid()
      modifies this, engine
      ensures Valid()
      ensures var k := IndexOfId(old(connections), connectionId);
        k < 0 ==> !ok && engine.lastError == "Failed to find connection"
      ensures var k := IndexOfId(old(connections), connectionId);
        0 <= k ==>
          var e := EdgeOfEntry(old(connections)[k]);
          && (ok <==> e.Some? && e.value in old(edges))
          && (ok ==> connections == RemoveAt(old(connections), k)
                     && edges == EdgesWithout(old(edges), e.value)
                     && engine.callbacks == old(engine.callbacks) + [ConnectionRemoved(connectionId)])
          && engine.lastError == old(engine.lastError)
      ensures !ok ==> connections == old(connections) && edges == old(edges) && engine.callbacks == old(engine.callbacks)
      ensures lastId == old(lastId) && nodes == old(nodes) && lastNodeId == old(lastNodeId) && Settings() == old(Settings())
    {
      var k := IndexOfId(connections, connectionId);
      if k < 0 {
        engine.lastError := "Failed to find connection";
        return false;
      }
      var c := connections[k];
      var adjustedA := AdjustPortIdForJuce(c.portA);
      if adjustedA.None? {
        return false;
      }
      var adjustedB := AdjustPortIdForJuce(c.portB);
      if adjustedB.None? {
        return false;
      }
      var e := Edge(c.groupA, adjustedA.value, c.groupB, adjustedB.value);
      if e !in edges {
        return false;
      }
      RemoveEntry(engine, k, e);
      ok := true;
    }

    /** The success path of `disconnect`: the edge leaves the node graph,
        the entry the table, and its removal is announced. */
    method RemoveEntry(engine: Engine, k: nat, e: Edge)
      requires Valid() && k < |connections|
      modifies this, engine
      ensures Valid()
      ensures connections == RemoveAt(old(connections), k) && edges == EdgesWithout(old(edges), e)
      ensures engine.callbacks == old(engine.callbacks) + [ConnectionRemoved(old(connections)[k].id)]
      ensures engine.lastError == old(engine.lastError)
      ensures lastId == old(lastId) && nodes == old(nodes) && lastNodeId == old(lastNodeId) && Settings() == old(Settings())
    {
      EdgesWithoutDistinct(edges, e);
      edges := EdgesWithout(edges, e);
      engine.callbacks := engine.callbacks + [ConnectionRemoved(connections[k].id)];
      RemoveAtKeepsIds(connections, lastId, k);
      connections := RemoveAt(connections, k);
    }

    /** `clearConnections`: the table is emptied, then the node graph's
        first edge removed as many times as there were edges. Whether the
        id counter restarts is left open. */
    method ClearConnections()
      requires Valid()
      modifies this
      ensures Valid()
      ensures connections == [] && edges == []
      ensures nodes == old(nodes) && lastNodeId == old(lastNodeId) && Settings() == old(Settings())
    {
      connections := [];
      lastId := *;
      var count := |edges|;
      var i := 0;
      while i < count
        invariant 0 <= i <= count == |old(edges)|
        invariant edges == old(edges)[i..]
        invariant connections == [] && nodes == old(nodes) && lastNodeId == old(lastNodeId) && Settings() == old(Settings())
      {
        edges := edges[1..];
        i := i + 1;
      }
    }

    /** The edge loop of `refreshConnections`, on an emptied table: one
        entry per edge with the next ids, each announced. */
    method ListEdges(engine: Engine)
      requires connections == []
      modifies this, engine
      ensures lastId == old(lastId) + |edges| && connections == RefreshedEntries(edges, old(lastId))
      ensures engine.callbacks == old(engine.callbacks) + AdditionCallbacks(connections)
      ensures edges == old(edges) && nodes == old(nodes) && lastNodeId == old(lastNodeId)
      ensures Settings() == old(Settings()) && engine.lastError == old(engine.lastError)
    {
      var i := 0;
      while i < |edges|
        invariant 0 <= i <= |edges|
        invariant lastId == old(lastId) + i
        invariant connections == RefreshedEntries(edges[..i], old(lastId))
        invariant engine.callbacks == old(engine.callbacks) + AdditionCallbacks(connections)
        invariant edges == old(edges) && nodes == old(nodes) && lastNodeId == old(lastNodeId)
        invariant Settings() == old(Settings()) && engine.lastError == old(engine.lastError)
      {
        var e := edges[i];
        lastId := lastId + 1;
        var c := EntryForEdge(e, lastId);
        RefreshStep(edges, i, old(lastId));
        AdditionCallbacksSnoc(connections, c);
        engine.callbacks := engine.callbacks + [ConnectionAdded(c.id, c.groupA, c.portA, c.groupB, c.portB)];
        connections := connections + [c];
        i := i + 1;
      }
      assert edges[..i] == edges;
    }

    /** `refreshConnections`: the table is rebuilt from the legal edges of
        the node graph, after every node has been announced again (unless
        the patchbay is ignored). */
    method RefreshConnections(engine: Engine, legal: Edge -> bool)
      requires Valid()
      modifies this, engine
      ensures Valid()
      ensures edges == LegalEdges(old(edges), legal)
      ensures lastId >= |edges| && connections == RefreshedEntries(edges, lastId - |edges|)
      ensures engine.callbacks == old(engine.callbacks) + NodesAnnounced(nodes, ignorePatchbay)
                + AdditionCallbacks(connections)
      ensures nodes == old(nodes) && lastNodeId == old(lastNodeId)
      ensures Settings() == old(Settings()) && engine.lastError == old(engine.lastError)
    {
      connections := [];
      lastId := *;
      LegalEdgesDistinct(edges, legal);
      edges := LegalEdges(edges, legal);
      AnnounceNodes(engine, nodes, ignorePatchbay);
      ghost var base := lastId;
      ListEdges(engine);
      RefreshedIds(edges, base);
    }

    /** `getConnections`: the names of every listed entry, source first, or
        nothing when the table or the resulting list is empty. */
    method GetConnections() returns (r: Option<seq<string>>)
      ensures |connections| == 0 ==> r == None
      ensures |connections| > 0 ==>
        var names := ConnectionNames(connections, nodes);
        r == if |names| == 0 then None else Some(names)
    {
      if |connections| == 0 {
        return None;
      }
      var names: seq<string> := [];
      var i := 0;
      while i < |connections|
        invariant 0 <= i <= |connections|
        invariant names == ConnectionNames(connections[..i], nodes)
      {
        assert connections[..i + 1][..i] == connections[..i];
        var c := connections[i];
        if c.id != 0 {
          var kA := NodeIndex(nodes, c.groupA);
          var kB := NodeIndex(nodes, c.groupB);
          if kA >= 0 && kB >= 0 {
            var a := ProcessorFullPortName(nodes[kA].proc, c.portA);
            var b := ProcessorFullPortName(nodes[kB].proc, c.portB);
            if a != "" && b != "" {
              names := names + [a, b];
            }
          }
        }
        i := i + 1;
      }
      assert connections[..i] == connections;
      if |names| == 0 {
        return None;
      }
      return Some(names);
    }
  }
}

=== FILE: patchbay_ports.dfy ===
/** The patchbay's port-id bands and the static helpers around them:
    `adjustPatchbayPortIdForJuce`, the translation back used when the table
    is rebuilt, `getProcessorFullPortName`, the name lookup, and the
    callbacks that announce and withdraw a node. With M = MaxPatchbayPlugins,
    a node's audio input i is port M+i, its audio output i is port 2M+i, its
    MIDI input is 3M and its MIDI output 3M+1. */
module PatchbayPorts {
  import opened Common
  import opened Constants
  import opened EngineCore

  const AudioInputPortOffset: nat := MaxPatchbayPlugins * 1
  const AudioOutputPortOffset: nat := MaxPatchbayPlugins * 2
  const MidiInputPortOffset: nat := MaxPatchbayPlugins * 3
  const MidiOutputPortOffset: nat := MaxPatchbayPlugins * 3 + 1

  /** A node-graph channel index: an audio channel of one band, or the
      node's MIDI bus. */
  predicate IsChannelIndex(ch: nat)
  {
    ch < MaxPatchbayPlugins || ch == MidiChannelIndex
  }

  /** Port ids that name the sending end of a connection. */
  predicate IsSourcePort(portId: nat)
  {
    AudioOutputPortOffset <= portId < MidiInputPortOffset || portId == MidiOutputPortOffset
  }

  /** Port ids that name the receiving end of a connection. */
  predicate IsDestPort(portId: nat)
  {
    AudioInputPortOffset <= portId < AudioOutputPortOffset || portId == MidiInputPortOffset
  }

  /** `adjustPatchbayPortIdForJuce`: the node-graph channel index of a
      patchbay port id, or nothing for an id outside the bands. */
  function AdjustPortIdForJuce(portId: nat): (r: Option<nat>)
    ensures r.None? <==> portId < AudioInputPortOffset || MidiOutputPortOffset < portId
    ensures r.Some? ==> IsChannelIndex(r.value)
    ensures portId == MidiInputPortOffset || portId == MidiOutputPortOffset ==> r == Some(MidiChannelIndex)
    ensures AudioOutputPortOffset <= portId < MidiInputPortOffset ==> r == Some(portId - AudioOutputPortOffset)
    ensures AudioInputPortOffset <= portId < AudioOutputPortOffset ==> r == Some(portId - AudioInputPortOffset)
  {
    if portId < AudioInputPortOffset || portId > MidiOutputPortOffset then None
    else if portId == MidiInputPortOffset then Some(MidiChannelIndex)
    else if portId == MidiOutputPortOffset then Some(MidiChannelIndex)
    else if portId >= AudioOutputPortOffset then Some(portId - AudioOutputPortOffset)
    else Some(portId - AudioInputPortOffset)
  }

  /** The translation `refreshConnections` applies to a connection's source
      channel. */
  function SourcePortFromJuce(ch: nat): nat
  {
    if ch == MidiChannelIndex then MidiOutputPortOffset else ch + AudioOutputPortOffset
  }

  /** The translation `refreshConnections` applies to a connection's
      destination channel. */
  function DestPortFromJuce(ch: nat): nat
  {
    if ch == MidiChannelIndex then MidiInputPortOffset else ch + AudioInputPortOffset
  }

  /** A channel index translated as a source is a source port id that adjusts
      back to the same channel. */
  lemma SourcePortRoundTrip(ch: nat)
    requires IsChannelIndex(ch)
    ensures IsSourcePort(SourcePortFromJuce(ch)) && !IsDestPort(SourcePortFromJuce(ch))
    ensures AdjustPortIdForJuce(SourcePortFromJuce(ch)) == Some(ch)
  {
  }

  /** A channel index translated as a destination is a destination port id
      that adjusts back to the same channel. */
  lemma DestPortRoundTrip(ch: nat)
    requires IsChannelIndex(ch)
    ensures IsDestPort(DestPortFromJuce(ch)) && !IsSourcePort(DestPortFromJuce(ch))
    ensures AdjustPortIdForJuce(DestPortFromJuce(ch)) == Some(ch)
  {
  }

  /** On source port ids the translation back inverts the adjustment. */
  lemma SourceAdjustInverts(portId: nat)
    requires IsSourcePort(portId)
    ensures SourcePortFromJuce(AdjustPortIdForJuce(portId).value) == portId
  {
  }

  /** On destination port ids the translation back inverts the adjustment. */
  lemma DestAdjustInverts(portId: nat)
    requires IsDestPort(portId)
    ensures DestPortFromJuce(AdjustPortIdForJuce(portId).value) == portId
  {
  }

  /** The adjustment forgets the direction: an audio input and the audio
      output of the same index, and the two MIDI ports, reach the same
      channel index. */
  lemma AdjustForgetsDirection(i: nat)
    requires i < MaxPatchbayPlugins
    ensures AdjustPortIdForJuce(AudioInputPortOffset + i) == AdjustPortIdForJuce(AudioOutputPortOffset + i) == Some(i)
    ensures AdjustPortIdForJuce(MidiInputPortOffset) == AdjustPortIdForJuce(MidiOutputPortOffset)
  {
  }

  // ---------------------------------------------------------------------
  // Nodes

  /** What the graph code reads from a node's processor: its name, the names
      of its audio channels and whether it takes or makes MIDI. */
  datatype Processor = Processor(
    name: string, inputNames: seq<string>, outputNames: seq<string>,
    acceptsMidi: bool, producesMidi: bool)

  /** A node of the inner graph with the two properties Carla stores on it;
      `pluginId` is -1 where the property is absent. */
  datatype Node = Node(nodeId: nat, proc: Processor, isPlugin: bool, pluginId: int)

  /** One connection of the inner graph, in channel indices. */
  datatype Edge = Edge(srcNode: nat, srcChannel: nat, dstNode: nat, dstChannel: nat)

  /** The channel name a processor reports for index `i`; an index without a
      channel has an empty name. */
  function ChannelName(names: seq<string>, i: nat): string
  {
    if i < |names| then names[i] else ""
  }

  /** `getProcessorFullPortName`: `<processor>:<port>`, or the empty string
      for an id outside the bands or an audio port of a processor without
      channels in that direction. */
  function ProcessorFullPortName(proc: Processor, portId: nat): (r: string)
    ensures AdjustPortIdForJuce(portId).None? ==> r == ""
    ensures r != "" ==> |r| > |proc.name| && r[..|proc.name| + 1] == proc.name + ":"
    ensures AudioInputPortOffset <= portId < AudioOutputPortOffset ==> (r == "" <==> |proc.inputNames| == 0)
    ensures AudioOutputPortOffset <= portId < MidiInputPortOffset ==> (r == "" <==> |proc.outputNames| == 0)
  {
    if portId < AudioInputPortOffset || portId > MidiOutputPortOffset then ""
    else if portId == MidiOutputPortOffset then proc.name + ":events-out"
    else if portId == MidiInputPortOffset then proc.name + ":events-in"
    else if portId >= AudioOutputPortOffset then
      if |proc.outputNames| > 0 then proc.name + ":" + ChannelName(proc.outputNames, portId - AudioOutputPortOffset) else ""
    else
      if |proc.inputNames| > 0 then proc.name + ":" + ChannelName(proc.inputNames, portId - AudioInputPortOffset) else ""
  }

  /** `String::upToFirstOccurrenceOf(":")`: everything before the first
      colon, or the whole string. */
  function GroupNameOf(fullName: string): (r: string)
    ensures ':' !in r
    ensures ':' !in fullName ==> r == fullName
  {
    var k := IndexOf(fullName, ':');
    if k < 0 then fullName else fullName[..k]
  }

  /** `String::fromFirstOccurrenceOf(":")`: everything after the first
      colon, or the empty string. */
  function PortNameOf(fullName: string): (r: string)
    ensures ':' !in fullName ==> r == ""
  {
    var k := IndexOf(fullName, ':');
    if k < 0 then "" else fullName[k + 1..]
  }

  /** A name without a colon, followed by a colon and anything, splits back
      into its two parts. */
  lemma SplitFullName(groupName: string, portName: string)
    requires ':' !in groupName
    ensures GroupNameOf(groupName + ":" + portName) == groupName
    ensures PortNameOf(groupName + ":" + portName) == portName
  {
    var s := groupName + ":" + portName;
    assert s[|groupName|] == ':';
    assert ':' !in s[..|groupName|] by { assert s[..|groupName|] == groupName; }
    var k := IndexOf(s, ':');
    assert k == |groupName|;
    assert s[k + 1..] == portName;
  }

  /** The port a processor offers under `portName`: the two MIDI names
      first, then the first audio input, then the first audio output with
      that name. */
  function PortIdInProcessor(proc: Processor, portName: string): (r: Option<nat>)
    ensures portName == "events-in" ==> r == Some(MidiInputPortOffset)
    ensures portName == "events-out" ==> r == Some(MidiOutputPortOffset)
    ensures r.None? <==> portName != "events-in" && portName != "events-out"
                         && portName !in proc.inputNames && portName !in proc.outputNames
  {
    if portName == "events-in" then Some(MidiInputPortOffset)
    else if portName == "events-out" then Some(MidiOutputPortOffset)
    else
      var j := IndexOf(proc.inputNames, portName);
      if j >= 0 then Some(AudioInputPortOffset + j)
      else
        var j' := IndexOf(proc.outputNames, portName);
        if j' >= 0 then Some(AudioOutputPortOffset + j') else None
  }

  /** The search of `getGroupAndPortIdFromFullName` over the nodes, in order:
      the first node with the group's name that offers the port. */
  function FindPort(nodes: seq<Node>, groupName: string, portName: string): (r: Option<(nat, nat)>)
    ensures r.Some? ==> exists k :: 0 <= k < |nodes| && nodes[k].nodeId == r.value.0
                          && nodes[k].proc.name == groupName
                          && PortIdInProcessor(nodes[k].proc, portName) == Some(r.value.1)
    ensures r.None? <==> forall k :: 0 <= k < |nodes| && nodes[k].proc.name == groupName
                          ==> PortIdInProcessor(nodes[k].proc, portName).None?
  {
    if |nodes| == 0 then None
    else if nodes[0].proc.name == groupName && PortIdInProcessor(nodes[0].proc, portName).Some? then
      Some((nodes[0].nodeId, PortIdInProcessor(nodes[0].proc, portName).value))
    else
      var r := FindPort(nodes[1..], groupName, portName);
      assert forall k :: 1 <= k < |nodes| ==> nodes[k] == nodes[1..][k - 1];
      r
  }

  /** `PatchbayGraph::getGroupAndPortIdFromFullName`. */
  function GroupAndPortIdFromFullName(nodes: seq<Node>, fullName: string): Option<(nat, nat)>
  {
    FindPort(nodes, GroupNameOf(fullName), PortNameOf(fullName))
  }

  /** The ids `offset`, `offset + 1`, ... of a band of `count` channels. */
  function PortBand(offset: nat, count: nat): (r: seq<nat>)
    ensures |r| == count && forall i :: 0 <= i < count ==> r[i] == offset + i
  {
    seq(count, i => offset + i)
  }

  /** The ports a processor announces, in the order they are announced. */
  function AnnouncedPorts(proc: Processor): seq<nat>
  {
    PortBand(AudioInputPortOffset, |proc.inputNames|)
      + PortBand(AudioOutputPortOffset, |proc.outputNames|)
      + (if proc.acceptsMidi then [MidiInputPortOffset] else [])
      + (if proc.producesMidi then [MidiOutputPortOffset] else [])
  }

  /** A processor whose names can be looked up again: no colon in its name,
      its channel names distinct, different from the MIDI port names, and no
      output named like an input; at most one band of channels per
      direction. */
  ghost predicate WellNamed(proc: Processor)
  {
    && ':' !in proc.name
    && |proc.inputNames| <= MaxPatchbayPlugins && |proc.outputNames| <= MaxPatchbayPlugins
    && (forall i :: 0 <= i < |proc.inputNames| ==>
          proc.inputNames[i] != "events-in" && proc.inputNames[i] != "events-out"
          && proc.inputNames[i] !in proc.inputNames[..i])
    && (forall i :: 0 <= i < |proc.outputNames| ==>
          proc.outputNames[i] != "events-in" && proc.outputNames[i] != "events-out"
          && proc.outputNames[i] !in proc.outputNames[..i] && proc.outputNames[i] !in proc.inputNames)
  }

  /** The short name under which a well-named processor offers an announced
      port: the part of its full name after the colon, and a name the
      processor resolves back to the same port. */
  lemma AnnouncedPortName(proc: Processor, portId: nat) returns (portName: string)
    requires WellNamed(proc) && portId in AnnouncedPorts(proc)
    ensures ProcessorFullPortName(proc, portId) == proc.name + ":" + portName
    ensures PortIdInProcessor(proc, portName) == Some(portId)
  {
    var ins, outs := |proc.inputNames|, |proc.outputNames|;
    var a := PortBand(AudioInputPortOffset, ins);
    var b := PortBand(AudioOutputPortOffset, outs);
    assert AnnouncedPorts(proc) == a + b + (if proc.acceptsMidi then [MidiInputPortOffset] else [])
                                        + (if proc.producesMidi then [MidiOutputPortOffset] else []);
    if portId in a {
      var j :| 0 <= j < ins && a[j] == portId;
      portName := InputPortName(proc, j);
    } else if portId in b {
      var j :| 0 <= j < outs && b[j] == portId;
      portName := OutputPortName(proc, j);
    } else if portId == MidiInputPortOffset {
      portName := "events-in";
    } else {
      portName := "events-out";
    }
  }

  lemma InputPortName(proc: Processor, j: nat) returns (portName: string)
    requires WellNamed(proc) && j < |proc.inputNames|
    ensures portName == proc.inputNames[j]
    ensures ProcessorFullPortName(proc, AudioInputPortOffset + j) == proc.name + ":" + portName
    ensures PortIdInProcessor(proc, portName) == Some(AudioInputPortOffset + j)
  {
    portName := proc.inputNames[j];
    IndexOfFirst(proc.inputNames, j);
  }

  lemma OutputPortName(proc: Processor, j: nat) returns (portName: string)
    requires WellNamed(proc) && j < |proc.outputNames|
    ensures portName == proc.outputNames[j]
    ensures ProcessorFullPortName(proc, AudioOutputPortOffset + j) == proc.name + ":" + portName
    ensures PortIdInProcessor(proc, portName) == Some(AudioOutputPortOffset + j)
  {
    portName := proc.outputNames[j];
    IndexOfFirst(proc.outputNames, j);
    assert IndexOf(proc.inputNames, portName) == -1;
  }

  /** The search finds a node whose name no other node carries, as soon as
      that node offers the port. */
  lemma FindPortOfUniqueName(nodes: seq<Node>, k: nat, portName: string)
    requires k < |nodes| && PortIdInProcessor(nodes[k].proc, portName).Some?
    requires forall i :: 0 <= i < |nodes| && i != k ==> nodes[i].proc.name != nodes[k].proc.name
    ensures FindPort(nodes, nodes[k].proc.name, portName)
         == Some((nodes[k].nodeId, PortIdInProcessor(nodes[k].proc, portName).value))
  {
    var r := FindPort(nodes, nodes[k].proc.name, portName);
    var m :| 0 <= m < |nodes| && nodes[m].nodeId == r.value.0
             && nodes[m].proc.name == nodes[k].proc.name
             && PortIdInProcessor(nodes[m].proc, portName) == Some(r.value.1);
    assert m == k;
  }

  /** Every port a well-named processor announces maps to a full name that
      the lookup resolves back to the same node and port, provided no other
      node carries the same name. */
  lemma FullPortNameRoundTrip(nodes: seq<Node>, k: nat, portId: nat)
    requires k < |nodes| && WellNamed(nodes[k].proc) && portId in AnnouncedPorts(nodes[k].proc)
    requires forall i :: 0 <= i < |nodes| && i != k ==> nodes[i].proc.name != nodes[k].proc.name
    ensures ProcessorFullPortName(nodes[k].proc, portId) != ""
    ensures GroupAndPortIdFromFullName(nodes, ProcessorFullPortName(nodes[k].proc, portId)) == Some((nodes[k].nodeId, portId))
  {
    var proc := nodes[k].proc;
    var portName := AnnouncedPortName(proc, portId);
    SplitFullName(proc.name, portName);
    FindPortOfUniqueName(nodes, k, portName);
  }

  /** The callbacks `addNodeToPatchbay` emits for a node: the client, then
      its audio inputs, its audio outputs and its MIDI ports. */
  function NodeAddedCallbacks(groupId: nat, clientId: int, proc: Processor): seq<Callback>
  {
    [ClientAdded(groupId, if clientId >= 0 then IconPlugin else IconHardware, clientId, proc.name)]
      + PortAdditions(groupId, AudioInputPortOffset, proc.inputNames, true)
      + PortAdditions(groupId, AudioOutputPortOffset, proc.outputNames, false)
      + (if proc.acceptsMidi then [PortAdded(groupId, MidiInputPortOffset, MidiPort, true, "events-in")] else [])
      + (if proc.producesMidi then [PortAdded(groupId, MidiOutputPortOffset, MidiPort, false, "events-out")] else [])
  }

  /** One `PORT_ADDED` per audio channel of a band, in order. */
  function PortAdditions(groupId: nat, offset: nat, names: seq<string>, isInput: bool): (r: seq<Callback>)
    ensures |r| == |names|
    ensures forall i :: 0 <= i < |names| ==> r[i] == PortAdded(groupId, offset + i, AudioPort, isInput, names[i])
  {
    seq(|names|, i requires 0 <= i < |names| => PortAdded(groupId, offset + i, AudioPort, isInput, names[i]))
  }

  /** The callbacks `removeNodeFromPatchbay` emits: every port, then the
      client. */
  function NodeRemovedCallbacks(groupId: nat, proc: Processor): seq<Callback>
  {
    PortRemovals(groupId, AnnouncedPorts(proc)) + [ClientRemoved(groupId)]
  }

  /** One `PORT_REMOVED` per port, in order. */
  function PortRemovals(groupId: nat, ports: seq<nat>): seq<Callback>
  {
    seq(|ports|, i requires 0 <= i < |ports| => PortRemoved(groupId, ports[i]))
  }

  lemma PortRemovalsSnoc(groupId: nat, ports: seq<nat>, p: nat)
    ensures PortRemovals(groupId, ports + [p]) == PortRemovals(groupId, ports) + [PortRemoved(groupId, p)]
  {
  }

  lemma PortRemovalsAppend(groupId: nat, a: seq<nat>, b: seq<nat>)
    ensures PortRemovals(groupId, a + b) == PortRemovals(groupId, a) + PortRemovals(groupId, b)
  {
  }

  /** What is announced for a node is withdrawn in the same order: the
      removal callbacks name, port by port, the ports the addition
      callbacks announced, and end with the client. */
  lemma RemovalMirrorsAddition(groupId: nat, clientId: int, proc: Processor)
    ensures var added := NodeAddedCallbacks(groupId, clientId, proc);
      var removed := NodeRemovedCallbacks(groupId, proc);
      && |removed| == |added|
      && added[0] == ClientAdded(groupId, if clientId >= 0 then IconPlugin else IconHardware, clientId, proc.name)
      && removed[|removed| - 1] == ClientRemoved(groupId)
      && forall i :: 1 <= i < |added| ==>
           added[i].PortAdded? && removed[i - 1] == PortRemoved(groupId, added[i].port) && added[i].group == groupId
  {
    var added := NodeAddedCallbacks(groupId, clientId, proc);
    var ports := AnnouncedPorts(proc);
    var ins, outs := |proc.inputNames|, |proc.outputNames|;
    forall i | 1 <= i < |added|
      ensures added[i].PortAdded? && added[i].port == ports[i - 1] && added[i].group == groupId
    {
      if i - 1 < ins {
        assert ports[i - 1] == AudioInputPortOffset + (i - 1);
      } else if i - 1 < ins + outs {
        assert ports[i - 1] == AudioOutputPortOffset + (i - 1 - ins);
      }
    }
  }

  /** Every announced port carries the name the full-name functions use, and
      its direction is the direction of its band. */
  lemma AnnouncedPortsResolve(groupId: nat, clientId: int, proc: Processor, i: nat)
    requires |proc.inputNames| <= MaxPatchbayPlugins && |proc.outputNames| <= MaxPatchbayPlugins
    requires 1 <= i < |NodeAddedCallbacks(groupId, clientId, proc)|
    ensures var cb := NodeAddedCallbacks(groupId, clientId, proc)[i];
      && cb.PortAdded?
      && ProcessorFullPortName(proc, cb.port) == proc.name + ":" + cb.name
      && AdjustPortIdForJuce(cb.port).Some?
      && (cb.isInput <==> IsDestPort(cb.port))
      && (!cb.isInput <==> IsSourcePort(cb.port))
  {
    var ins, outs := |proc.inputNames|, |proc.outputNames|;
    var cb := NodeAddedCallbacks(groupId, clientId, proc)[i];
    if i - 1 < ins {
      assert cb == PortAdded(groupId, AudioInputPortOffset + (i - 1), AudioPort, true, proc.inputNames[i - 1]);
    } else if i - 1 < ins + outs {
      assert cb == PortAdded(groupId, AudioOutputPortOffset + (i - 1 - ins), AudioPort, false, proc.outputNames[i - 1 - ins]);
    }
  }

  /** `addNodeToPatchbay`. */
  method AddNodeToPatchbay(engine: Engine, groupId: nat, clientId: int, proc: Processor)
    modifies engine
    ensures engine.callbacks == old(engine.callbacks) + NodeAddedCallbacks(groupId, clientId, proc)
    ensures engine.lastError == old(engine.lastError)
  {
    var icon := if clientId >= 0 then IconPlugin else IconHardware;
    engine.callbacks := engine.callbacks + [ClientAdded(groupId, icon, clientId, proc.name)];
    ghost var added := [ClientAdded(groupId, icon, clientId, proc.name)];
    AddPortBand(engine, groupId, AudioInputPortOffset, proc.inputNames, true);
    added := added + PortAdditions(groupId, AudioInputPortOffset, proc.inputNames, true);
    AddPortBand(engine, groupId, AudioOutputPortOffset, proc.outputNames, false);
    added := added + PortAdditions(groupId, AudioOutputPortOffset, proc.outputNames, false);
    assert engine.callbacks == old(engine.callbacks) + added;
    if proc.acceptsMidi {
      engine.callbacks := engine.callbacks + [PortAdded(groupId, MidiInputPortOffset, MidiPort, true, "events-in")];
      added := added + [PortAdded(groupId, MidiInputPortOffset, MidiPort, true, "events-in")];
    }
    if proc.producesMidi {
      engine.callbacks := engine.callbacks + [PortAdded(groupId, MidiOutputPortOffset, MidiPort, false, "events-out")];
      added := added + [PortAdded(groupId, MidiOutputPortOffset, MidiPort, false, "events-out")];
    }
    assert added == NodeAddedCallbacks(groupId, clientId, proc);
  }

  /** One port loop of `addNodeToPatchbay`: an audio port per channel, in
      order, named after the channel. */
  method AddPortBand(engine: Engine, groupId: nat, offset: nat, names: seq<string>, isInput: bool)
    modifies engine
    ensures engine.callbacks == old(engine.callbacks) + PortAdditions(groupId, offset, names, isInput)
    ensures engine.lastError == old(engine.lastError)
  {
    var i := 0;
    while i < |names|
      invariant 0 <= i <= |names|
      invariant engine.callbacks == old(engine.callbacks) + PortAdditions(groupId, offset, names[..i], isInput)
      invariant engine.lastError == old(engine.lastError)
    {
      assert names[..i + 1] == names[..i] + [names[i]];
      engine.callbacks := engine.callbacks + [PortAdded(groupId, offset + i, AudioPort, isInput, names[i])];
      i := i + 1;
    }
    assert names[..i] == names;
  }

  /** One port loop of `removeNodeFromPatchbay`: the ports of a band are
      withdrawn in order. */
  method RemovePortBand(engine: Engine, groupId: nat, offset: nat, count: nat)
    modifies engine
    ensures engine.callbacks == old(engine.callbacks) + PortRemovals(groupId, PortBand(offset, count))
    ensures engine.lastError == old(engine.lastError)
  {
    var i := 0;
    while i < count
      invariant 0 <= i <= count
      invariant engine.callbacks == old(engine.callbacks) + PortRemovals(groupId, PortBand(offset, i))
      invariant engine.lastError == old(engine.lastError)
    {
      assert PortBand(offset, i + 1) == PortBand(offset, i) + [offset + i];
      PortRemovalsSnoc(groupId, PortBand(offset, i), offset + i);
      engine.callbacks := engine.callbacks + [PortRemoved(groupId, offset + i)];
      i := i + 1;
    }
  }

  /** `removeNodeFromPatchbay`. */
  method RemoveNodeFromPatchbay(engine: Engine, groupId: nat, proc: Processor)
    modifies engine
    ensures engine.callbacks == old(engine.callbacks) + NodeRemovedCallbacks(groupId, proc)
    ensures engine.lastError == old(engine.lastError)
  {
    var ins, outs := |proc.inputNames|, |proc.outputNames|;
    RemovePortBand(engine, groupId, AudioInputPortOffset, ins);
    RemovePortBand(engine, groupId, AudioOutputPortOffset, outs);
    ghost var ports := PortBand(AudioInputPortOffset, ins) + PortBand(AudioOutputPortOffset, outs);
    PortRemovalsAppend(groupId, PortBand(AudioInputPortOffset, ins), PortBand(AudioOutputPortOffset, outs));
    assert engine.callbacks == old(engine.callbacks) + PortRemovals(groupId, ports);
    if proc.acceptsMidi {
      PortRemovalsSnoc(groupId, ports, MidiInputPortOffset);
      engine.callbacks := engine.callbacks + [PortRemoved(groupId, MidiInputPortOffset)];
      ports := ports + [MidiInputPortOffset];
    }
    assert engine.callbacks == old(engine.callbacks) + PortRemovals(groupId, ports);
    if proc.producesMidi {
      PortRemovalsSnoc(groupId, ports, MidiOutputPortOffset);
      engine.callbacks := engine.callbacks + [PortRemoved(groupId, MidiOutputPortOffset)];
      ports := ports + [MidiOutputPortOffset];
    }
    assert ports == AnnouncedPorts(proc);
    engine.callbacks := engine.callbacks + [ClientRemoved(groupId)];
  }
}

=== FILE: rack_chain.dfy ===
/** The plugin chain of `RackGraph::process`, as a specification: the state
    after each plugin slot, obtained by folding one step per slot. Plugins
    are opaque; what a plugin computes is the `PluginRun` parameter, and
    whether it is present, enabled and could be try-locked is part of its
    slot. */
module RackChain {
  import opened Constants
  import opened Samples
  import opened EngineCore

  /** The rack's two internal channels. */
  datatype Stereo = Stereo(left: Channel, right: Channel)

  predicate StereoOfLength(s: Stereo, frames: nat)
  {
    |s.left| == frames && |s.right| == frames
  }

  function ZeroStereo(frames: nat): (r: Stereo)
    ensures StereoOfLength(r, frames)
  {
    Stereo(Zeros(frames), Zeros(frames))
  }

  function AddStereo(a: Stereo, b: Stereo): (r: Stereo)
    requires |a.left| == |b.left| && |a.right| == |b.right|
    ensures |r.left| == |a.left| && |r.right| == |a.right|
  {
    Stereo(Add(a.left, b.left), Add(a.right, b.right))
  }

  /** What a plugin leaves in a buffer of `frames` samples: what it wrote,
      cut or padded with silence to the buffer's size. */
  function FitChannel(s: Channel, frames: nat): (r: Channel)
    ensures |r| == frames
    ensures forall j :: 0 <= j < frames ==> r[j] == (if j < |s| then s[j] else 0.0)
  {
    if |s| >= frames then s[..frames] else s + Zeros(frames - |s|)
  }

  function FitStereo(s: Stereo, frames: nat): (r: Stereo)
    ensures StereoOfLength(r, frames)
  {
    Stereo(FitChannel(s.left, frames), FitChannel(s.right, frames))
  }

  /** What a plugin leaves in the fixed-size event array. */
  function FitEvents(e: seq<EngineEvent>): (r: seq<EngineEvent>)
    ensures |r| == MaxEngineEventInternalCount
    ensures forall k :: 0 <= k < |r| ==> r[k] == (if k < |e| then e[k] else NullEvent)
  {
    if |e| >= MaxEngineEventInternalCount then e[..MaxEngineEventInternalCount]
    else e + ZeroedEvents()[..MaxEngineEventInternalCount - |e|]
  }

  /** One entry of `data->plugins`, as far as the chain reads it. */
  datatype PluginSlot = PluginSlot(
    present: bool, enabled: bool, lockAcquired: bool,
    audioIns: nat, audioOuts: nat, midiOuts: nat)

  /** A slot is processed when its plugin exists, is enabled and the
      try-lock succeeds. */
  predicate Active(slot: PluginSlot)
  {
    slot.present && slot.enabled && slot.lockAcquired
  }

  /** The peak meters stored for a plugin. */
  datatype Peaks = Peaks(in0: real, in1: real, out0: real, out1: real)

  /** What a plugin's `process` produces: its audio output and the event
      output array. */
  datatype PluginResult = PluginResult(audio: Stereo, eventsOut: seq<EngineEvent>)

  /** A plugin's processing, given the slot index, the audio input, the event
      input array and the event output array it appends to. */
  type PluginRun = (nat, Stereo, seq<EngineEvent>, seq<EngineEvent>) -> PluginResult

  /** The engine data the rack reads and writes while processing. */
  datatype EngineData = EngineData(eventsIn: seq<EngineEvent>, eventsOut: seq<EngineEvent>, peaks: seq<Peaks>)

  /** The local state of the plugin loop. */
  datatype ChainState = ChainState(
    inBuf: Stereo, outBuf: Stereo,
    eventsIn: seq<EngineEvent>, eventsOut: seq<EngineEvent>,
    processed: bool, oldMidiOutCount: nat, peaks: seq<Peaks>)

  ghost predicate ChainShape(st: ChainState, frames: nat)
  {
    && StereoOfLength(st.inBuf, frames) && StereoOfLength(st.outBuf, frames)
    && |st.eventsIn| == MaxEngineEventInternalCount
    && |st.eventsOut| == MaxEngineEventInternalCount
  }

  /** Before the first plugin: inputs copied, outputs and the event output
      zeroed. */
  function InitialChain(audioIn: Stereo, frames: nat, eventsIn: seq<EngineEvent>, peaks: seq<Peaks>): (st: ChainState)
    requires StereoOfLength(audioIn, frames) && |eventsIn| == MaxEngineEventInternalCount
    ensures ChainShape(st, frames) && st.peaks == peaks && !st.processed
    ensures st.inBuf == audioIn && st.outBuf == ZeroStereo(frames) && st.eventsOut == ZeroedEvents()
  {
    ChainState(audioIn, ZeroStereo(frames), eventsIn, ZeroedEvents(), false, 0, peaks)
  }

  /** True when the next processed plugin takes the events as they are:
      always for the first one, and later when the previous plugin had no
      MIDI output and the event input is not empty (the case the source
      leaves as a TODO). Otherwise the previous output becomes the input. */
  predicate KeepsEvents(st: ChainState)
    requires |st.eventsIn| > 0
  {
    !st.processed || (st.oldMidiOutCount == 0 && st.eventsIn[0] != NullEvent)
  }

  /** The peak of a channel pair, or zero when the plugin has no such ports. */
  function PeakPair(hasPorts: bool, s: Stereo): (r: (real, real))
    ensures 0.0 <= r.0 <= 1.0 && 0.0 <= r.1 <= 1.0
    ensures !hasPorts ==> r == (0.0, 0.0)
  {
    if hasPorts then (Peak(s.left), Peak(s.right)) else (0.0, 0.0)
  }

  /** The loop body for slot `i`. */
  function ChainStep(st: ChainState, i: nat, slot: PluginSlot, run: PluginRun, frames: nat): (r: ChainState)
    requires ChainShape(st, frames) && i < |st.peaks|
    ensures ChainShape(r, frames) && |r.peaks| == |st.peaks|
  {
    if !Active(slot) then st
    else
      var inBuf := if st.processed then st.outBuf else st.inBuf;
      var keep := KeepsEvents(st);
      var evIn := if keep then st.eventsIn else st.eventsOut;
      var evOut := if keep then st.eventsOut else ZeroedEvents();
      var res := run(i, inBuf, evIn, evOut);
      var produced := FitStereo(res.audio, frames);
      var out := if slot.audioIns == 0 then AddStereo(produced, inBuf) else produced;
      var ins := PeakPair(slot.audioIns > 0, inBuf);
      var outs := PeakPair(slot.audioOuts > 0, out);
      ChainState(inBuf, out, evIn, FitEvents(res.eventsOut), true, slot.midiOuts,
                 st.peaks[i := Peaks(ins.0, ins.1, outs.0, outs.1)])
  }

  /** The loop state after the first `k` slots. */
  function ChainUpTo(slots: seq<PluginSlot>, run: PluginRun, frames: nat, init: ChainState, k: nat): (st: ChainState)
    requires k <= |slots| && ChainShape(init, frames) && |init.peaks| == |slots|
    ensures ChainShape(st, frames) && |st.peaks| == |slots|
  {
    if k == 0 then init
    else ChainStep(ChainUpTo(slots, run, frames, init, k - 1), k - 1, slots[k - 1], run, frames)
  }

  /** Slots that are not processed change nothing. */
  lemma {:induction false} InactiveSlotsKeepState(slots: seq<PluginSlot>, run: PluginRun, frames: nat, init: ChainState, k: nat)
    requires k <= |slots| && ChainShape(init, frames) && |init.peaks| == |slots|
    requires forall i :: 0 <= i < k ==> !Active(slots[i])
    ensures ChainUpTo(slots, run, frames, init, k) == init
  {
    if k > 0 {
      InactiveSlotsKeepState(slots, run, frames, init, k - 1);
    }
  }

  /** Without any processed plugin the rack's output stays silent and no
      event is output; the input is not passed through. */
  lemma NoActivePluginIsSilent(slots: seq<PluginSlot>, run: PluginRun, audioIn: Stereo, frames: nat, data: EngineData)
    requires StereoOfLength(audioIn, frames) && |data.eventsIn| == MaxEngineEventInternalCount && |data.peaks| == |slots|
    requires forall i :: 0 <= i < |slots| ==> !Active(slots[i])
    ensures var st := ChainUpTo(slots, run, frames, InitialChain(audioIn, frames, data.eventsIn, data.peaks), |slots|);
      st.outBuf == ZeroStereo(frames) && st.eventsOut == ZeroedEvents() && st.peaks == data.peaks
  {
    InactiveSlotsKeepState(slots, run, frames, InitialChain(audioIn, frames, data.eventsIn, data.peaks), |slots|);
  }

  /** A slot's peak meters change only when that slot is processed. */
  lemma {:induction false} PeaksOfInactiveSlotKept(slots: seq<PluginSlot>, run: PluginRun, frames: nat, init: ChainState, k: nat, i: nat)
    requires k <= |slots| && ChainShape(init, frames) && |init.peaks| == |slots|
    requires i < |slots| && !Active(slots[i])
    ensures ChainUpTo(slots, run, frames, init, k).peaks[i] == init.peaks[i]
  {
    if k > 0 {
      PeaksOfInactiveSlotKept(slots, run, frames, init, k - 1, i);
    }
  }

  /** The first processed plugin reads the block's input and the block's
      event input; a plugin without audio inputs adds that input to what
      it produces. */
  lemma FirstActivePlugin(slots: seq<PluginSlot>, run: PluginRun, audioIn: Stereo, frames: nat, data: EngineData, j: nat)
    requires StereoOfLength(audioIn, frames) && |data.eventsIn| == MaxEngineEventInternalCount && |data.peaks| == |slots|
    requires j < |slots| && Active(slots[j])
    requires forall i :: 0 <= i < j ==> !Active(slots[i])
    ensures var st := ChainUpTo(slots, run, frames, InitialChain(audioIn, frames, data.eventsIn, data.peaks), j + 1);
      var res := run(j, audioIn, data.eventsIn, ZeroedEvents());
      && st.inBuf == audioIn
      && st.outBuf == (if slots[j].audioIns == 0 then AddStereo(FitStereo(res.audio, frames), audioIn)
                       else FitStereo(res.audio, frames))
      && st.eventsIn == data.eventsIn
      && st.eventsOut == FitEvents(res.eventsOut)
  {
    InactiveSlotsKeepState(slots, run, frames, InitialChain(audioIn, frames, data.eventsIn, data.peaks), j);
  }

  /** A plugin with no audio inputs that outputs silence passes its input
      through unchanged. */
  lemma SilentGeneratorPassesThrough(st: ChainState, i: nat, slot: PluginSlot, run: PluginRun, frames: nat)
    requires ChainShape(st, frames) && i < |st.peaks|
    requires Active(slot) && slot.audioIns == 0
    requires var inBuf := if st.processed then st.outBuf else st.inBuf;
      var keep := KeepsEvents(st);
      run(i, inBuf, if keep then st.eventsIn else st.eventsOut, if keep then st.eventsOut else ZeroedEvents()).audio
        == ZeroStereo(frames)
    ensures ChainStep(st, i, slot, run, frames).outBuf == (if st.processed then st.outBuf else st.inBuf)
  {
    var inBuf := if st.processed then st.outBuf else st.inBuf;
    assert FitStereo(ZeroStereo(frames), frames) == ZeroStereo(frames);
    AddZerosLeft(inBuf.left);
    AddZerosLeft(inBuf.right);
  }
}

=== FILE: rack_graph.dfy ===
/** `RackGraph`: the rack mode's connection table, the four audio routing
    lists, the external MIDI port registry and the block processing that
    routes device audio through the plugin chain. */
module Rack {
  import opened Common
  import opened Constants
  import opened Samples
  import opened EngineCore
  import opened RackNames
  import opened RackRouting
  import opened RackChain

  /** A connection seen from the Carla group: the Carla port and the
      external group and port on the other end. */
  datatype RackEnd = RackEnd(carlaPort: nat, otherGroup: nat, otherPort: nat)

  /** The endpoint checks `connect`, `disconnect` and `getConnections` make
      before looking at the ports: exactly one end is the Carla group, the
      Carla port is one of the six and the other group is external. */
  function CarlaEnd(groupA: nat, portA: nat, groupB: nat, portB: nat): (r: Option<RackEnd>)
    ensures r.Some? <==>
      && (groupA == GroupCarla) != (groupB == GroupCarla)
      && var carlaPort := if groupA == GroupCarla then portA else portB;
         var otherGroup := if groupA == GroupCarla then groupB else groupA;
         PortNull < carlaPort < PortMax && GroupCarla < otherGroup < GroupMax
    ensures r.Some? && groupA == GroupCarla ==> r.value == RackEnd(portA, groupB, portB)
    ensures r.Some? && groupB == GroupCarla ==> r.value == RackEnd(portB, groupA, portA)
  {
    if groupA == GroupCarla && groupB == GroupCarla then None
    else if groupA != GroupCarla && groupB != GroupCarla then None
    else
      var e := if groupA == GroupCarla then RackEnd(portA, groupB, portB) else RackEnd(portB, groupA, portA);
      if PortNull < e.carlaPort < PortMax && GroupCarla < e.otherGroup < GroupMax then Some(e) else None
  }

  function EndOf(c: ConnectionToId): Option<RackEnd>
  {
    CarlaEnd(c.groupA, c.portA, c.groupB, c.portB)
  }

  /** The external group each Carla port may be connected to. */
  function GroupForCarlaPort(carlaPort: nat): (g: nat)
    requires PortNull < carlaPort < PortMax
    ensures GroupCarla < g < GroupMax
  {
    if carlaPort == PortAudioIn1 || carlaPort == PortAudioIn2 then GroupAudioIn
    else if carlaPort == PortAudioOut1 || carlaPort == PortAudioOut2 then GroupAudioOut
    else if carlaPort == PortMidiIn then GroupMidiIn
    else GroupMidiOut
  }

  predicate IsAudioCarlaPort(carlaPort: nat)
  {
    PortAudioIn1 <= carlaPort <= PortAudioOut2
  }

  /** Carla ports that receive from the outside: the two audio inputs and
      the MIDI input. */
  predicate IsCarlaInput(carlaPort: nat)
  {
    carlaPort == PortAudioIn1 || carlaPort == PortAudioIn2 || carlaPort == PortMidiIn
  }

  /** An entry `connect` can have made: valid ends whose groups match. */
  predicate WellFormed(c: ConnectionToId)
  {
    EndOf(c).Some? && GroupForCarlaPort(EndOf(c).value.carlaPort) == EndOf(c).value.otherGroup
  }

  /** The external ports of the table's entries on Carla port `carlaPort`,
      in table order. */
  function RoutedPorts(list: seq<ConnectionToId>, carlaPort: nat): seq<nat>
  {
    if |list| == 0 then []
    else
      var e := EndOf(list[0]);
      (if e.Some? && e.value.carlaPort == carlaPort then [e.value.otherPort] else [])
        + RoutedPorts(list[1..], carlaPort)
  }

  lemma {:induction false} RoutedPortsConcat(a: seq<ConnectionToId>, b: seq<ConnectionToId>, carlaPort: nat)
    ensures RoutedPorts(a + b, carlaPort) == RoutedPorts(a, carlaPort) + RoutedPorts(b, carlaPort)
    decreases |a|
  {
    if |a| == 0 {
      assert a + b == b;
    } else {
      assert (a + b)[0] == a[0];
      assert (a + b)[1..] == a[1..] + b;
      RoutedPortsConcat(a[1..], b, carlaPort);
    }
  }

  lemma RoutedPortsSingle(c: ConnectionToId, carlaPort: nat)
    ensures RoutedPorts([c], carlaPort)
         == if EndOf(c).Some? && EndOf(c).value.carlaPort == carlaPort then [EndOf(c).value.otherPort] else []
  {
    assert [c][1..] == [];
  }

  /** Removing one entry removes exactly its own external port from the
      ports routed to its Carla port, and nothing from the others. */
  lemma RoutedPortsRemoveAt(list: seq<ConnectionToId>, k: nat, carlaPort: nat)
    requires k < |list| && EndOf(list[k]).Some?
    ensures var e := EndOf(list[k]).value;
      multiset(RoutedPorts(RemoveAt(list, k), carlaPort))
        == if e.carlaPort == carlaPort then multiset(RoutedPorts(list, carlaPort)) - multiset{e.otherPort}
           else multiset(RoutedPorts(list, carlaPort))
    ensures var e := EndOf(list[k]).value;
      e.carlaPort == carlaPort ==> e.otherPort in RoutedPorts(list, carlaPort)
  {
    assert list == list[..k] + [list[k]] + list[k + 1..];
    RoutedPortsConcat(list[..k] + [list[k]], list[k + 1..], carlaPort);
    RoutedPortsConcat(list[..k], [list[k]], carlaPort);
    RoutedPortsConcat(list[..k], list[k + 1..], carlaPort);
    RoutedPortsSingle(list[k], carlaPort);
  }

  /** The four audio routing lists. */
  datatype Routing = Routing(in1: seq<nat>, in2: seq<nat>, out1: seq<nat>, out2: seq<nat>)

  /** The routing list of an audio Carla port (none for a MIDI port). */
  function RouteList(r: Routing, carlaPort: nat): seq<nat>
  {
    if carlaPort == PortAudioIn1 then r.in1
    else if carlaPort == PortAudioIn2 then r.in2
    else if carlaPort == PortAudioOut1 then r.out1
    else if carlaPort == PortAudioOut2 then r.out2
    else []
  }

  /** The routing lists after `append(otherPort)` on the list of an audio
      Carla port; a MIDI port has no routing list. */
  function WithRoute(r: Routing, carlaPort: nat, otherPort: nat): Routing
  {
    if carlaPort == PortAudioIn1 then r.(in1 := r.in1 + [otherPort])
    else if carlaPort == PortAudioIn2 then r.(in2 := r.in2 + [otherPort])
    else if carlaPort == PortAudioOut1 then r.(out1 := r.out1 + [otherPort])
    else if carlaPort == PortAudioOut2 then r.(out2 := r.out2 + [otherPort])
    else r
  }

  /** The routing lists after `removeOne(otherPort)` on the list of an audio
      Carla port. */
  function WithoutRoute(r: Routing, carlaPort: nat, otherPort: nat): Routing
  {
    if carlaPort == PortAudioIn1 then r.(in1 := RemoveOne(r.in1, otherPort))
    else if carlaPort == PortAudioIn2 then r.(in2 := RemoveOne(r.in2, otherPort))
    else if carlaPort == PortAudioOut1 then r.(out1 := RemoveOne(r.out1, otherPort))
    else if carlaPort == PortAudioOut2 then r.(out2 := RemoveOne(r.out2, otherPort))
    else r
  }

  /** Connecting appends the external port to its Carla port's list and
      leaves the other lists alone. */
  lemma WithRouteAppends(r: Routing, carlaPort: nat, otherPort: nat, q: nat)
    requires IsAudioCarlaPort(q)
    ensures RouteList(WithRoute(r, carlaPort, otherPort), q)
         == RouteList(r, q) + (if q == carlaPort then [otherPort] else [])
  {
  }

  /** Disconnecting drops one occurrence of the external port from its Carla
      port's list and leaves the other lists alone. */
  lemma WithoutRouteRemoves(r: Routing, carlaPort: nat, otherPort: nat, q: nat)
    requires IsAudioCarlaPort(q)
    ensures RouteList(WithoutRoute(r, carlaPort, otherPort), q)
         == if q == carlaPort then RemoveOne(RouteList(r, q), otherPort) else RouteList(r, q)
  {
  }

  /** The routing lists hold, as multisets, exactly the external ports of the
      table's entries on each audio Carla port. */
  ghost predicate RoutingMatches(r: Routing, list: seq<ConnectionToId>)
  {
    forall q :: IsAudioCarlaPort(q) ==> multiset(RouteList(r, q)) == multiset(RoutedPorts(list, q))
  }

  /** Appending a connection and its route keeps table and routing in step. */
  lemma AppendKeepsRouting(r: Routing, list: seq<ConnectionToId>, c: ConnectionToId)
    requires RoutingMatches(r, list) && EndOf(c).Some?
    ensures RoutingMatches(WithRoute(r, EndOf(c).value.carlaPort, EndOf(c).value.otherPort), list + [c])
  {
    var e := EndOf(c).value;
    var r' := WithRoute(r, e.carlaPort, e.otherPort);
    forall q | IsAudioCarlaPort(q)
      ensures multiset(RouteList(r', q)) == multiset(RoutedPorts(list + [c], q))
    {
      RoutedPortsConcat(list, [c], q);
      RoutedPortsSingle(c, q);
      WithRouteAppends(r, e.carlaPort, e.otherPort, q);
    }
  }

  /** Removing a connection and one occurrence of its route keeps table and
      routing in step. */
  lemma RemoveKeepsRouting(r: Routing, list: seq<ConnectionToId>, k: nat)
    requires RoutingMatches(r, list) && k < |list| && EndOf(list[k]).Some?
    ensures RoutingMatches(WithoutRoute(r, EndOf(list[k]).value.carlaPort, EndOf(list[k]).value.otherPort), RemoveAt(list, k))
  {
    var e := EndOf(list[k]).value;
    var r' := WithoutRoute(r, e.carlaPort, e.otherPort);
    forall q | IsAudioCarlaPort(q)
      ensures multiset(RouteList(r', q)) == multiset(RoutedPorts(RemoveAt(list, k), q))
    {
      RoutedPortsRemoveAt(list, k, q);
      WithoutRouteRemoves(r, e.carlaPort, e.otherPort, q);
      if q == e.carlaPort {
        assert e.otherPort in multiset(RouteList(r, q));
      }
    }
  }

  /** The checks `connect` makes before touching any list: valid ends whose
      groups match. A call failing them returns false without an error. */
  predicate EndsChecked(groupA: nat, portA: nat, groupB: nat, portB: nat)
  {
    var end := CarlaEnd(groupA, portA, groupB, portB);
    end.Some? && GroupForCarlaPort(end.value.carlaPort) == end.value.otherGroup
  }

  /** Whether the engine agrees to a MIDI connection: the external port is
      registered and opening it succeeded. */
  predicate MidiPortAccepted(e: RackEnd, midiIns: seq<PortNameToId>, midiOuts: seq<PortNameToId>, portOpened: bool)
  {
    MidiPortName(if e.carlaPort == PortMidiIn then midiIns else midiOuts, e.otherPort).Some? && portOpened
  }

  /** Whether `connect` accepts a connection: valid ends, matching groups, and
      for MIDI a registered external port whose opening succeeded. */
  predicate ConnectAccepted(groupA: nat, portA: nat, groupB: nat, portB: nat,
                            midiIns: seq<PortNameToId>, midiOuts: seq<PortNameToId>, midiPortOpened: bool)
  {
    && EndsChecked(groupA, portA, groupB, portB)
    && var e := CarlaEnd(groupA, portA, groupB, portB).value;
       IsAudioCarlaPort(e.carlaPort) || MidiPortAccepted(e, midiIns, midiOuts, midiPortOpened)
  }

  /** The table invariant of a rack graph: ids increase along the table,
      every entry is one `connect` can make, and the routing lists mirror the
      audio entries. */
  ghost predicate TableInvariant(list: seq<ConnectionToId>, lastId: nat, r: Routing)
  {
    && IdsIncreasing(list, lastId)
    && (forall k :: 0 <= k < |list| ==> WellFormed(list[k]))
    && RoutingMatches(r, list)
  }

  /** Appending a new entry with the next id, and its route, keeps the
      table invariant. */
  lemma AppendKeepsTable(list: seq<ConnectionToId>, lastId: nat, r: Routing, c: ConnectionToId)
    requires TableInvariant(list, lastId, r) && WellFormed(c) && c.id == lastId + 1
    ensures TableInvariant(list + [c], lastId + 1, WithRoute(r, EndOf(c).value.carlaPort, EndOf(c).value.otherPort))
  {
    AppendNextKeepsIds(list, lastId, c);
    AppendKeepsRouting(r, list, c);
  }

  /** Removing an entry, and one occurrence of its route, keeps the table
      invariant. */
  lemma RemoveKeepsTable(list: seq<ConnectionToId>, lastId: nat, r: Routing, k: nat)
    requires TableInvariant(list, lastId, r) && k < |list|
    ensures TableInvariant(RemoveAt(list, k), lastId,
                           WithoutRoute(r, EndOf(list[k]).value.carlaPort, EndOf(list[k]).value.otherPort))
  {
    RemoveAtKeepsIds(list, lastId, k);
    RemoveKeepsRouting(r, list, k);
    var l' := RemoveAt(list, k);
    forall i | 0 <= i < |l'|
      ensures WellFormed(l'[i])
    {
      assert l'[i] == list[if i < k then i else i + 1];
    }
  }

  /** `"(null)"` is what `%s` prints for a missing MIDI port name. */
  function NameOrNull(name: Option<string>): string
  {
    match name
    case Some(n) => n
    case None => "(null)"
  }

  /** The external end's name as `getConnections` prints it; the prefix
      follows the Carla port, whatever the stored group. */
  function ExternalName(e: RackEnd, ins: seq<PortNameToId>, outs: seq<PortNameToId>): string
    requires PortNull < e.carlaPort < PortMax
  {
    if e.carlaPort == PortAudioIn1 || e.carlaPort == PortAudioIn2 then "AudioIn:" + IntToString(AsInt32(e.otherPort))
    else if e.carlaPort == PortAudioOut1 || e.carlaPort == PortAudioOut2 then "AudioOut:" + IntToString(AsInt32(e.otherPort))
    else if e.carlaPort == PortMidiIn then "MidiIn:" + NameOrNull(MidiPortName(ins, e.otherPort))
    else "MidiOut:" + NameOrNull(MidiPortName(outs, e.otherPort))
  }

  /** The two names `getConnections` lists for one entry, source first:
      nothing for an entry that fails the endpoint checks. */
  function EntryNames(c: ConnectionToId, ins: seq<PortNameToId>, outs: seq<PortNameToId>): (r: seq<string>)
    ensures |r| == 0 || |r| == 2
    ensures |r| == 2 <==> c.id != 0 && EndOf(c).Some?
  {
    if c.id == 0 then []
    else match EndOf(c)
      case None => []
      case Some(e) =>
        var carla := CarlaFullPortNameFromId(e.carlaPort).value;
        var ext := ExternalName(e, ins, outs);
        if IsCarlaInput(e.carlaPort) then [ext, carla] else [carla, ext]
  }

  /** Names of the table's entries, in table order. */
  function ConnectionNames(list: seq<ConnectionToId>, ins: seq<PortNameToId>, outs: seq<PortNameToId>): seq<string>
  {
    if |list| == 0 then []
    else ConnectionNames(list[..|list| - 1], ins, outs) + EntryNames(list[|list| - 1], ins, outs)
  }

  /** Entries that pass the endpoint checks of `getConnections`. */
  ghost predicate AllListed(list: seq<ConnectionToId>)
  {
    forall i :: 0 <= i < |list| ==> list[i].id != 0 && EndOf(list[i]).Some?
  }

  /** When every entry passes the endpoint checks (as every entry `connect`
      made does), `getConnections` lists exactly two names per entry. */
  lemma {:induction false} ConnectionNamesLength(list: seq<ConnectionToId>, ins: seq<PortNameToId>, outs: seq<PortNameToId>)
    requires AllListed(list)
    ensures |ConnectionNames(list, ins, outs)| == 2 * |list|
  {
    if |list| > 0 {
      var init := list[..|list| - 1];
      assert AllListed(init) by {
        forall i | 0 <= i < |init| ensures init[i].id != 0 && EndOf(init[i]).Some? {
          assert init[i] == list[i];
        }
      }
      ConnectionNamesLength(init, ins, outs);
    }
  }

  /** ... and entry `k`'s two names sit at positions `2k` and `2k+1`. */
  lemma {:induction false} ConnectionNamesAt(list: seq<ConnectionToId>, ins: seq<PortNameToId>, outs: seq<PortNameToId>, k: nat)
    requires AllListed(list) && k < |list|
    ensures |ConnectionNames(list, ins, outs)| == 2 * |list| && |EntryNames(list[k], ins, outs)| == 2
    ensures ConnectionNames(list, ins, outs)[2 * k] == EntryNames(list[k], ins, outs)[0]
    ensures ConnectionNames(list, ins, outs)[2 * k + 1] == EntryNames(list[k], ins, outs)[1]
  {
    var init := list[..|list| - 1];
    assert AllListed(init) by {
      forall i | 0 <= i < |init| ensures init[i].id != 0 && EndOf(init[i]).Some? {
        assert init[i] == list[i];
      }
    }
    ConnectionNamesLength(list, ins, outs);
    ConnectionNamesLength(init, ins, outs);
    var prefix := ConnectionNames(init, ins, outs);
    assert ConnectionNames(list, ins, outs) == prefix + EntryNames(list[|list| - 1], ins, outs);
    var names := ConnectionNames(list, ins, outs);
    if k < |init| {
      ConnectionNamesAt(init, ins, outs, k);
      assert init[k] == list[k];
      assert names[2 * k] == prefix[2 * k] && names[2 * k + 1] == prefix[2 * k + 1];
    } else {
      var last := EntryNames(list[k], ins, outs);
      assert k == |init| && 2 * k == |prefix|;
      assert names == prefix + last;
      assert names[|prefix|] == last[0] && names[|prefix| + 1] == last[1];
    }
  }

  /** The names `getConnections` prints for an audio connection parse back,
      through `getGroupAndPortIdFromFullName`, to the entry's two ends, for
      any nonzero 32-bit external port. */
  lemma AudioEntryNamesParseBack(c: ConnectionToId, ins: seq<PortNameToId>, outs: seq<PortNameToId>)
    requires c.id != 0 && WellFormed(c) && IsAudioCarlaPort(EndOf(c).value.carlaPort)
    requires 0 < EndOf(c).value.otherPort < Uint32Modulus
    ensures var e := EndOf(c).value;
      var names := EntryNames(c, ins, outs);
      var carla := PortRef(GroupCarla, e.carlaPort);
      var other := PortRef(e.otherGroup, e.otherPort);
      && RackPortFromFullName(names[0], ins, outs) == Some(if IsCarlaInput(e.carlaPort) then other else carla)
      && RackPortFromFullName(names[1], ins, outs) == Some(if IsCarlaInput(e.carlaPort) then carla else other)
  {
    var e := EndOf(c).value;
    CarlaFullNameRoundTrip(e.carlaPort, ins, outs);
    AudioFullNameRoundTrip(e.otherPort, IsCarlaInput(e.carlaPort), ins, outs);
  }

  /** The same for a MIDI connection whose external port is registered under
      a name no other registered port shares. */
  lemma MidiEntryNamesParseBack(c: ConnectionToId, ins: seq<PortNameToId>, outs: seq<PortNameToId>)
    requires c.id != 0 && WellFormed(c) && !IsAudioCarlaPort(EndOf(c).value.carlaPort)
    requires var e := EndOf(c).value;
      var reg := if e.carlaPort == PortMidiIn then ins else outs;
      DistinctNames(reg) && MidiPortName(reg, e.otherPort).Some?
    ensures var e := EndOf(c).value;
      var names := EntryNames(c, ins, outs);
      var carla := PortRef(GroupCarla, e.carlaPort);
      var other := PortRef(e.otherGroup, e.otherPort);
      && RackPortFromFullName(names[0], ins, outs) == Some(if IsCarlaInput(e.carlaPort) then other else carla)
      && RackPortFromFullName(names[1], ins, outs) == Some(if IsCarlaInput(e.carlaPort) then carla else other)
  {
    var e := EndOf(c).value;
    var isIn := e.carlaPort == PortMidiIn;
    var reg := if isIn then ins else outs;
    CarlaFullNameRoundTrip(e.carlaPort, ins, outs);
    RegistryRoundTrip(reg, e.otherPort);
    MidiFullNameParse(MidiPortName(reg, e.otherPort).value, isIn, ins, outs);
  }

  /** The internal input buffers `processHelper` hands to the chain. */
  function RackInput(devIn: Option<seq<Channel>>, in1: seq<nat>, in2: seq<nat>, inputs: nat, frames: nat): (r: Stereo)
    requires devIn.Some? ==> inputs <= |devIn.value| && ChannelsOfLength(devIn.value, frames)
    ensures StereoOfLength(r, frames)
    ensures devIn.None? || inputs == 0 ==> r == ZeroStereo(frames)
  {
    if devIn.Some? && inputs > 0 then
      Stereo(FanIn(devIn.value, in1, inputs, frames), FanIn(devIn.value, in2, inputs, frames))
    else ZeroStereo(frames)
  }

  /** The fan-in loop of `processHelper` for one internal channel. */
  method ConnectInputs(devIn: seq<Channel>, ports: seq<nat>, inputs: nat, frames: nat) returns (buf: Channel)
    requires inputs <= |devIn| && ChannelsOfLength(devIn, frames)
    ensures buf == FanIn(devIn, ports, inputs, frames)
  {
    var noConnections := true;
    buf := Zeros(frames);
    var i := 0;
    while i < |ports|
      invariant 0 <= i <= |ports| && |buf| == frames
      invariant noConnections <==> forall k :: 0 <= k < i ==> !InputQualifies(ports[k], inputs)
      invariant !noConnections ==> buf == FanIn(devIn, ports[..i], inputs, frames)
      invariant noConnections ==> FanIn(devIn, ports[..i], inputs, frames) == Zeros(frames)
    {
      assert ports[..i + 1][..i] == ports[..i];
      var port := ports[i];
      if InputQualifies(port, inputs) {
        if noConnections {
          AddZerosLeft(devIn[port]);
          buf := devIn[port];
          noConnections := false;
        } else {
          buf := Add(buf, devIn[port]);
        }
      }
      i := i + 1;
    }
    assert ports[..i] == ports;
    if noConnections {
      buf := Zeros(frames);
    }
  }

  /** The fan-out loop of `processHelper` for one internal channel. */
  method AccumulateOutputs(devOut: array<Channel>, ports: seq<nat>, buf: Channel, outputs: nat)
    requires outputs <= devOut.Length && ChannelsOfLength(devOut[..], |buf|)
    modifies devOut
    ensures devOut[..] == FanOut(old(devOut[..]), ports, buf, outputs)
  {
    var i := 0;
    while i < |ports|
      invariant 0 <= i <= |ports|
      invariant devOut[..] == FanOut(old(devOut[..]), ports[..i], buf, outputs)
    {
      assert ports[..i + 1][..i] == ports[..i];
      var port := ports[i];
      if OutputQualifies(port, outputs) {
        devOut[port - 1] := Add(devOut[port - 1], buf);
      }
      i := i + 1;
    }
    assert ports[..i] == ports;
  }

  class RackGraph {
    var connections: seq<ConnectionToId>
    var lastId: nat
    var inputs: nat
    var outputs: nat
    var bufferSize: nat
    var isOffline: bool
    var connectedIn1: seq<nat>
    var connectedIn2: seq<nat>
    var connectedOut1: seq<nat>
    var connectedOut2: seq<nat>
    var midiIns: seq<PortNameToId>
    var midiOuts: seq<PortNameToId>

    function Routes(): Routing
      reads this
    {
      Routing(connectedIn1, connectedIn2, connectedOut1, connectedOut2)
    }

    /** The fields that only the constructor and the setters change. */
    function Settings(): (nat, nat, nat, bool)
      reads this
    {
      (inputs, outputs, bufferSize, isOffline)
    }

    /** Ids increase along the table, every entry is one `connect` can
        make, and the routing lists mirror the audio entries. */
    ghost predicate Valid()
      reads this
    {
      TableInvariant(connections, lastId, Routes())
    }

    /** The scratch buffers `processHelper` needs exist only for a nonzero
        buffer size and some device input or output. */
    predicate HasBuffers()
      reads this
    {
      bufferSize > 0 && (inputs > 0 || outputs > 0)
    }

    constructor (bufferSize: nat, ins: nat, outs: nat)
      ensures Valid() && connections == [] && Routes() == Routing([], [], [], [])
      ensures midiIns == [] && midiOuts == []
      ensures Settings() == (ins, outs, bufferSize, false)
    {
      connections := [];
      lastId := 0;
      inputs := ins;
      outputs := outs;
      this.bufferSize := bufferSize;
      isOffline := false;
      connectedIn1, connectedIn2, connectedOut1, connectedOut2 := [], [], [], [];
      midiIns, midiOuts := [], [];
    }

    method SetBufferSize(size: nat)
      modifies this
      ensures Settings() == old(Settings()).(2 := size)
      ensures connections == old(connections) && lastId == old(lastId) && Routes() == old(Routes())
      ensures midiIns == old(midiIns) && midiOuts == old(midiOuts)
    {
      bufferSize := size;
    }

    method SetOffline(offline: bool)
      modifies this
      ensures Settings() == old(Settings()).(3 := offline)
      ensures connections == old(connections) && lastId == old(lastId) && Routes() == old(Routes())
      ensures midiIns == old(midiIns) && midiOuts == old(midiOuts)
    {
      isOffline := offline;
    }

    /** `append` on the routing list of an audio Carla port; nothing for a
        MIDI port. */
    method AppendRoute(carlaPort: nat, otherPort: nat)
      modifies this
      ensures Routes() == WithRoute(old(Routes()), carlaPort, otherPort)
      ensures connections == old(connections) && lastId == old(lastId) && Settings() == old(Settings())
      ensures midiIns == old(midiIns) && midiOuts == old(midiOuts)
    {
      var r := WithRoute(Routes(), carlaPort, otherPort);
      connectedIn1, connectedIn2, connectedOut1, connectedOut2 := r.in1, r.in2, r.out1, r.out2;
    }

    /** `removeOne` on the routing list of an audio Carla port; nothing for
        a MIDI port. */
    method RemoveRoute(carlaPort: nat, otherPort: nat)
      modifies this
      ensures Routes() == WithoutRoute(old(Routes()), carlaPort, otherPort)
      ensures connections == old(connections) && lastId == old(lastId) && Settings() == old(Settings())
      ensures midiIns == old(midiIns) && midiOuts == old(midiOuts)
    {
      var r := WithoutRoute(Routes(), carlaPort, otherPort);
      connectedIn1, connectedIn2, connectedOut1, connectedOut2 := r.in1, r.in2, r.out1, r.out2;
    }

    /** `connect`. `midiPortOpened` is what the engine answers when asked to
        open the external MIDI port. */
    method Connect(engine: Engine, groupA: nat, portA: nat, groupB: nat, portB: nat, midiPortOpened: bool) returns (ok: bool)
      requires Valid()
      modifies this, engine
      ensures Valid()
      ensures ok <==> ConnectAccepted(groupA, portA, groupB, portB, midiIns, midiOuts, midiPortOpened)
      ensures ok ==>
        var e := CarlaEnd(groupA, portA, groupB, portB).value;
        && lastId == old(lastId) + 1
        && connections == old(connections) + [ConnectionToId(lastId, groupA, portA, groupB, portB)]
        && Routes() == WithRoute(old(Routes()), e.carlaPort, e.otherPort)
        && engine.callbacks == old(engine.callbacks) + [ConnectionAdded(lastId, groupA, portA, groupB, portB)]
        && engine.lastError == old(engine.lastError)
      ensures !ok ==>
        && lastId == old(lastId) && connections == old(connections) && Routes() == old(Routes())
        && engine.callbacks == old(engine.callbacks)
        && engine.lastError == (if EndsChecked(groupA, portA, groupB, portB) then "Invalid rack connection"
                                else old(engine.lastError))
      ensures midiIns == old(midiIns) && midiOuts == old(midiOuts) && Settings() == old(Settings())
    {
      if !EndsChecked(groupA, portA, groupB, portB) {
        return false;
      }
      var e := CarlaEnd(groupA, portA, groupB, portB).value;
      var makeConnection := IsAudioCarlaPort(e.carlaPort) || MidiPortAccepted(e, midiIns, midiOuts, midiPortOpened);
      if !makeConnection {
        engine.lastError := "Invalid rack connection";
        return false;
      }
      AddConnection(engine, groupA, portA, groupB, portB);
      ok := true;
    }

    /** The success path of `connect`: route, id, callback and entry. */
    method AddConnection(engine: Engine, groupA: nat, portA: nat, groupB: nat, portB: nat)
      requires Valid() && EndsChecked(groupA, portA, groupB, portB)
      modifies this, engine
      ensures Valid()
      ensures var e := CarlaEnd(groupA, portA, groupB, portB).value;
        && lastId == old(lastId) + 1
        && connections == old(connections) + [ConnectionToId(lastId, groupA, portA, groupB, portB)]
        && Routes() == WithRoute(old(Routes()), e.carlaPort, e.otherPort)
        && engine.callbacks == old(engine.callbacks) + [ConnectionAdded(lastId, groupA, portA, groupB, portB)]
        && engine.lastError == old(engine.lastError)
      ensures midiIns == old(midiIns) && midiOuts == old(midiOuts) && Settings() == old(Settings())
    {
      var e := CarlaEnd(groupA, portA, groupB, portB).value;
      AppendRoute(e.carlaPort, e.otherPort);
      var c := ConnectionToId(lastId + 1, groupA, portA, groupB, portB);
      AppendKeepsTable(connections, lastId, old(Routes()), c);
      lastId := lastId + 1;
      engine.callbacks := engine.callbacks + [ConnectionAdded(lastId, groupA, portA, groupB, portB)];
      connections := connections + [c];
    }

    /** `disconnect`. `midiPortClosed` is what the engine answers when asked
        to close the external MIDI port. An entry's audio route is always
        found, since the routing lists mirror the table. */
    method Disconnect(engine: Engine, connectionId: nat, midiPortClosed: bool) returns (ok: bool)
      requires Valid()
      modifies this, engine
      ensures Valid()
      ensures |old(connections)| == 0 ==>
        !ok && engine.lastError == old(engine.lastError)
      ensures |old(connections)| > 0 && IndexOfId(old(connections), connectionId) < 0 ==>
        !ok && engine.lastError == "Failed to find connection"
      ensures var k := IndexOfId(old(connections), connectionId);
        0 <= k ==>
          var e := EndOf(old(connections)[k]).value;
          && (ok <==> IsAudioCarlaPort(e.carlaPort) || MidiPortAccepted(e, midiIns, midiOuts, midiPortClosed))
          && (ok ==> connections == RemoveAt(old(connections), k)
                     && Routes() == WithoutRoute(old(Routes()), e.carlaPort, e.otherPort)
                     && engine.callbacks == old(engine.callbacks) + [ConnectionRemoved(connectionId)]
                     && engine.lastError == old(engine.lastError))
          && (!ok ==> engine.lastError == "Invalid rack connection")
      ensures !ok ==> connections == old(connections) && Routes() == old(Routes()) && engine.callbacks == old(engine.callbacks)
      ensures lastId == old(lastId) && midiIns == old(midiIns) && midiOuts == old(midiOuts) && Settings() == old(Settings())
    {
      if |connections| == 0 {
        return false;
      }
      var k := IndexOfId(connections, connectionId);
      if k < 0 {
        engine.lastError := "Failed to find connection";
        return false;
      }
      var e := EndOf(connections[k]).value;
      var makeDisconnection := IsAudioCarlaPort(e.carlaPort) || MidiPortAccepted(e, midiIns, midiOuts, midiPortClosed);
      if !makeDisconnection {
        engine.lastError := "Invalid rack connection";
        return false;
      }
      RemoveConnection(engine, k);
      ok := true;
    }

    /** The success path of `disconnect`: route, callback and entry. */
    method RemoveConnection(engine: Engine, k: nat)
      requires Valid() && k < |connections|
      modifies this, engine
      ensures Valid()
      ensures var e := EndOf(old(connections)[k]).value;
        && connections == RemoveAt(old(connections), k)
        && Routes() == WithoutRoute(old(Routes()), e.carlaPort, e.otherPort)
        && engine.callbacks == old(engine.callbacks) + [ConnectionRemoved(old(connections)[k].id)]
        && engine.lastError == old(engine.lastError)
      ensures lastId == old(lastId) && midiIns == old(midiIns) && midiOuts == old(midiOuts) && Settings() == old(Settings())
    {
      var e := EndOf(connections[k]).value;
      RemoveRoute(e.carlaPort, e.otherPort);
      RemoveKeepsTable(connections, lastId, old(Routes()), k);
      engine.callbacks := engine.callbacks + [ConnectionRemoved(connections[k].id)];
      connections := RemoveAt(connections, k);
    }

    /** `clearConnections`: empties the table, the routing lists and the
        MIDI port registry. Whether the id counter restarts is left open. */
    method ClearConnections()
      modifies this
      ensures Valid()
      ensures connections == [] && Routes() == Routing([], [], [], []) && midiIns == [] && midiOuts == []
      ensures Settings() == old(Settings())
    {
      connections := [];
      lastId := *;
      connectedIn1, connectedIn2, connectedOut1, connectedOut2 := [], [], [], [];
      midiIns, midiOuts := [], [];
    }

    /** `getConnections`: the names of every connection, source first, or
        nothing when the table or the resulting list is empty. */
    method GetConnections() returns (r: Option<seq<string>>)
      ensures |connections| == 0 ==> r == None
      ensures |connections| > 0 ==>
        var names := ConnectionNames(connections, midiIns, midiOuts);
        r == if |names| == 0 then None else Some(names)
    {
      if |connections| == 0 {
        return None;
      }
      var names: seq<string> := [];
      var i := 0;
      while i < |connections|
        invariant 0 <= i <= |connections|
        invariant names == ConnectionNames(connections[..i], midiIns, midiOuts)
      {
        assert connections[..i + 1][..i] == connections[..i];
        var c := connections[i];
        if c.id != 0 {
          match EndOf(c) {
            case Some(e) =>
              var carla := CarlaFullPortNameFromId(e.carlaPort).value;
              var ext := ExternalName(e, midiIns, midiOuts);
              if IsCarlaInput(e.carlaPort) {
                names := names + [ext, carla];
              } else {
                names := names + [carla, ext];
              }
            case None =>
          }
        }
        i := i + 1;
      }
      assert connections[..i] == connections;
      if |names| == 0 {
        return None;
      }
      return Some(names);
    }

    /** `process`: the plugin loop over the engine's plugin slots. */
    method Process(data: EngineData, slots: seq<PluginSlot>, run: PluginRun, audioIn: Stereo, frames: nat)
      returns (out: Stereo, result: EngineData)
      requires StereoOfLength(audioIn, frames)
      requires |data.eventsIn| == MaxEngineEventInternalCount && |data.peaks| == |slots|
      ensures var st := ChainUpTo(slots, run, frames, InitialChain(audioIn, frames, data.eventsIn, data.peaks), |slots|);
        out == st.outBuf && result == EngineData(st.eventsIn, st.eventsOut, st.peaks)
    {
      ghost var init := InitialChain(audioIn, frames, data.eventsIn, data.peaks);
      var inBuf := audioIn;
      out := ZeroStereo(frames);
      var eventsIn := data.eventsIn;
      var eventsOut := ZeroedEvents();
      var processed := false;
      var oldMidiOutCount := 0;
      var peaks := data.peaks;
      var i := 0;
      while i < |slots|
        invariant 0 <= i <= |slots|
        invariant ChainState(inBuf, out, eventsIn, eventsOut, processed, oldMidiOutCount, peaks)
                  == ChainUpTo(slots, run, frames, init, i)
      {
        var slot := slots[i];
        if Active(slot) {
          if processed {
            inBuf := out;
            out := ZeroStereo(frames);
            if !(oldMidiOutCount == 0 && eventsIn[0] != NullEvent) {
              eventsIn := eventsOut;
              eventsOut := ZeroedEvents();
            }
          }
          oldMidiOutCount := slot.midiOuts;
          var res := run(i, inBuf, eventsIn, eventsOut);
          out := FitStereo(res.audio, frames);
          eventsOut := FitEvents(res.eventsOut);
          if slot.audioIns == 0 {
            out := AddStereo(out, inBuf);
          }
          var ins := PeakPair(slot.audioIns > 0, inBuf);
          var outs := PeakPair(slot.audioOuts > 0, out);
          peaks := peaks[i := Peaks(ins.0, ins.1, outs.0, outs.1)];
          processed := true;
        }
        i := i + 1;
      }
      result := EngineData(eventsIn, eventsOut, peaks);
    }

    /** `processHelper`: fan the device inputs into the rack, run the plugin
        chain and accumulate the rack's output onto the device outputs. */
    method ProcessHelper(data: EngineData, slots: seq<PluginSlot>, run: PluginRun,
                         devIn: Option<seq<Channel>>, devOut: array<Channel>, frames: nat)
      returns (result: EngineData)
      requires |data.eventsIn| == MaxEngineEventInternalCount && |data.peaks| == |slots|
      requires devIn.Some? ==> inputs <= |devIn.value| && ChannelsOfLength(devIn.value, frames)
      requires outputs <= devOut.Length && ChannelsOfLength(devOut[..], frames)
      modifies devOut
      ensures !HasBuffers() ==> result == data && devOut[..] == old(devOut[..])
      ensures HasBuffers() ==>
        var st := ChainUpTo(slots, run, frames,
                            InitialChain(RackInput(devIn, connectedIn1, connectedIn2, inputs, frames),
                                         frames, data.eventsIn, data.peaks), |slots|);
        && result == EngineData(st.eventsIn, st.eventsOut, st.peaks)
        && devOut[..] == FanOut(FanOut(old(devOut[..]), connectedOut1, st.outBuf.left, outputs),
                                connectedOut2, st.outBuf.right, outputs)
    {
      if !HasBuffers() {
        return data;
      }
      var inBuf: Stereo;
      if devIn.Some? && inputs > 0 {
        var left := ConnectInputs(devIn.value, connectedIn1, inputs, frames);
        var right := ConnectInputs(devIn.value, connectedIn2, inputs, frames);
        inBuf := Stereo(left, right);
      } else {
        inBuf := ZeroStereo(frames);
      }
      var out;
      out, result := Process(data, slots, run, inBuf, frames);
      AccumulateOutputs(devOut, connectedOut1, out.left, outputs);
      AccumulateOutputs(devOut, connectedOut2, out.right, outputs);
    }
  }
}

=== FILE: rack_names.dfy ===
/** The rack graph's name codec: Carla port short names, full port names
    such as `Carla:AudioIn1`, `AudioIn:<n>` and `MidiIn:<device>`, the
    `atoi` the parser relies on, and the external MIDI port registry. */
module RackNames {
  import opened Common
  import opened Constants

  predicate HasPrefix(s: string, p: string)
  {
    |p| <= |s| && s[..|p|] == p
  }

  // ---------------------------------------------------------------------
  // Carla ports

  /** `getCarlaRackPortIdFromName`: both the CamelCase and the kebab-case
      short name select a port; anything else gives `PortNull`. */
  function CarlaPortIdFromName(shortName: string): (portId: nat)
    ensures portId == PortNull || PortNull < portId < PortMax
  {
    if shortName == "AudioIn1" || shortName == "audio-in1" then PortAudioIn1
    else if shortName == "AudioIn2" || shortName == "audio-in2" then PortAudioIn2
    else if shortName == "AudioOut1" || shortName == "audio-out1" then PortAudioOut1
    else if shortName == "AudioOut2" || shortName == "audio-out2" then PortAudioOut2
    else if shortName == "MidiIn" || shortName == "midi-in" then PortMidiIn
    else if shortName == "MidiOut" || shortName == "midi-out" then PortMidiOut
    else PortNull
  }

  /** The kebab-case name under which the rack advertises a Carla port. */
  function CarlaPortShortName(portId: nat): string
    requires PortNull < portId < PortMax
  {
    if portId == PortAudioIn1 then "audio-in1"
    else if portId == PortAudioIn2 then "audio-in2"
    else if portId == PortAudioOut1 then "audio-out1"
    else if portId == PortAudioOut2 then "audio-out2"
    else if portId == PortMidiIn then "midi-in"
    else "midi-out"
  }

  /** `getCarlaRackFullPortNameFromId`: a name for each of the six Carla
      ports, none (a null pointer) for any other id. */
  function CarlaFullPortNameFromId(portId: nat): (name: Option<string>)
    ensures name.Some? <==> PortNull < portId < PortMax
    ensures name.Some? ==> HasPrefix(name.value, "Carla:") && |name.value| > 6
  {
    if portId == PortAudioIn1 then Some("Carla:AudioIn1")
    else if portId == PortAudioIn2 then Some("Carla:AudioIn2")
    else if portId == PortAudioOut1 then Some("Carla:AudioOut1")
    else if portId == PortAudioOut2 then Some("Carla:AudioOut2")
    else if portId == PortMidiIn then Some("Carla:MidiIn")
    else if portId == PortMidiOut then Some("Carla:MidiOut")
    else None
  }

  // ---------------------------------------------------------------------
  // Decimal integers: C's atoi and the "%i" formatting

  predicate IsDigit(c: char)
  {
    '0' <= c <= '9'
  }

  predicate IsSpace(c: char)
  {
    c == ' ' || c == '\t' || c == '\n' || c == '\U{000B}' || c == '\U{000C}' || c == '\r'
  }

  predicate AllDigits(s: string)
  {
    forall i :: 0 <= i < |s| ==> IsDigit(s[i])
  }

  function SkipSpaces(s: string): (r: string)
    ensures |r| <= |s| && r == s[|s| - |r|..]
    ensures |r| > 0 ==> !IsSpace(r[0])
  {
    if |s| > 0 && IsSpace(s[0]) then SkipSpaces(s[1..]) else s
  }

  /** The longest prefix of `s` made of decimal digits. */
  function LeadingDigits(s: string): (d: string)
    ensures |d| <= |s| && d == s[..|d|]
    ensures AllDigits(d)
    ensures |d| < |s| ==> !IsDigit(s[|d|])
  {
    if |s| == 0 || !IsDigit(s[0]) then []
    else [s[0]] + LeadingDigits(s[1..])
  }

  function DigitValue(c: char): nat
    requires IsDigit(c)
  {
    (c as int) - ('0' as int)
  }

  function DigitChar(n: nat): (c: char)
    requires n < 10
    ensures IsDigit(c) && DigitValue(c) == n
  {
    (('0' as int) + n) as char
  }

  /** The value of a string of decimal digits, most significant first. */
  function DigitsValue(d: string): nat
    requires AllDigits(d)
  {
    if |d| == 0 then 0
    else DigitsValue(d[..|d| - 1]) * 10 + DigitValue(d[|d| - 1])
  }

  /** `atoi`: skip white space, read an optional sign, then the leading
      digits; no digits read gives 0. Values beyond the C `int` range, which
      `atoi` leaves undefined, are kept unbounded here. */
  function Atoi(s: string): int
  {
    var t := SkipSpaces(s);
    if |t| > 0 && t[0] == '-' then -(DigitsValue(LeadingDigits(t[1..])) as int)
    else if |t| > 0 && t[0] == '+' then DigitsValue(LeadingDigits(t[1..]))
    else DigitsValue(LeadingDigits(t))
  }

  function NatToString(n: nat): (s: string)
    ensures |s| > 0 && AllDigits(s)
    decreases n
  {
    if n < 10 then [DigitChar(n)] else NatToString(n / 10) + [DigitChar(n % 10)]
  }

  /** `"%i"` of a signed value. */
  function IntToString(i: int): (s: string)
    ensures |s| > 0 && !IsSpace(s[0])
  {
    if i < 0 then "-" + NatToString(-i) else NatToString(i)
  }

  /** `"%i"` applied to an unsigned 32-bit port: the value is read back as
      a signed 32-bit integer. */
  function AsInt32(p: nat): (i: int)
    ensures -0x8000_0000 <= i < 0x8000_0000
    ensures i % Uint32Modulus == p % Uint32Modulus
  {
    var u := p % Uint32Modulus;
    if u < 0x8000_0000 then u else u - Uint32Modulus
  }

  lemma {:induction false} LeadingDigitsOfDigits(s: string)
    requires AllDigits(s)
    ensures LeadingDigits(s) == s
  {
    if |s| > 0 {
      LeadingDigitsOfDigits(s[1..]);
      assert s == [s[0]] + s[1..];
    }
  }

  lemma {:induction false} NatToStringValue(n: nat)
    ensures DigitsValue(NatToString(n)) == n
    decreases n
  {
    if n >= 10 {
      var s := NatToString(n);
      assert s[..|s| - 1] == NatToString(n / 10);
      NatToStringValue(n / 10);
    }
  }

  /** Formatting with `"%i"` and parsing with `atoi` give the value back. */
  lemma AtoiOfIntToString(i: int)
    ensures Atoi(IntToString(i)) == i
  {
    var s := IntToString(i);
    assert SkipSpaces(s) == s;
    if i < 0 {
      assert s[1..] == NatToString(-i);
      LeadingDigitsOfDigits(NatToString(-i));
      NatToStringValue(-i);
    } else {
      LeadingDigitsOfDigits(s);
      NatToStringValue(i);
    }
  }

  // ---------------------------------------------------------------------
  // External MIDI port registry (`RackGraph::MIDI`)

  /** A registered external MIDI port; entries with group 0 are invalid and
      skipped by every lookup. */
  datatype PortNameToId = PortNameToId(group: nat, port: nat, name: string, fullName: string)

  /** Position of the first valid entry with port id `portId`, or -1. */
  function FirstWithPort(list: seq<PortNameToId>, portId: nat): (k: int)
    ensures -1 <= k < |list|
    ensures k == -1 <==> forall i :: 0 <= i < |list| ==> list[i].group == 0 || list[i].port != portId
    ensures 0 <= k ==> list[k].group != 0 && list[k].port == portId
    ensures 0 <= k ==> forall i :: 0 <= i < k ==> list[i].group == 0 || list[i].port != portId
  {
    if |list| == 0 then -1
    else if list[0].group != 0 && list[0].port == portId then 0
    else
      var k := FirstWithPort(list[1..], portId);
      if k == -1 then -1 else k + 1
  }

  /** Position of the first valid entry named `name`, or -1. */
  function FirstWithName(list: seq<PortNameToId>, name: string): (k: int)
    ensures -1 <= k < |list|
    ensures k == -1 <==> forall i :: 0 <= i < |list| ==> list[i].group == 0 || list[i].name != name
    ensures 0 <= k ==> list[k].group != 0 && list[k].name == name
    ensures 0 <= k ==> forall i :: 0 <= i < k ==> list[i].group == 0 || list[i].name != name
  {
    if |list| == 0 then -1
    else if list[0].group != 0 && list[0].name == name then 0
    else
      var k := FirstWithName(list[1..], name);
      if k == -1 then -1 else k + 1
  }

  /** `MIDI::getName`: the name of the first valid entry with that port id. */
  function MidiPortName(list: seq<PortNameToId>, portId: nat): (r: Option<string>)
    ensures r.Some? <==> exists i :: 0 <= i < |list| && list[i].group != 0 && list[i].port == portId
  {
    var k := FirstWithPort(list, portId);
    if k < 0 then None else Some(list[k].name)
  }

  /** `MIDI::getPortId`: the port id of the first valid entry with that name;
      `ok` is false (and the id 0) when there is none. */
  function MidiPortId(list: seq<PortNameToId>, name: string): (r: Option<nat>)
    ensures r.Some? <==> exists i :: 0 <= i < |list| && list[i].group != 0 && list[i].name == name
  {
    var k := FirstWithName(list, name);
    if k < 0 then None else Some(list[k].port)
  }

  /** The id `getPortId` hands back when the caller ignores `ok`. */
  function MidiPortIdOrZero(list: seq<PortNameToId>, name: string): nat
  {
    match MidiPortId(list, name)
    case Some(p) => p
    case None => 0
  }

  ghost predicate DistinctNames(list: seq<PortNameToId>)
  {
    forall i, j :: 0 <= i < j < |list| && list[i].group != 0 && list[j].group != 0 ==> list[i].name != list[j].name
  }

  /** With distinct names, looking up the id of a port's name gives the port
      back. */
  lemma RegistryRoundTrip(list: seq<PortNameToId>, portId: nat)
    requires DistinctNames(list)
    requires MidiPortName(list, portId).Some?
    ensures MidiPortId(list, MidiPortName(list, portId).value) == Some(portId)
  {
    var k := FirstWithPort(list, portId);
    var k' := FirstWithName(list, list[k].name);
    assert k' == k;
  }

  // ---------------------------------------------------------------------
  // Full port names

  datatype PortRef = PortRef(group: nat, port: nat)

  /** `RackGraph::getGroupAndPortIdFromFullName`. */
  function RackPortFromFullName(fullName: string, ins: seq<PortNameToId>, outs: seq<PortNameToId>): (r: Option<PortRef>)
    ensures r.Some? ==> GroupCarla <= r.value.group < GroupMax
    ensures r.Some? && r.value.group == GroupCarla ==> PortNull < r.value.port < PortMax
  {
    if |fullName| == 0 then None
    else if HasPrefix(fullName, "Carla:") then
      var p := CarlaPortIdFromName(fullName[6..]);
      if PortNull < p < PortMax then Some(PortRef(GroupCarla, p)) else None
    else if HasPrefix(fullName, "AudioIn:") then
      var n := Atoi(fullName[8..]);
      if n != 0 then Some(PortRef(GroupAudioIn, n % Uint32Modulus)) else None
    else if HasPrefix(fullName, "AudioOut:") then
      var n := Atoi(fullName[9..]);
      if n != 0 then Some(PortRef(GroupAudioOut, n % Uint32Modulus)) else None
    else if HasPrefix(fullName, "MidiIn:") then
      match MidiPortId(ins, fullName[7..])
      case Some(p) => Some(PortRef(GroupMidiIn, p))
      case None => None
    else if HasPrefix(fullName, "MidiOut:") then
      match MidiPortId(outs, fullName[8..])
      case Some(p) => Some(PortRef(GroupMidiOut, p))
      case None => None
    else None
  }

  /** Every Carla port's full name, and its kebab-case alias, parse back to
      that port of the Carla group. */
  lemma CarlaFullNameRoundTrip(portId: nat, ins: seq<PortNameToId>, outs: seq<PortNameToId>)
    requires PortNull < portId < PortMax
    ensures RackPortFromFullName(CarlaFullPortNameFromId(portId).value, ins, outs) == Some(PortRef(GroupCarla, portId))
    ensures RackPortFromFullName("Carla:" + CarlaPortShortName(portId), ins, outs) == Some(PortRef(GroupCarla, portId))
  {
    var alias := "Carla:" + CarlaPortShortName(portId);
    assert alias[..6] == "Carla:" && alias[6..] == CarlaPortShortName(portId);
    if portId == PortAudioIn1 {
      assert "Carla:AudioIn1"[6..] == "AudioIn1";
    } else if portId == PortAudioIn2 {
      assert "Carla:AudioIn2"[6..] == "AudioIn2";
    } else if portId == PortAudioOut1 {
      assert "Carla:AudioOut1"[6..] == "AudioOut1";
    } else if portId == PortAudioOut2 {
      assert "Carla:AudioOut2"[6..] == "AudioOut2";
    } else if portId == PortMidiIn {
      assert "Carla:MidiIn"[6..] == "MidiIn";
    } else {
      assert "Carla:MidiOut"[6..] == "MidiOut";
    }
  }

  /** `AudioIn:<s>` names hardware input `atoi(s)` (as an unsigned 32-bit
      value) exactly when `atoi(s)` is nonzero; `AudioOut:<s>` likewise. */
  lemma AudioFullNameParse(s: string, isInput: bool, ins: seq<PortNameToId>, outs: seq<PortNameToId>)
    ensures var n := Atoi(s);
      RackPortFromFullName((if isInput then "AudioIn:" else "AudioOut:") + s, ins, outs)
        == if n != 0 then Some(PortRef(if isInput then GroupAudioIn else GroupAudioOut, n % Uint32Modulus)) else None
  {
    var full := (if isInput then "AudioIn:" else "AudioOut:") + s;
    assert full[..6] != "Carla:" by { assert full[0] == 'A'; }
    if isInput {
      assert full[..8] == "AudioIn:" && full[8..] == s;
    } else {
      assert full[..8] != "AudioIn:" by { assert full[6] == 'u'; }
      assert full[..9] == "AudioOut:" && full[9..] == s;
    }
  }

  /** A hardware port number formatted with `"%i"` parses back to the same
      port, except port 0, which the parser rejects. */
  lemma AudioFullNameRoundTrip(port: nat, isInput: bool, ins: seq<PortNameToId>, outs: seq<PortNameToId>)
    requires 0 < port < Uint32Modulus
    ensures RackPortFromFullName((if isInput then "AudioIn:" else "AudioOut:") + IntToString(AsInt32(port)), ins, outs)
              == Some(PortRef(if isInput then GroupAudioIn else GroupAudioOut, port))
  {
    var n := AsInt32(port);
    var s := IntToString(n);
    AtoiOfIntToString(n);
    assert n % Uint32Modulus == port;
    AudioFullNameParse(s, isInput, ins, outs);
  }

  /** `MidiIn:<name>` resolves exactly when `name` is a registered input, to
      that input's id; `MidiOut:<name>` likewise for outputs. */
  lemma MidiFullNameParse(name: string, isInput: bool, ins: seq<PortNameToId>, outs: seq<PortNameToId>)
    ensures var reg := if isInput then ins else outs;
      RackPortFromFullName((if isInput then "MidiIn:" else "MidiOut:") + name, ins, outs)
        == match MidiPortId(reg, name)
           case Some(p) => Some(PortRef(if isInput then GroupMidiIn else GroupMidiOut, p))
           case None => None
  {
    var full := (if isInput then "MidiIn:" else "MidiOut:") + name;
    assert !HasPrefix(full, "Carla:") by { assert full[0] == 'M'; }
    assert !HasPrefix(full, "AudioIn:") by { assert full[0] == 'M'; }
    assert !HasPrefix(full, "AudioOut:") by { assert full[0] == 'M'; }
    if isInput {
      assert full[..7] == "MidiIn:" && full[7..] == name;
    } else {
      assert full[..7] != "MidiIn:" by { assert full[4] == 'O'; }
      assert full[..8] == "MidiOut:" && full[8..] == name;
    }
  }
}

=== FILE: rack_routing.dfy ===
/** How `RackGraph::processHelper` routes device audio in and out of the
    rack: each internal input is the sum of the device inputs connected to
    it, and each internal output is accumulated onto every device output it
    is connected to. */
module RackRouting {
  import opened Samples

  /** The guard the fan-in applies to a connected input port: port 0 and
      any port from `inputs` up are skipped. */
  predicate InputQualifies(port: nat, inputs: nat)
  {
    0 < port < inputs
  }

  /** The guard the fan-out applies to a connected output port. */
  predicate OutputQualifies(port: nat, outputs: nat)
  {
    0 < port <= outputs
  }

  ghost predicate ChannelsOfLength(chs: seq<Channel>, frames: nat)
  {
    forall c :: 0 <= c < |chs| ==> |chs[c]| == frames
  }

  /** The internal input buffer after the fan-in over `ports`, taken in list
      order: the first qualifying port is copied, the later ones are added,
      and silence is left when none qualifies. */
  function FanIn(devIn: seq<Channel>, ports: seq<nat>, inputs: nat, frames: nat): (r: Channel)
    requires inputs <= |devIn| && ChannelsOfLength(devIn, frames)
    ensures |r| == frames
    decreases |ports|
  {
    if |ports| == 0 then Zeros(frames)
    else
      var rest := FanIn(devIn, ports[..|ports| - 1], inputs, frames);
      var p := ports[|ports| - 1];
      if InputQualifies(p, inputs) then Add(rest, devIn[p]) else rest
  }

  /** Reference definition: sample `j` of the sum of the qualifying
      connected inputs. */
  function SumAt(devIn: seq<Channel>, ports: seq<nat>, inputs: nat, frames: nat, j: nat): real
    requires inputs <= |devIn| && ChannelsOfLength(devIn, frames) && j < frames
  {
    if |ports| == 0 then 0.0
    else
      (if InputQualifies(ports[0], inputs) then devIn[ports[0]][j] else 0.0)
        + SumAt(devIn, ports[1..], inputs, frames, j)
  }

  lemma {:induction false} SumAtSnoc(devIn: seq<Channel>, ports: seq<nat>, p: nat, inputs: nat, frames: nat, j: nat)
    requires inputs <= |devIn| && ChannelsOfLength(devIn, frames) && j < frames
    ensures SumAt(devIn, ports + [p], inputs, frames, j)
         == SumAt(devIn, ports, inputs, frames, j) + (if InputQualifies(p, inputs) then devIn[p][j] else 0.0)
    decreases |ports|
  {
    if |ports| > 0 {
      assert (ports + [p])[1..] == ports[1..] + [p];
      SumAtSnoc(devIn, ports[1..], p, inputs, frames, j);
    }
  }

  /** Every sample of the fan-in is the sum, over the qualifying connected
      ports, of that sample of the device input. */
  lemma {:induction false} FanInIsSum(devIn: seq<Channel>, ports: seq<nat>, inputs: nat, frames: nat, j: nat)
    requires inputs <= |devIn| && ChannelsOfLength(devIn, frames) && j < frames
    ensures FanIn(devIn, ports, inputs, frames)[j] == SumAt(devIn, ports, inputs, frames, j)
    decreases |ports|
  {
    if |ports| > 0 {
      var init, p := ports[..|ports| - 1], ports[|ports| - 1];
      FanInIsSum(devIn, init, inputs, frames, j);
      assert ports == init + [p];
      SumAtSnoc(devIn, init, p, inputs, frames, j);
    }
  }

  /** With no qualifying port connected, the internal input is silent. */
  lemma {:induction false} FanInWithoutConnections(devIn: seq<Channel>, ports: seq<nat>, inputs: nat, frames: nat)
    requires inputs <= |devIn| && ChannelsOfLength(devIn, frames)
    requires forall k :: 0 <= k < |ports| ==> !InputQualifies(ports[k], inputs)
    ensures FanIn(devIn, ports, inputs, frames) == Zeros(frames)
    decreases |ports|
  {
    if |ports| > 0 {
      FanInWithoutConnections(devIn, ports[..|ports| - 1], inputs, frames);
    }
  }

  /** The highest-numbered device input (port `inputs`) never reaches the
      rack, although device inputs are announced with 1-based ids. */
  lemma FanInSkipsLastDeviceInput(devIn: seq<Channel>, inputs: nat, frames: nat)
    requires inputs <= |devIn| && ChannelsOfLength(devIn, frames)
    ensures FanIn(devIn, [inputs], inputs, frames) == Zeros(frames)
  {
    FanInWithoutConnections(devIn, [inputs], inputs, frames);
  }

  /** The device output channels after accumulating `buf` onto channel
      `port - 1` for each qualifying `port` in `ports`, in list order. */
  function FanOut(devOut: seq<Channel>, ports: seq<nat>, buf: Channel, outputs: nat): (r: seq<Channel>)
    requires outputs <= |devOut| && ChannelsOfLength(devOut, |buf|)
    ensures |r| == |devOut| && ChannelsOfLength(r, |buf|)
    decreases |ports|
  {
    if |ports| == 0 then devOut
    else
      var prev := FanOut(devOut, ports[..|ports| - 1], buf, outputs);
      var p := ports[|ports| - 1];
      if OutputQualifies(p, outputs) then prev[p - 1 := Add(prev[p - 1], buf)] else prev
  }

  /** Number of times `x` occurs in `s`. */
  function Occurrences(s: seq<nat>, x: nat): nat
  {
    if |s| == 0 then 0
    else Occurrences(s[..|s| - 1], x) + (if s[|s| - 1] == x then 1 else 0)
  }

  /** Each device output channel `c` receives `buf` once per connection to
      port `c + 1` (only when that port is within `outputs`); channels
      without such a connection keep their samples. */
  lemma {:induction false} FanOutAccumulates(devOut: seq<Channel>, ports: seq<nat>, buf: Channel, outputs: nat, c: nat)
    requires outputs <= |devOut| && ChannelsOfLength(devOut, |buf|) && c < |devOut|
    ensures FanOut(devOut, ports, buf, outputs)[c]
         == Accumulated(devOut[c], buf, if c < outputs then Occurrences(ports, c + 1) else 0)
    decreases |ports|
  {
    var n := if c < outputs then Occurrences(ports, c + 1) else 0;
    if |ports| == 0 {
      assert Accumulated(devOut[c], buf, 0) == devOut[c];
    } else {
      var init, p := ports[..|ports| - 1], ports[|ports| - 1];
      FanOutAccumulates(devOut, init, buf, outputs, c);
      var m := if c < outputs then Occurrences(init, c + 1) else 0;
      if OutputQualifies(p, outputs) && p - 1 == c {
        AccumulateOnce(devOut[c], buf, m);
      }
    }
  }
}

=== FILE: samples.dfy ===
/** Audio channels as sequences of real samples, with the vector operations
    the graph uses (`FloatVectorOperations::clear/copy/add/findMinAndMax`) and
    the peak meter formula. */
module Samples {

  type Channel = seq<real>

  function Abs(x: real): real
  {
    if x < 0.0 then -x else x
  }

  /** A silent channel of `n` frames. */
  function Zeros(n: nat): (r: Channel)
    ensures |r| == n
    ensures forall j :: 0 <= j < n ==> r[j] == 0.0
  {
    seq(n, _ => 0.0)
  }

  /** Sample-wise sum of two channels of the same length. */
  function Add(a: Channel, b: Channel): (r: Channel)
    requires |a| == |b|
    ensures |r| == |a|
    ensures forall j :: 0 <= j < |a| ==> r[j] == a[j] + b[j]
  {
    seq(|a|, j requires 0 <= j < |a| => a[j] + b[j])
  }

  /** `a` plus `n` times `b`, sample by sample: what `n` accumulations of `b`
      onto `a` leave behind. */
  function Accumulated(a: Channel, b: Channel, n: nat): (r: Channel)
    requires |a| == |b|
    ensures |r| == |a|
    ensures forall j :: 0 <= j < |a| ==> r[j] == a[j] + (n as real) * b[j]
  {
    seq(|a|, j requires 0 <= j < |a| => a[j] + (n as real) * b[j])
  }

  lemma AddZerosLeft(b: Channel)
    ensures Add(Zeros(|b|), b) == b
  {
  }

  lemma AddZerosRight(a: Channel)
    ensures Add(a, Zeros(|a|)) == a
  {
  }

  /** Adding `b` once more to `a + n*b` gives `a + (n+1)*b`. */
  lemma AccumulateOnce(a: Channel, b: Channel, n: nat)
    requires |a| == |b|
    ensures Add(Accumulated(a, b, n), b) == Accumulated(a, b, n + 1)
  {
    var l, r := Add(Accumulated(a, b, n), b), Accumulated(a, b, n + 1);
    forall j | 0 <= j < |a|
      ensures l[j] == r[j]
    {
      calc {
        l[j];
        a[j] + (n as real) * b[j] + b[j];
        a[j] + ((n + 1) as real) * b[j];
        r[j];
      }
    }
  }

  /** The start of the range `findMinAndMax` reports (0 for no samples). */
  function MinOf(s: Channel): (m: real)
    ensures |s| > 0 ==> (forall j :: 0 <= j < |s| ==> m <= s[j])
    ensures |s| > 0 ==> exists j :: 0 <= j < |s| && s[j] == m
    ensures |s| == 0 ==> m == 0.0
  {
    if |s| == 0 then 0.0
    else if |s| == 1 then s[0]
    else
      var rest := MinOf(s[1..]);
      assert forall j :: 1 <= j < |s| ==> s[j] == s[1..][j - 1];
      if s[0] <= rest then s[0] else rest
  }

  /** The end of the range `findMinAndMax` reports (0 for no samples). */
  function MaxOf(s: Channel): (m: real)
    ensures |s| > 0 ==> (forall j :: 0 <= j < |s| ==> s[j] <= m)
    ensures |s| > 0 ==> exists j :: 0 <= j < |s| && s[j] == m
    ensures |s| == 0 ==> m == 0.0
  {
    if |s| == 0 then 0.0
    else if |s| == 1 then s[0]
    else
      var rest := MaxOf(s[1..]);
      assert forall j :: 1 <= j < |s| ==> s[j] == s[1..][j - 1];
      if s[0] >= rest then s[0] else rest
  }

  /** The largest magnitude in the channel (0 for no samples). */
  function MaxAbs(s: Channel): (m: real)
    ensures m >= 0.0
    ensures forall j :: 0 <= j < |s| ==> Abs(s[j]) <= m
    ensures |s| > 0 ==> exists j :: 0 <= j < |s| && Abs(s[j]) == m
  {
    if |s| == 0 then 0.0
    else
      var rest := MaxAbs(s[1..]);
      assert forall j :: 1 <= j < |s| ==> s[j] == s[1..][j - 1];
      if Abs(s[0]) >= rest then Abs(s[0]) else rest
  }

  /** `carla_maxLimited(|min|, |max|, 1.0)` over the channel's range: the
      peak value stored for a plugin, always within [0, 1]. */
  function Peak(s: Channel): (p: real)
    ensures 0.0 <= p <= 1.0
  {
    var lo, hi := Abs(MinOf(s)), Abs(MaxOf(s));
    var m := if lo >= hi then lo else hi;
    if m <= 1.0 then m else 1.0
  }

  /** The peak formula is the channel's largest magnitude, clamped to 1. */
  lemma PeakIsClampedMaxAbs(s: Channel)
    ensures Peak(s) == (if MaxAbs(s) <= 1.0 then MaxAbs(s) else 1.0)
  {
    if |s| > 0 {
      var lo, hi, m := MinOf(s), MaxOf(s), MaxAbs(s);
      var c :| 0 <= c < |s| && Abs(s[c]) == m;
      assert lo <= s[c] <= hi;
      var a :| 0 <= a < |s| && s[a] == lo;
      var b :| 0 <= b < |s| && s[b] == hi;
      assert Abs(lo) <= m && Abs(hi) <= m;
      assert m <= (if Abs(lo) >= Abs(hi) then Abs(lo) else Abs(hi));
    }
  }
}
